=== FILE: README.md ===
# autocast, modelled in Dafny

autocast turns a YAML script into an asciicast v2 recording. The script gives
settings and a list of instructions. The instructions are commands typed into
a real shell, interactive commands driven by key presses, pauses, markers and
screen clears. The recording shows each command being typed one key per
`type_speed`, then the shell's real output up to its next prompt.

This project models the core of that pipeline as pure Dafny functions over
immutable data:

- **Script vocabulary.** Shells, commands, keys, instructions and settings (`Config`).
- **Merging settings.** Command-line settings are merged into the script's (`Config.MergeSettings`).
- **Deserialisers.**
  - The custom deserialisers for commands, keys and shells (`DeCommand`, `DeKey`, `DeShell`).
  - Their shared helpers, including the `map_fields!` loop (`De`).
  - The duration grammar `1s` / `150ms` / `900us` (`DurationParse`, `Decimal`).
- **Shell session.** The state of the session, a read of shell output and the wait for the prompt (`ShellSession`).
- **Typing and sending.** How a command is shown while typed, and which bytes go to the shell for a command or a key (`Typing`).
- **Running instructions.** Running one instruction, and running them all in order (`Run`).
- **Assembling the recording.** The fold that turns the fragments into timed events (`Assemble`).
- **Recording a script.** Terminal size, environment and header (`Record`).
- **Writing the file.** The asciicast serialiser: header fields, event arrays, the `", "` / `": "` formatter and the line layout (`Asciicast`).

Supporting modules:

- `Base`: `Option`/`Result`, `u16`/`u64` bounds, time units.
- `Text`: prefix/suffix stripping, `split_once`/`rsplit_once`, `join`, `split`, `lines`, `trim`.
- `Utf8`: encoding, plus a decoder that inverts it.
- `ControlCodes`: the caret-notation control codes, as an opaque table.

Time is measured in nanoseconds, as `nat`. Monotonic instants are `nat`s. The
difference of two instants saturates at zero, as Rust's `Instant` subtraction
does. Wall-clock time is an `int`, counted from the Unix epoch.

The outside world is passed in as inputs:

- the pseudo-terminal (the text each read returns, the clock around it, and whether each write succeeds);
- the terminal size;
- `which`, environment variables and the wall clock;
- the outcome of an interactive command's key loop.

## Model

| member | source | states |
|---|---|---|
| Config.MergeOption | src/config.rs:474-480 | the merged option is present iff either side is; a present `other` always wins, an absent one keeps `self` |
| Config.MergeSeq | src/config.rs:482-486 | merging lists keeps `self` as the prefix and `other` as the suffix, nothing dropped or reordered |
| Config.MergeShell | src/config.rs:334-340 | the shell stays `self` exactly when `other` is the default shell (or equal to `self`); otherwise `other` replaces it |
| Config.MergeSettings | src/config.rs:225-273 | each setting is merged on its own: options and shell as above, environment lists concatenated, type speed / prompts / timeout replaced unless `other` holds the default |
| Config.MergeDefaultRight | src/config.rs:275-290 | merging in `Settings::default()` leaves any settings unchanged |
| Config.MergeDefaultLeft | src/config.rs:240-272 | merging any settings into the defaults yields those settings |
| Config.MergeAssociative | src/config.rs:240-272 | merging three layers of settings gives the same result in either grouping |
| Config.MergeWidthExample | src/config.rs:228-238 | the documented example: a width of 100 merged into the defaults is kept |
| Config.Quote | src/config.rs:320-326 | a word with whitespace is wrapped in double quotes with its text unchanged inside; any other word is kept as it is |
| Config.QuoteAll | src/config.rs:318-327 | every word of the command line is quoted by the same rule, position by position |
| Config.CustomDisplaySplits | src/config.rs:313-332 | a custom shell whose words hold no whitespace displays as text that splits at spaces back into program and arguments |
| Config.BuiltinDisplayIsProgram | src/config.rs:313-356 | bash and python display as the very program that is run |
| Config.Program | src/config.rs:350-356 | bash runs `bash`, python runs `python`, a custom shell runs its own program |
| Config.LineSplit | src/config.rs:343-348 | built-in shells continue lines with `" \\"`, a custom shell with its own line split |
| Config.EnvVarFrom | src/config.rs:394-408 | the name never holds `=`; with an `=` present, name `=` value rebuilds the text; without one the whole text is the name and the value is empty |
| Config.EnvVarRoundTrip | src/config.rs:394-408 | any variable whose name has no `=` survives `NAME=VALUE` parsing |
| Config.TerminalSize | src/config.rs:111-118 | a size results iff both dimensions are given or the terminal can be queried; given dimensions are kept, a missing width takes the terminal's columns and a missing height its rows |
| Config.EnvMap | src/config.rs:88 | the map has exactly the names of the script's variables, each with the value of its last occurrence |
| Config.Capture | src/config.rs:89-92 | captured names are added without overriding existing entries, each with the recorder's own value or empty |
| Config.BuildEnv | src/config.rs:88-93 | the header env holds exactly the script's names, the captured names and `SHELL`; script values win (last duplicate), captured values come from the environment, `SHELL` is the resolved shell |
| DurationParse.Scaled | src/config/duration.rs:11-15 | succeeds iff the numeric part parses as a `u64`; the value is that number of units in nanoseconds; a failure is the integer error of that parse |
| DurationParse.Parse | src/config/duration.rs:6-19 | whitespace left after trimming is exactly the `ContainsWhitespace` error; otherwise a trimmed text ending in `ms` is read as milliseconds, else one ending in `us` as microseconds, else one ending in `s` as seconds, each from the numeric part before the suffix; the unknown-unit error happens exactly when the trimmed text does not end in `s` |
| DurationParse.ParseRoundTrip | src/config/duration.rs:6-19 | the decimal text of any `u64` followed by `s`, `ms` or `us` parses to that many units |
| DurationParse.HelpExamples | src/config/duration.rs:6-19 | `1s`, `150ms` and `900us` parse to one second, 150 ms and 900 µs |
| DurationParse.NonCanonicalExamples | src/config/duration.rs:6-19 | `05ms` and `+5s` parse as Rust's `u64` parser reads them; `-5s` is an invalid digit and `ms` an empty integer |
| Decimal.ParseU64 | src/config/duration.rs:11-15 | the `u64` parse of the numeric part: empty text is the empty error; success iff, after an optional `+`, one or more digits with a value within `u64` |
| Decimal.ParseShow | src/config/duration.rs:11-15 | parsing the decimal text of any `u64` gives the number back |
| De.ParseControl | src/config/de.rs:36-42 | succeeds iff the text is exactly one char that names a control code; otherwise the "single control char" or "valid control char" error |
| De.ControlFromVariant | src/config/de.rs:44-51 | a payload error passes through; a char succeeds iff it names a control code, else the "valid control char" error |
| De.ControlNotationsAgree | src/config/de.rs:36-51 | the tagged char form and the caret form of a control code decide alike |
| De.MapFields | src/config/de.rs:3-25 | the loop succeeds iff no entry fails; on failure the error is that of the first failing entry (key error, then duplicate field, then value error); on success every field maps to its decoded value and only given fields are present |
| DeCommand.VisitStr | src/config/de/command.rs:29-38 | a leading `^` is a control code (its parse error otherwise); else text with a line feed becomes its lines; else a single line equal to the text |
| DeCommand.VisitStringAgrees | src/config/de/command.rs:40-46 | the owned-string shortcut decides the same as `visit_str` |
| DeCommand.SingleLineRoundTrip | src/config/de/command.rs:29-38 | a line with no line feed and no leading `^` reads back as itself |
| DeCommand.MultiLineRoundTrip | src/config/de/command.rs:29-38 | two or more lines, none with line breaks, the last non-empty and the first not starting with `^`, read back from their join with line feeds |
| DeCommand.MultiLineKeepsText | src/config/de/command.rs:32-34 | without carriage returns, the lines of a multi-line string lose only a final line feed |
| DeCommand.VisitSeq | src/config/de/command.rs:48-55 | a sequence succeeds iff every element does, giving the elements as lines in order; otherwise the error of the first failing element |
| DeCommand.VisitEnum | src/config/de/command.rs:57-74 | a tagged single line fails exactly when it holds a line feed; tagged lines and control codes take their payload; a failed tag or payload fails with that same error, and a control payload's error passes through `control_from_variant` |
| DeCommand.TaggedSingleLine | src/config/de/command.rs:57-74 | a tagged single line without a line feed is that line, and agrees with the plain string when it does not start with `^` |
| DeCommand.TaggedControl | src/config/de/command.rs:57-74 | a tagged control char and `^` followed by that char give the same command |
| DeKey.VisitChar | src/config/de/key.rs:31-33 | a char is that key |
| DeKey.VisitStr | src/config/de/key.rs:35-46 | the forms are tried in order: `^` control code, `!Str ` text (the rest), exactly one char, otherwise a duration whose parse error is reported |
| DeKey.StrRoundTrip | src/config/de/key.rs:38-39 | any text behind `!Str ` is typed as it is |
| DeKey.WaitRoundTrip | src/config/de/key.rs:42-45 | the decimal text of any `u64` with a unit is a pause of that length |
| DeKey.VisitEnum | src/config/de/key.rs:48-60 | tagged chars, strings and control codes take their payload; a tagged wait is always parsed as a duration |
| DeKey.TaggedWaitAgrees | src/config/de/key.rs:35-60 | a tagged pause and the same duration as a plain string give the same key |
| DeKey.Examples | src/config/de/key.rs:35-46 | `t` is the key `t` and `1s` is a one-second pause |
| DeShell.VisitStr | src/config/de/shell.rs:40-49 | `bash`/`Bash` and `python`/`Python` are the built-in shells and nothing else is accepted |
| DeShell.DisplayRoundTrip | src/config/de/shell.rs:40-49 | a built-in shell is read back from its display name |
| DeShell.DecodeField | src/config.rs:298-304 | `args` takes a list of strings and every other field a string; format errors pass through |
| DeShell.VisitMap | src/config/de/shell.rs:75-101 | (`ReadAsMap`) succeeds iff every entry is read and `program`, `prompt`, `line_split` are all given; each field gets the value of its entry; `args` defaults to empty and `quit_command` to none; missing fields are reported in the order program, prompt, line_split; otherwise the first failing entry's error |
| DeShell.VisitEnum | src/config/de/shell.rs:55-62 | tagged `Bash`/`Python` are those shells unless their unit payload fails; a tagged custom shell is read exactly as `VisitMap` reads a map (`ReadAsMap`: required fields, defaults, the first failing entry) |
| ShellSession.ForShell | src/config/spawn.rs:22-75 | bash runs with prompt `AUTOCAST_PROMPT` and quits with `exit`, python with `>>> ` and `exit()`, a custom shell with its own prompt and quit command; nothing has been sent yet |
| ShellSession.Elapsed | src/config/spawn.rs:89 | the time between two instants, zero when the clock went backwards |
| ShellSession.NewEvent | src/config/spawn.rs:87-92 | the output event is timed since the previous event, and the previous event becomes now |
| ShellSession.Reset | src/config/spawn.rs:95-97 | only the time of the last event changes |
| ShellSession.Send | src/config/spawn.rs:162-164 | succeeds iff the write does, and then the bytes are appended to what the shell was sent and nothing else changes; a failed write is a write error |
| ShellSession.SendLine | src/config/spawn.rs:167-176 | succeeds iff the write of the line and the write of the line feed both do, and then exactly the line and one line feed are appended; otherwise a write error |
| ShellSession.Read | src/config/spawn.rs:121-135 | the prompt is found iff the text is non-empty and contains it; an empty read records nothing; with the prompt, the recorded text followed by the prompt is a prefix of the read and no later occurrence exists; without it the whole text is recorded; every event is output, non-empty, timed since the last event |
| ShellSession.ReadEmpty | src/config/spawn.rs:124-125 | an empty read records nothing and finds no prompt |
| ShellSession.ReadNoPrompt | src/config/spawn.rs:133-134 | a non-empty read without the prompt records all of it as one output event timed since the last event |
| ShellSession.ReadOutputThenPrompt | src/config/spawn.rs:126-130 | output followed by the prompt records the output and finds the prompt |
| ShellSession.ReadPromptOnly | src/config/spawn.rs:127-128 | the prompt alone records nothing and finds the prompt |
| ShellSession.ReadUntilPrompt | src/config/spawn.rs:144-157 | success consumes some of the reads and leaves the rest in order; only the time of the last event changes in the session; every recorded event is non-empty output |
| ShellSession.ReadUntilPromptStops | src/config/spawn.rs:147-156 | the loop stops at the first read showing the prompt: every earlier read succeeded without the prompt and within the timeout; the time since the last event is taken when it stops |
| ShellSession.ReadUntilPromptFails | src/config/spawn.rs:148-155 | a timeout is reported only after a check past it, a read error only after a failed read |
| ShellSession.ReadUntilPromptContent | src/config/spawn.rs:144-157 | what is recorded, followed by the prompt, is a prefix of everything read: no output is lost or reordered before the prompt |
| ShellSession.ReadUntilPromptClock | src/config/spawn.rs:87-92 | with a clock that does not run backwards, the recorded delays sum to the time from the last event before the loop to the last event after it |
| Typing.TypeLine | src/config/run.rs:285-292 | one output event per char holding that char, each delayed by the type speed, then a line ending |
| Typing.TypeLineShows | src/config/run.rs:285-292 | a typed line shows exactly the line followed by `\r\n` |
| Typing.CommandEvents | src/config/run.rs:250-282 | every typed event is output delayed by the type speed; a single line or control code takes one event per char plus a line ending; a multi-line command types nothing iff it has no lines |
| Typing.CommandShows | src/config/run.rs:250-282 | a single line or control code shows its text and `\r\n`; several lines show their join with line split, `\r\n` and the secondary prompt between them, and a final `\r\n` |
| Typing.CommandBytes | src/config/run.rs:240-248 | a line command ends in one line feed and the bytes before it decode back to the line (several lines joined by spaces); a control code is its own bytes |
| Typing.SendCommand | src/config/run.rs:240-248 | sending restarts the event clock; a line is two writes (the text, then a line feed), a control code one; it succeeds iff those writes do, appending exactly the command's bytes and changing nothing else; otherwise a write error |
| Typing.CommandReachesShellAsOneLine | src/config/run.rs:240-248 | a line command without line feeds (several lines joined by spaces) reaches the shell as one line: its UTF-8 bytes decode back to the text, and a single line feed ends it |
| Typing.CharByte | src/config/run.rs:329 | `char as u8`: a code point below 256 is kept, any other is reduced modulo 256 |
| Typing.KeyBytes | src/config/run.rs:326-338 | as written: a char is sent as the low byte of its code point (`CharByte`), a string as one such byte per char in order, a control code as its own bytes, a pause as nothing |
| Typing.KeyBytesAscii | src/config/run.rs:331-334 | for ASCII text the bytes as written are its UTF-8 form |
| Typing.KeyBytesNonAscii | src/config/run.rs:329 | as written, `Ł` is sent as the byte of `A`, and `é` as a byte that is not valid UTF-8 |
| Typing.KeyBytesUtf8 | src/config/run.rs:326-338 | corrected: a char is sent as 1 to 4 bytes, a string as at least one byte per char, a pause as nothing |
| Typing.KeyBytesUtf8Decodes | src/config/run.rs:326-338 | corrected: a typed char or string reaches the shell as itself (its bytes decode back to it); a string's corrected bytes equal the bytes as written exactly when it is ASCII |
| Typing.SendKey | src/config/run.rs:326-338 | as written: succeeds iff every write the key makes does (one per char of a string, one for a char or control code, none for a pause), appending exactly the key's bytes as written; otherwise a write error |
| Typing.SendChars | src/config/run.rs:331-334 | a string's chars are written one at a time, in order; it succeeds iff every write does, appending each char's low byte |
| Typing.KeysBytes | src/config/run.rs:180 | no keys send nothing, and one key sends its bytes as written |
| Typing.KeysBytesAppend | src/config/run.rs:180 | keys pressed one after another send their bytes as written (`KeysBytes`) one after another |
| Typing.WaitsSendNothing | src/config/run.rs:336 | pauses send no bytes |
| Assemble.Emitted | src/config/run.rs:199-238 | a pause or a hidden command yields no events; a marker yields exactly its event |
| Assemble.ApplyDebt | src/config/run.rs:58-62 | the first event is delayed by the pending pauses, the rest are unchanged |
| Assemble.ApplyDebtTotal | src/config/run.rs:58-62 | paying the debt adds it to the total time exactly when there is an event to carry it |
| Assemble.FlatShows | src/config/run.rs:54-64 | flattening shows every fragment's events, in order, with only their times changed |
| Assemble.FlatConserves | src/config/run.rs:53-64 | no time is lost or invented: the flattened delays plus the remaining debt equal the initial debt plus all pauses plus all the fragments' own delays |
| Assemble.FlatAppend | src/config/run.rs:53-64 | flattening two runs of fragments is flattening the second starting with the debt the first leaves |
| Assemble.FlatLeftover | src/config/run.rs:53-64 | with no events at all every pause is left over; otherwise exactly the pauses after the last fragment with events are left over |
| Assemble.Cumulate | src/config/run.rs:69-73 | the scan keeps each event's kind and text, and the times never decrease and start no earlier than the base |
| Assemble.CumulateTimes | src/config/run.rs:69-73 | each absolute time is the base plus the delays up to and including that event |
| Assemble.DeltasCumulate | src/config/run.rs:69-73 | taking differences of the absolute times gives back the delays |
| Assemble.Assemble | src/config/run.rs:52-79 | the recording starts with the prompt at time zero, ends with a line ending, and its times never decrease |
| Assemble.AssembleShows | src/config/run.rs:52-79 | the recording is the prompt, every fragment event in order and the closing line ending, nothing more |
| Assemble.AssembleDuration | src/config/run.rs:52-79 | the last event's time is one type speed plus every pause plus every fragment event's delay |
| Assemble.NoneInvisible | src/config/run.rs:111-113 | a hidden command's fragment changes nothing in the recording |
| Assemble.WaitsAdd | src/config/run.rs:53-57 | two consecutive pauses act as one pause of their sum |
| Assemble.WaitThenMarkerExample | src/config/run.rs:52-79 | two pauses before a marker: the marker appears after both, and the line ending one type speed later |
| Assemble.TrailingWaitExample | src/config/run.rs:75-77 | a pause at the end lengthens only the last event |
| Run.AfterKeys | src/config/run.rs:123-141 | the keys pressed are sent with their bytes as written (never more keys than there are) and the last event is the keys' last event |
| Run.RunInstruction | src/config/run.rs:87-152 | pauses, markers and clears yield their fragment and touch nothing; a command or interactive command whose send fails fails with the write error; a command succeeds iff its send and the read to the prompt after it do; an interactive command iff its send and its keys do; a hidden command yields nothing; sent bytes are only ever appended; a visible or interactive command ends with the script's prompt; a command sends its bytes, and an interactive command sends its bytes, then those of the keys pressed before the prompt came back |
| Run.RunCommand | src/config/run.rs:99-122 | a command fails with the write error if its send fails and otherwise succeeds iff the read to the prompt does; it sends exactly its bytes; hidden, it yields nothing; visible, it ends with the script's prompt made when the prompt came |
| Run.RunInteractive | src/config/run.rs:123-141 | an interactive command fails with the write error if its send fails and otherwise succeeds iff its keys do; it sends its bytes and then those of the keys pressed; it ends with the script's prompt |
| Run.InteractiveShows | src/config/run.rs:123-141 | an interactive command shows the typed command, then what its keys recorded, then the script's prompt timed from the keys' last event; each typed event uses the command's own type speed when it has one and the default otherwise |
| Run.CommandShows | src/config/run.rs:99-122 | a visible command's fragment is its typed events, the output events, and the script's prompt timed from the last output event; it shows the typed command, then the shell's output up to its own prompt, then the script's prompt, and that output is the beginning of what the shell printed |
| Run.TypeSpeedOverrides | src/config/run.rs:116-118 | each typed event uses the command's own type speed when it has one and the default otherwise |
| Run.RunAll | src/config/run.rs:38-52 | success yields one fragment per instruction; a failure names an instruction in range |
| Run.RunAllFragments | src/config/run.rs:38-52 | every instruction's fragment, in order, has the shape of its kind: pause, marker, clear, nothing for hidden, prompt-terminated events for commands |
| Run.RunAllFailure | src/config/run.rs:38-52 | only commands and interactive commands can make a run fail |
| Run.Instructions | src/config/run.rs:14-80 | the recording starts with the prompt at time zero, ends with a line ending, never goes back in time, and fails iff some instruction fails |
| Run.MarkerScriptExample | src/config/run.rs:14-80 | a script of one marker records the prompt, the marker and the closing line ending one type speed later, and sends nothing |
| Record.ShellEnv | src/config.rs:64-69 | `SHELL` is the program's resolved path when it is found, its name otherwise |
| Record.CtxOf | src/config.rs:64-83 | instructions run with the settings' prompt, secondary prompt and type speed, the shell's line split and the given control table |
| Record.RecordScript | src/config.rs:43-109 | recording succeeds iff the terminal size is known and every instruction runs; the header carries that size, the current time, the title, no idle limit or command, the duration of the last event and the assembled environment with `SHELL` |
| Record.DurationBoundsEvents | src/config.rs:86 | every event happens within the recorded duration, and the first is the prompt at time zero |
| Record.RecordingWrites | src/asciicast.rs:106-111 | into an output that accepts every write, a recording made from a script can be written exactly when the clock read at recording time is not before the Unix epoch |
| Record.ScriptEnvironmentWins | src/config.rs:88-93 | a variable the script sets keeps the script's last value for it, whatever is captured from the environment |
| Asciicast.TypeCode | src/asciicast.rs:197-207 | every event type has a one-letter code that reads back as that type |
| Asciicast.TypeCodeInjective | src/asciicast.rs:197-207 | distinct event types get distinct codes |
| Asciicast.EnvJsonFaithful | src/asciicast.rs:125-127 | when the iteration order lists each key once, the env object has exactly the map's keys, each with its value |
| Asciicast.PresentCount | src/asciicast.rs:92-101 | the announced field count is the number of fields present |
| Asciicast.FieldValue | src/asciicast.rs:103-128 | `version` is 2; width and height are the size; the timestamp is whole seconds since the epoch, the part of a second dropped; the duration is in seconds; idle limit, command and title are their values; env is the env object |
| Asciicast.HeaderFields | src/asciicast.rs:90-131 | fails iff the timestamp is before the epoch; otherwise writes as many fields as announced, `version` 2 first, in the fixed order, each present exactly when its value is and written with its value (`FieldValue`) |
| Asciicast.HeaderObject | src/asciicast.rs:90-131 | the header object has one member per field, in order, each field under its name with its value |
| Asciicast.FieldNameInjective | src/asciicast.rs:103-128 | distinct fields are written under distinct names |
| Asciicast.HeaderMember | src/asciicast.rs:90-131 | in a written header a field's name appears exactly when the field is present, and then with the field's value |
| Asciicast.TimestampWholeSeconds | src/asciicast.rs:106-108 | a timestamp at or after the epoch is written as `timestamp` in whole seconds |
| Asciicast.EventJson | src/asciicast.rs:144-154 | an event is an array of exactly three values |
| Asciicast.ArrayBodyJoin | src/asciicast.rs:48-57 | array elements are separated by `", "` with nothing before the first |
| Asciicast.ObjectBodyJoin | src/asciicast.rs:59-75 | object members are `key: value`, separated by `", "` |
| Asciicast.Render | src/asciicast.rs:40-76 | an integer is written as decimal digits of its value, an array inside brackets, an object inside braces |
| Asciicast.EventLine | src/asciicast.rs:144-154 | an event line is `[time, "type", "data"]` with the formatter's separators |
| Asciicast.RenderNoNewline | src/asciicast.rs:40-76 | every serialised value fits on one line |
| Asciicast.Write | src/asciicast.rs:18-30 | into an output that accepts every write, writing fails iff the header's timestamp is before the Unix epoch |
| Asciicast.WriteLines | src/asciicast.rs:18-30 | read back by lines, the file is the header line, then one line per event in order, each ended by a line feed |
| Asciicast.NoTitleNoField | src/asciicast.rs:122-124 | a header without a title has no `title` member |
| Utf8.DecodeEncode | src/config/run.rs:244-245 | text sent to the shell as UTF-8 decodes back to that text |
| Text.Trim | src/config/duration.rs:7 | `str::trim`: the result is a piece of the text with only whitespace around it, and it neither starts nor ends with whitespace |
| Text.Lines | src/config/de/command.rs:32-33 | `str::lines`: no line holds a line feed, and there are no lines exactly when the text is empty |

## Left out

- Starting and quitting the shell, the pseudo-terminal and its window size (`Shell::spawn`, `ShellSession::spawn`, `quit`) are left out. They are process management. The model starts from a session value and treats each read as an input.
- `keys_to_events` (src/config/run.rs:154-197) is left out. It polls the shell and sends keys as time passes. An interactive command's outcome is an input to the model: the events captured, how many keys were pressed, and the clock after them, or the read or write error that ended the loop. The bytes of the pressed keys, as `Key::send` writes them, are modelled (`Run.AfterKeys`).
- ShellSession.SendLine: the model follows the non-Windows build, which ends a line with a line feed (`"\n"`, src/config/spawn.rs:168-169). The Windows build sends `"\r\n"` (src/config/spawn.rs:171-172) and is not modelled. The same holds for every member that states the final line feed: `Typing.CommandBytes`, `Typing.SendCommand` and `Typing.CommandReachesShellAsOneLine`.
- ShellSession.Send: a write that fails may already have written part of the bytes (`write_all`). The model's failure carries no session, because the run stops at the first error and the session is not used again.
- Asciicast.Write: the output is modelled as a string that accepts every write. The writer's own I/O errors are not modelled. In the source these come from the serializer's writes, each `writeln!` and the final `flush` (src/asciicast.rs:20-28), and `main.rs` reports them as "could not write to output file". So the only failure the model has is the timestamp before the epoch. In that case the source has already written `{"version": 2, "width": W, "height": H` to the writer before the error; the model's failure carries no text.
- Record.RecordingWrites: states the same "iff" as `Asciicast.Write` and has the same limit. The output file's I/O errors are not modelled.
- Progress bars (`indicatif`) are left out. They have no effect on the recording.
- The lossy decoding of the shell's output into text is left out. The model's reads are already text.
- Floating-point rendering and JSON string escaping are parameters (`Asciicast.Renderers`). They cover `as_secs_f64` printed with six decimals and serde_json's escaping, which belong to the libraries. Integer rendering is modelled.
- The iteration order of the `env` hash map is a parameter (`envOrder`). Rust leaves it unspecified.
- The serde and YAML frameworks are left out. So are the derived deserialisers for settings, instructions and unit/field identifiers. Each visitor receives what the format hands it as an input (a string, sequence elements, map entries, a tag with its payload).
- The conversion from a char to expectrl's `ControlCode`, and that code's text and bytes, are an opaque table (`ControlCodes.ControlTable`). The table is external to the repository.
- `which`, environment variables, the terminal's size, `Instant::now` and `SystemTime::now` are inputs.
- `ShellSession.InputExhausted` does not exist in the source. It only arises when the model's finite list of reads ends before the prompt appears; the source would block on a further read.
- `read_until_prompt` returns both the events and the time since the last event (src/config/spawn.rs:144). `run.rs` uses the result as a plain list of events. The two files come from different revisions. The model returns both, and the runner uses the events.
- `ShellSession.Read` follows the code's `rsplit_once`. It finds the last occurrence of the prompt anywhere in the read, not only at its end, and drops what follows that occurrence.
- `Config.ShellDisplay` has no contract of its own. Its properties are stated by `Config.CustomDisplaySplits` and `Config.BuiltinDisplayIsProgram`.
- `main.rs` is left out. It covers argument parsing, reading the script file and writing the output file.
- Integer widths: durations and times are unbounded `nat`s, so `Duration` overflow panics are not modelled. Terminal sizes are bounded `u16`s, and the `u64` of the duration parser is bounded explicitly.

## Findings

| source | as written | input that shows it | evidently intended | confidence | as-written member | corrected member |
|---|---|---|---|---|---|---|
| src/config/run.rs:329-334 | `Key::send` sends each char as `char as u8`, keeping only the low byte of its code point | the key `Ł` (U+0141) is sent as 0x41, the byte of `A`; `é` is sent as 0xE9, which is not UTF-8 | each char is sent as its UTF-8 bytes, as `Command::send` does for commands | medium, not executed | Typing.KeyBytesNonAscii | Typing.KeyBytesUtf8Decodes |

The running model sends the key bytes as written (`Typing.SendKey`,
`Typing.KeysBytes` and `Run.AfterKeys`), so that it describes what the
program does. The corrected definition is `Typing.KeyBytesUtf8`, with the
intended property proved by `Typing.KeyBytesUtf8Decodes`.
`Typing.KeyBytesAscii` shows that the two agree on ASCII text, and
`Typing.KeyBytesUtf8Decodes` that they agree only there.

=== FILE: asciicast.dfy ===
/**
 * The asciicast v2 recording: header and event records, the JSON values
 * they serialise to, the formatter that matches `asciinema rec` output
 * (`", "` between elements and members, `": "` after keys), and the
 * line layout of a whole recording file.
 *
 * Floating-point rendering (`as_secs_f64` printed with six decimals) and
 * JSON string escaping belong to the serialisation library and are
 * parameters (`Renderers`); integers are printed in decimal.
 */
module Asciicast {
  import opened Base
  import Text
  import Decimal

  datatype EventType = Input | Output | Marker

  /** The one-letter code of an event type. */
  function TypeCode(t: EventType): (code: string)
    ensures |code| == 1
    ensures EventTypeOf(code) == Some(t)
  {
    match t
    case Input => "i"
    case Output => "o"
    case Marker => "m"
  }

  /** Partner of `TypeCode`: the event type a code stands for. */
  function EventTypeOf(code: string): Option<EventType> {
    if code == "i" then Some(Input)
    else if code == "o" then Some(Output)
    else if code == "m" then Some(Marker)
    else None
  }

  /** Distinct event types get distinct codes. */
  lemma TypeCodeInjective(a: EventType, b: EventType)
    requires TypeCode(a) == TypeCode(b)
    ensures a == b
  {
    assert EventTypeOf(TypeCode(a)) == Some(a);
  }

  /** An event: its time in nanoseconds, its type and its text. */
  datatype Event = Event(time: nat, kind: EventType, data: string)

  function InputEvent(time: nat, data: string): Event { Event(time, Input, data) }
  function OutputEvent(time: nat, data: string): Event { Event(time, Output, data) }
  function MarkerEvent(time: nat, data: string): Event { Event(time, Marker, data) }

  /** An output event carrying a line ending. */
  function OutputLn(time: nat): Event { Event(time, Output, "\r\n") }

  /** The sum of the events' times. */
  function TotalTime(events: seq<Event>): nat {
    if |events| == 0 then 0 else TotalTime(events[..|events| - 1]) + events[|events| - 1].time
  }

  lemma {:induction false} TotalTimeAppend(a: seq<Event>, b: seq<Event>)
    ensures TotalTime(a + b) == TotalTime(a) + TotalTime(b)
    decreases |b|
  {
    if |b| == 0 {
      assert a + b == a;
    } else {
      assert (a + b)[..|a + b| - 1] == a + b[..|b| - 1];
      TotalTimeAppend(a, b[..|b| - 1]);
    }
  }

  /** The events' texts, in order. */
  function EventData(events: seq<Event>): (r: seq<string>)
    ensures |r| == |events|
    ensures forall i :: 0 <= i < |events| ==> r[i] == events[i].data
  {
    if |events| == 0 then [] else [events[0].data] + EventData(events[1..])
  }

  lemma EventDataAppend(a: seq<Event>, b: seq<Event>)
    ensures EventData(a + b) == EventData(a) + EventData(b)
  {
  }

  /** An `f64` value, kept opaque. */
  datatype F64 = F64(bits: nat)

  /** The header. `timestamp` is a system time in nanoseconds relative to
      the Unix epoch (negative before it); `duration` is in nanoseconds. */
  datatype Header = Header(
    width: U16,
    height: U16,
    timestamp: Option<int>,
    duration: Option<nat>,
    idleTimeLimit: Option<F64>,
    command: Option<string>,
    title: Option<string>,
    env: map<string, string>)

  const VERSION: nat := 2

  datatype File = File(header: Header, events: seq<Event>)

  /** A JSON value as the serialiser produces it. */
  datatype Json =
    | JUInt(n: nat)
    | JSeconds(nanos: nat)
    | JFloat(f: F64)
    | JStr(s: string)
    | JArray(items: seq<Json>)
    | JObject(members: seq<(string, Json)>)

  datatype SerError = TimestampBeforeEpoch

  /** The field count announced to the serialiser before the fields. */
  function DeclaredFieldCount(h: Header): nat {
    3 + (if h.timestamp.Some? then 1 else 0)
      + (if h.duration.Some? then 1 else 0)
      + (if h.idleTimeLimit.Some? then 1 else 0)
      + (if h.command.Some? then 1 else 0)
      + (if h.title.Some? then 1 else 0)
      + (if h.env != map[] then 1 else 0)
  }

  /** The header's fields. */
  datatype Field = Version | Width | Height | Timestamp | Duration | IdleTimeLimit | Command | Title | Env

  function FieldName(f: Field): string {
    match f
    case Version => "version"
    case Width => "width"
    case Height => "height"
    case Timestamp => "timestamp"
    case Duration => "duration"
    case IdleTimeLimit => "idle_time_limit"
    case Command => "command"
    case Title => "title"
    case Env => "env"
  }

  /** The position of a field in the order the format fixes. */
  function Rank(f: Field): nat {
    match f
    case Version => 0
    case Width => 1
    case Height => 2
    case Timestamp => 3
    case Duration => 4
    case IdleTimeLimit => 5
    case Command => 6
    case Title => 7
    case Env => 8
  }

  /** The fields in the order the serialiser writes them. */
  const FIELD_ORDER: seq<Field> :=
    [Version, Width, Height, Timestamp, Duration, IdleTimeLimit, Command, Title, Env]

  /** Is the field written? Absent options and an empty env are skipped. */
  predicate Present(h: Header, f: Field) {
    match f
    case Timestamp => h.timestamp.Some?
    case Duration => h.duration.Some?
    case IdleTimeLimit => h.idleTimeLimit.Some?
    case Command => h.command.Some?
    case Title => h.title.Some?
    case Env => h.env != map[]
    case _ => true
  }

  predicate RankIncreasing(fs: seq<Field>) {
    forall i, j :: 0 <= i < j < |fs| ==> Rank(fs[i]) < Rank(fs[j])
  }

  /** The keys of members (a header field or an env name), in order. */
  function Keys<K>(members: seq<(K, Json)>): (r: seq<K>)
    ensures |r| == |members|
    ensures forall i :: 0 <= i < |r| ==> r[i] == members[i].0
  {
    seq(|members|, i requires 0 <= i < |members| => members[i].0)
  }

  /** The env map as a JSON object, its members in the order the map is
      iterated (`envOrder`, an input of the model). */
  function EnvJson(env: map<string, string>, envOrder: seq<string>): (r: seq<(string, Json)>)
  {
    if |envOrder| == 0 then []
    else
      (if envOrder[0] in env then [(envOrder[0], JStr(env[envOrder[0]]))] else [])
        + EnvJson(env, envOrder[1..])
  }

  /** Does `order` list every key of `env` exactly once and nothing else? */
  ghost predicate Enumerates(order: seq<string>, env: map<string, string>) {
    && (forall i, j :: 0 <= i < j < |order| ==> order[i] != order[j])
    && (forall k :: k in env <==> k in order)
  }

  /** When the iteration order enumerates the map, the env object has
      exactly the map's keys, each once, each with its value. */
  lemma {:induction false} EnvJsonFaithful(env: map<string, string>, order: seq<string>)
    requires Enumerates(order, env)
    ensures Keys(EnvJson(env, order)) == order
    ensures forall m :: m in EnvJson(env, order) ==> m.0 in env && m.1 == JStr(env[m.0])
  {
    if |order| > 0 {
      var k := order[0];
      EnumeratesTail(env, order);
      EnvJsonFaithful(env - {k}, order[1..]);
      EnvJsonRestrict(env, k, order[1..]);
      assert k in order;
      EnvJsonCons(env, order);
      FaithfulCons(env, k, EnvJson(env, order[1..]), order);
    }
  }

  lemma EnvJsonCons(env: map<string, string>, order: seq<string>)
    requires |order| > 0 && order[0] in env
    ensures EnvJson(env, order) == [(order[0], JStr(env[order[0]]))] + EnvJson(env, order[1..])
  {
  }

  /** The member of the first key in front of the members of the others. */
  lemma FaithfulCons(env: map<string, string>, k: string, tail: seq<(string, Json)>, order: seq<string>)
    requires |order| > 0 && order[0] == k && k in env
    requires Keys(tail) == order[1..]
    requires forall m :: m in tail ==> m.0 in env - {k} && m.1 == JStr((env - {k})[m.0])
    ensures Keys([(k, JStr(env[k]))] + tail) == order
    ensures forall m :: m in [(k, JStr(env[k]))] + tail ==> m.0 in env && m.1 == JStr(env[m.0])
  {
    KeysAppend([(k, JStr(env[k]))], tail);
    assert order == [order[0]] + order[1..];
  }

  lemma KeysAppend<K>(a: seq<(K, Json)>, b: seq<(K, Json)>)
    ensures Keys(a + b) == Keys(a) + Keys(b)
  {
  }

  lemma EnumeratesTail(env: map<string, string>, order: seq<string>)
    requires Enumerates(order, env) && |order| > 0
    ensures Enumerates(order[1..], env - {order[0]})
    ensures order[0] !in order[1..]
  {
    var rest := env - {order[0]};
    forall k ensures k in rest <==> k in order[1..] {
      if k in order[1..] {
        var j :| 0 <= j < |order[1..]| && order[1..][j] == k;
        assert order[j + 1] == k;
      }
      if k in order && k != order[0] {
        var j :| 0 <= j < |order| && order[j] == k;
        assert order[1..][j - 1] == k;
      }
    }
    assert forall j :: 0 <= j < |order[1..]| ==> order[1..][j] == order[j + 1];
  }

  lemma {:induction false} EnvJsonRestrict(env: map<string, string>, k: string, order: seq<string>)
    requires k !in order
    ensures EnvJson(env - {k}, order) == EnvJson(env, order)
  {
    if |order| > 0 {
      EnvJsonRestrict(env, k, order[1..]);
    }
  }

  /** The value written for a present field: the format version, the
      size, the timestamp in whole seconds since the Unix epoch, the
      duration in seconds, the other options' values and the env object. */
  function FieldValue(h: Header, f: Field, envOrder: seq<string>): (r: Json)
    requires Present(h, f)
    ensures f == Version ==> r == JUInt(VERSION)
    ensures f == Width ==> r == JUInt(h.width)
    ensures f == Height ==> r == JUInt(h.height)
    ensures f == Timestamp && h.timestamp.value >= 0 ==>
      r.JUInt? && r.n * NANOS_PER_SEC <= h.timestamp.value < (r.n + 1) * NANOS_PER_SEC
    ensures f == Duration ==> r == JSeconds(h.duration.value)
    ensures f == IdleTimeLimit ==> r == JFloat(h.idleTimeLimit.value)
    ensures f == Command ==> r == JStr(h.command.value)
    ensures f == Title ==> r == JStr(h.title.value)
    ensures f == Env ==> r == JObject(EnvJson(h.env, envOrder))
  {
    match f
    case Version => JUInt(VERSION)
    case Width => JUInt(h.width)
    case Height => JUInt(h.height)
    case Timestamp => JUInt(if h.timestamp.value < 0 then 0 else h.timestamp.value / NANOS_PER_SEC)
    case Duration => JSeconds(h.duration.value)
    case IdleTimeLimit => JFloat(h.idleTimeLimit.value)
    case Command => JStr(h.command.value)
    case Title => JStr(h.title.value)
    case Env => JObject(EnvJson(h.env, envOrder))
  }

  /** The present fields among `fs`, in the order of `fs`. */
  function FieldsFrom(h: Header, fs: seq<Field>, envOrder: seq<string>): (r: seq<(Field, Json)>)
    ensures forall f :: f in Keys(r) <==> f in fs && Present(h, f)
    ensures RankIncreasing(fs) ==> RankIncreasing(Keys(r))
    ensures |r| <= |fs|
  {
    if |fs| == 0 then []
    else
      var rest := FieldsFrom(h, fs[1..], envOrder);
      RankTail(fs);
      if Present(h, fs[0]) then
        var r := [(fs[0], FieldValue(h, fs[0], envOrder))] + rest;
        KeysCons(fs[0], FieldValue(h, fs[0], envOrder), rest);
        RankCons(fs[0], Keys(rest));
        r
      else rest
  }

  /** The fields after the first of an increasing sequence. */
  lemma RankTail(fs: seq<Field>)
    requires |fs| > 0
    ensures forall f :: f in fs <==> f == fs[0] || f in fs[1..]
    ensures RankIncreasing(fs) ==>
      RankIncreasing(fs[1..]) && forall f :: f in fs[1..] ==> Rank(fs[0]) < Rank(f)
  {
    assert fs == [fs[0]] + fs[1..];
    if RankIncreasing(fs) {
      forall f | f in fs[1..] ensures Rank(fs[0]) < Rank(f) {
        var j :| 0 <= j < |fs[1..]| && fs[1..][j] == f;
        assert fs[j + 1] == f;
      }
    }
  }

  /** A field ranked before all the others keeps the order increasing. */
  lemma RankCons(f: Field, rest: seq<Field>)
    ensures RankIncreasing(rest) && (forall g :: g in rest ==> Rank(f) < Rank(g)) ==>
      RankIncreasing([f] + rest)
  {
    if RankIncreasing(rest) && (forall g :: g in rest ==> Rank(f) < Rank(g)) {
      forall i, j | 0 <= i < j < |[f] + rest| ensures Rank(([f] + rest)[i]) < Rank(([f] + rest)[j]) {
        assert ([f] + rest)[j] == rest[j - 1];
        if i > 0 {
          assert ([f] + rest)[i] == rest[i - 1];
        } else {
          assert rest[j - 1] in rest;
        }
      }
    }
  }

  lemma KeysCons<K>(f: K, v: Json, rest: seq<(K, Json)>)
    ensures Keys([(f, v)] + rest) == [f] + Keys(rest)
    ensures forall g :: g in Keys([(f, v)] + rest) <==> g == f || g in Keys(rest)
  {
    assert Keys([(f, v)] + rest) == [f] + Keys(rest);
  }

  /** Each field taken is written with its value. */
  lemma {:induction false} FieldsFromValues(h: Header, fs: seq<Field>, envOrder: seq<string>)
    ensures var r := FieldsFrom(h, fs, envOrder);
      forall i :: 0 <= i < |r| ==> Present(h, r[i].0) && r[i].1 == FieldValue(h, r[i].0, envOrder)
  {
    if |fs| > 0 {
      FieldsFromValues(h, fs[1..], envOrder);
      FieldsFromCons(h, fs, envOrder);
      var rest := FieldsFrom(h, fs[1..], envOrder);
      var r := FieldsFrom(h, fs, envOrder);
      if Present(h, fs[0]) {
        forall i | 0 <= i < |r|
          ensures Present(h, r[i].0) && r[i].1 == FieldValue(h, r[i].0, envOrder)
        {
          if i > 0 {
            assert r[i] == rest[i - 1];
          }
        }
      }
    }
  }

  /** The fields taken from `fs`: the first if it is present, then those
      taken from the others. */
  lemma FieldsFromCons(h: Header, fs: seq<Field>, envOrder: seq<string>)
    requires |fs| > 0
    ensures FieldsFrom(h, fs, envOrder)
         == (if Present(h, fs[0]) then [(fs[0], FieldValue(h, fs[0], envOrder))] else [])
            + FieldsFrom(h, fs[1..], envOrder)
  {
  }

  /** How many of `fs` are present. */
  function CountPresent(h: Header, fs: seq<Field>): nat {
    if |fs| == 0 then 0
    else (if Present(h, fs[0]) then 1 else 0) + CountPresent(h, fs[1..])
  }

  lemma {:induction false} FieldsFromCount(h: Header, fs: seq<Field>, envOrder: seq<string>)
    ensures |FieldsFrom(h, fs, envOrder)| == CountPresent(h, fs)
  {
    if |fs| > 0 {
      FieldsFromCount(h, fs[1..], envOrder);
    }
  }

  /** The announced field count is the number of present fields. */
  lemma PresentCount(h: Header)
    ensures CountPresent(h, FIELD_ORDER) == DeclaredFieldCount(h)
  {
    var o := FIELD_ORDER;
    CountPresentCons(h, o[8..]);
    CountPresentCons(h, o[7..]);
    CountPresentCons(h, o[6..]);
    CountPresentCons(h, o[5..]);
    CountPresentCons(h, o[4..]);
    CountPresentCons(h, o[3..]);
    CountPresentCons(h, o[2..]);
    CountPresentCons(h, o[1..]);
    CountPresentCons(h, o);
  }

  lemma CountPresentCons(h: Header, fs: seq<Field>)
    requires |fs| > 0
    ensures CountPresent(h, fs) == (if Present(h, fs[0]) then 1 else 0) + CountPresent(h, fs[1..])
    ensures |fs| == 1 ==> CountPresent(h, fs[1..]) == 0
  {
  }

  /** Every field is in the order, and the order is by rank. */
  lemma FieldOrderComplete()
    ensures forall f: Field :: f in FIELD_ORDER
    ensures RankIncreasing(FIELD_ORDER)
  {
    forall f: Field ensures f in FIELD_ORDER {
      assert FIELD_ORDER[Rank(f)] == f;
    }
  }

  /** The header's fields in serialisation order, or the error raised for
      a timestamp before the Unix epoch. The field count announced to the
      serialiser is the number of fields written; the fields follow the
      fixed order and are present exactly when their values are. */
  function HeaderFields(h: Header, envOrder: seq<string>): (r: Result<seq<(Field, Json)>, SerError>)
    ensures r.Failure? <==> h.timestamp.Some? && h.timestamp.value < 0
    ensures r.Success? ==> |r.value| == DeclaredFieldCount(h)
    ensures r.Success? ==> RankIncreasing(Keys(r.value))
    ensures r.Success? ==> forall f :: f in Keys(r.value) <==> Present(h, f)
    ensures r.Success? ==> r.value[0] == (Version, JUInt(VERSION))
    ensures r.Success? ==> forall i :: 0 <= i < |r.value| ==>
      Present(h, r.value[i].0) && r.value[i].1 == FieldValue(h, r.value[i].0, envOrder)
  {
    if h.timestamp.Some? && h.timestamp.value < 0 then Failure(TimestampBeforeEpoch)
    else
      FieldsFromValues(h, FIELD_ORDER, envOrder);
      PresentCount(h);
      FieldsFromCount(h, FIELD_ORDER, envOrder);
      FieldOrderComplete();
      Success(FieldsFrom(h, FIELD_ORDER, envOrder))
  }

  /** The header as a JSON object: each field under its name, in order. */
  function HeaderObject(fields: seq<(Field, Json)>): (j: Json)
    ensures j.JObject? && |j.members| == |fields|
    ensures forall i :: 0 <= i < |fields| ==> j.members[i] == (FieldName(fields[i].0), fields[i].1)
  {
    JObject(seq(|fields|, i requires 0 <= i < |fields| => (FieldName(fields[i].0), fields[i].1)))
  }

  /** Distinct fields have distinct names. */
  lemma FieldNameInjective(f: Field, g: Field)
    requires FieldName(f) == FieldName(g)
    ensures f == g
  {
  }

  /** In the written header, a field's name appears exactly when the field
      is present, and then with the field's value. */
  lemma HeaderMember(h: Header, envOrder: seq<string>, f: Field)
    ensures HeaderFields(h, envOrder).Success? ==>
      var ms := HeaderObject(HeaderFields(h, envOrder).value).members;
      && (FieldName(f) in Keys(ms) <==> Present(h, f))
      && (Present(h, f) ==> (FieldName(f), FieldValue(h, f, envOrder)) in ms)
  {
    if HeaderFields(h, envOrder).Success? {
      var fields := HeaderFields(h, envOrder).value;
      NamedOnlyIfPresent(h, fields, envOrder, f);
      if Present(h, f) {
        PresentIsNamed(h, fields, envOrder, f);
      }
    }
  }

  /** A name in the header object belongs to a field that was written. */
  lemma NamedOnlyIfPresent(h: Header, fields: seq<(Field, Json)>, envOrder: seq<string>, f: Field)
    requires forall g :: g in Keys(fields) <==> Present(h, g)
    ensures FieldName(f) in Keys(HeaderObject(fields).members) ==> Present(h, f)
  {
    var ms := HeaderObject(fields).members;
    if FieldName(f) in Keys(ms) {
      var i :| 0 <= i < |ms| && Keys(ms)[i] == FieldName(f);
      FieldNameInjective(fields[i].0, f);
      assert Keys(fields)[i] in Keys(fields);
    }
  }

  /** A field that was written appears under its name with its value. */
  lemma PresentIsNamed(h: Header, fields: seq<(Field, Json)>, envOrder: seq<string>, f: Field)
    requires Present(h, f)
    requires forall g :: g in Keys(fields) <==> Present(h, g)
    requires forall i :: 0 <= i < |fields| ==>
      Present(h, fields[i].0) && fields[i].1 == FieldValue(h, fields[i].0, envOrder)
    ensures var ms := HeaderObject(fields).members;
      FieldName(f) in Keys(ms) && (FieldName(f), FieldValue(h, f, envOrder)) in ms
  {
    var ms := HeaderObject(fields).members;
    var i :| 0 <= i < |fields| && Keys(fields)[i] == f;
    assert ms[i] == (FieldName(f), FieldValue(h, f, envOrder));
    assert Keys(ms)[i] == FieldName(f);
  }

  /** A header with a timestamp at or after the Unix epoch is written with
      `timestamp` in whole seconds, the part of a second dropped. */
  lemma TimestampWholeSeconds(h: Header, envOrder: seq<string>)
    requires h.timestamp.Some? && h.timestamp.value >= 0
    ensures HeaderFields(h, envOrder).Success?
    ensures ("timestamp", JUInt(h.timestamp.value / NANOS_PER_SEC))
         in HeaderObject(HeaderFields(h, envOrder).value).members
  {
    HeaderMember(h, envOrder, Timestamp);
  }

  /** An event is the array `[time, type, data]`. */
  function EventJson(e: Event): (j: Json)
    ensures j.JArray? && |j.items| == 3
  {
    JArray([JSeconds(e.time), JStr(TypeCode(e.kind)), JStr(e.data)])
  }

  /** How the serialisation library writes seconds, floats and strings. */
  datatype Renderers = Renderers(
    seconds: nat -> string,
    float: F64 -> string,
    str: string -> string)

  function BeginArrayValue(first: bool): string { if first then "" else ", " }
  function BeginObjectKey(first: bool): string { if first then "" else ", " }
  function BeginObjectValue(): string { ": " }

  /** Array elements as the formatter writes them. */
  function ArrayBody(parts: seq<string>, first: bool): string {
    if |parts| == 0 then ""
    else BeginArrayValue(first) + parts[0] + ArrayBody(parts[1..], false)
  }

  /** Object members (written key, written value) as the formatter writes them. */
  function ObjectBody(members: seq<(string, string)>, first: bool): string {
    if |members| == 0 then ""
    else
      BeginObjectKey(first) + members[0].0 + BeginObjectValue() + members[0].1
      + ObjectBody(members[1..], false)
  }

  /** The text the serialiser writes for a value: an integer in decimal,
      an array in brackets, an object in braces. */
  function Render(j: Json, rs: Renderers): (r: string)
    ensures j.JUInt? ==> Decimal.AllDigits(r) && Decimal.DigitsValue(r) == j.n
    ensures j.JArray? ==> |r| >= 2 && r[0] == '[' && r[|r| - 1] == ']'
    ensures j.JObject? ==> |r| >= 2 && r[0] == '{' && r[|r| - 1] == '}'
  {
    match j
    case JUInt(n) => Decimal.Show(n)
    case JSeconds(ns) => rs.seconds(ns)
    case JFloat(f) => rs.float(f)
    case JStr(s) => rs.str(s)
    case JArray(items) =>
      "[" + ArrayBody(seq(|items|, i requires 0 <= i < |items| => Render(items[i], rs)), true) + "]"
    case JObject(ms) =>
      "{" + ObjectBody(seq(|ms|, i requires 0 <= i < |ms| => (rs.str(ms[i].0), Render(ms[i].1, rs))), true) + "}"
  }

  /** Array elements are separated by `", "`, with nothing before the first. */
  lemma {:induction false} ArrayBodyJoin(parts: seq<string>)
    ensures ArrayBody(parts, true) == Text.Join(parts, ", ")
  {
    if |parts| > 0 {
      ArrayBodyRest(parts[1..]);
    }
  }

  lemma {:induction false} ArrayBodyRest(parts: seq<string>)
    ensures ArrayBody(parts, false) == (if |parts| == 0 then "" else ", " + Text.Join(parts, ", "))
  {
    if |parts| > 0 {
      ArrayBodyRest(parts[1..]);
    }
  }

  function MemberText(m: (string, string)): string { m.0 + ": " + m.1 }

  function MemberTexts(members: seq<(string, string)>): (r: seq<string>)
    ensures |r| == |members|
  {
    seq(|members|, i requires 0 <= i < |members| => MemberText(members[i]))
  }

  /** Object members are `key: value` separated by `", "`. */
  lemma {:induction false} ObjectBodyJoin(members: seq<(string, string)>)
    ensures ObjectBody(members, true) == Text.Join(MemberTexts(members), ", ")
  {
    if |members| > 0 {
      ObjectBodyRest(members[1..]);
      ObjectBodyCons(members, true);
      JoinFront(members);
    }
  }

  lemma {:induction false} ObjectBodyRest(members: seq<(string, string)>)
    ensures ObjectBody(members, false)
         == if |members| == 0 then "" else ", " + Text.Join(MemberTexts(members), ", ")
  {
    if |members| > 0 {
      ObjectBodyRest(members[1..]);
      ObjectBodyCons(members, false);
      JoinFront(members);
      Text.AppendAssoc(", ", MemberText(members[0]), ObjectBody(members[1..], false));
    }
  }

  /** The first member, then the others. */
  lemma ObjectBodyCons(members: seq<(string, string)>, first: bool)
    requires |members| > 0
    ensures ObjectBody(members, first)
         == BeginObjectKey(first) + (MemberText(members[0]) + ObjectBody(members[1..], false))
  {
  }

  /** The joined member texts: the first, then the others after `", "`. */
  lemma JoinFront(members: seq<(string, string)>)
    requires |members| > 0
    ensures Text.Join(MemberTexts(members), ", ")
         == MemberText(members[0])
            + (if |members| == 1 then "" else ", " + Text.Join(MemberTexts(members[1..]), ", "))
  {
    assert MemberTexts(members) == [MemberText(members[0])] + MemberTexts(members[1..]);
    if |members| > 1 {
      Text.JoinCons(MemberText(members[0]), MemberTexts(members[1..]), ", ");
    }
  }

  /** The text of one event line. */
  lemma EventLine(e: Event, rs: Renderers)
    ensures Render(EventJson(e), rs)
         == "[" + rs.seconds(e.time) + ", " + rs.str(TypeCode(e.kind)) + ", " + rs.str(e.data) + "]"
  {
    var parts := [rs.seconds(e.time), rs.str(TypeCode(e.kind)), rs.str(e.data)];
    var items := EventJson(e).items;
    assert seq(|items|, i requires 0 <= i < |items| => Render(items[i], rs)) == parts;
    ArrayBodyJoin(parts);
    assert parts[1..][1..] == [parts[2]];
    assert Text.Join(parts[1..][1..], ", ") == parts[2];
    assert Text.Join(parts[1..], ", ") == parts[1] + ", " + parts[2];
    assert Text.Join(parts, ", ") == parts[0] + ", " + (parts[1] + ", " + parts[2]);
  }

  /** `File::write`: the header line, then one line per event, in order;
      each line ends with `"\n"`. */
  function Write(f: File, envOrder: seq<string>, rs: Renderers): (r: Result<string, SerError>)
    ensures r.Failure? <==> f.header.timestamp.Some? && f.header.timestamp.value < 0
  {
    match HeaderFields(f.header, envOrder)
    case Failure(e) => Failure(e)
    case Success(fields) =>
      Success(Render(HeaderObject(fields), rs) + "\n" + EventLines(f.events, rs))
  }

  function EventLines(events: seq<Event>, rs: Renderers): string {
    if |events| == 0 then ""
    else Render(EventJson(events[0]), rs) + "\n" + EventLines(events[1..], rs)
  }

  /** The renderers never write a raw line break (escaping removes them). */
  ghost predicate SingleLineRenderers(rs: Renderers) {
    && (forall n :: '\n' !in rs.seconds(n))
    && (forall f :: '\n' !in rs.float(f))
    && (forall s :: '\n' !in rs.str(s))
  }

  lemma {:induction false} ShowNoNewline(n: nat)
    ensures '\n' !in Decimal.Show(n)
  {
    var s := Decimal.Show(n);
    forall i | 0 <= i < |s| ensures s[i] != '\n' {
      assert Decimal.IsDigit(s[i]);
    }
  }

  lemma NoNewlineAppend(a: string, b: string)
    requires '\n' !in a && '\n' !in b
    ensures '\n' !in a + b
  {
    forall i | 0 <= i < |a + b| ensures (a + b)[i] != '\n' {
      if i < |a| { assert (a + b)[i] == a[i]; } else { assert (a + b)[i] == b[i - |a|]; }
    }
  }

  lemma {:induction false} ArrayBodyNoNewline(parts: seq<string>, first: bool)
    requires forall i :: 0 <= i < |parts| ==> '\n' !in parts[i]
    ensures '\n' !in ArrayBody(parts, first)
  {
    if |parts| > 0 {
      ArrayBodyNoNewline(parts[1..], false);
      NoNewlineAppend(BeginArrayValue(first), parts[0]);
      NoNewlineAppend(BeginArrayValue(first) + parts[0], ArrayBody(parts[1..], false));
    }
  }

  lemma {:induction false} ObjectBodyNoNewline(members: seq<(string, string)>, first: bool)
    requires forall i :: 0 <= i < |members| ==> '\n' !in members[i].0 && '\n' !in members[i].1
    ensures '\n' !in ObjectBody(members, first)
  {
    if |members| > 0 {
      ObjectBodyNoNewline(members[1..], false);
      var m := members[0];
      NoNewlineAppend(BeginObjectKey(first), m.0);
      NoNewlineAppend(BeginObjectKey(first) + m.0, BeginObjectValue());
      NoNewlineAppend(BeginObjectKey(first) + m.0 + BeginObjectValue(), m.1);
      NoNewlineAppend(BeginObjectKey(first) + m.0 + BeginObjectValue() + m.1, ObjectBody(members[1..], false));
    }
  }

  /** Every serialised value fits on one line. */
  lemma {:induction false} RenderNoNewline(j: Json, rs: Renderers)
    requires SingleLineRenderers(rs)
    ensures '\n' !in Render(j, rs)
    decreases j
  {
    match j
    case JUInt(n) => ShowNoNewline(n);
    case JSeconds(_) =>
    case JFloat(_) =>
    case JStr(_) =>
    case JArray(items) =>
      var parts := seq(|items|, i requires 0 <= i < |items| => Render(items[i], rs));
      forall i | 0 <= i < |items| ensures '\n' !in parts[i] {
        RenderNoNewline(items[i], rs);
      }
      ArrayBodyNoNewline(parts, true);
      NoNewlineAppend("[", ArrayBody(parts, true));
      NoNewlineAppend("[" + ArrayBody(parts, true), "]");
    case JObject(ms) =>
      var members := seq(|ms|, i requires 0 <= i < |ms| => (rs.str(ms[i].0), Render(ms[i].1, rs)));
      forall i | 0 <= i < |ms| ensures '\n' !in members[i].0 && '\n' !in members[i].1 {
        RenderNoNewline(ms[i].1, rs);
      }
      ObjectBodyNoNewline(members, true);
      NoNewlineAppend("{", ObjectBody(members, true));
      NoNewlineAppend("{" + ObjectBody(members, true), "}");
  }

  function EventTexts(events: seq<Event>, rs: Renderers): (r: seq<string>)
    ensures |r| == |events|
  {
    seq(|events|, i requires 0 <= i < |events| => Render(EventJson(events[i]), rs))
  }

  lemma {:induction false} EventLinesJoin(events: seq<Event>, rs: Renderers)
    ensures EventLines(events, rs) + "" == Text.Join(EventTexts(events, rs) + [""], "\n")
  {
    if |events| > 0 {
      EventLinesJoin(events[1..], rs);
      var texts := EventTexts(events, rs);
      assert EventTexts(events[1..], rs) == texts[1..];
      assert (texts + [""])[1..] == texts[1..] + [""];
    }
  }

  /** Read back by lines, a written recording is the header line followed
      by one line per event, in order (the text after the last `"\n"` is
      empty). */
  lemma WriteLines(f: File, envOrder: seq<string>, rs: Renderers)
    requires SingleLineRenderers(rs)
    requires Write(f, envOrder, rs).Success?
    ensures
      var fields := HeaderFields(f.header, envOrder).value;
      Text.Split(Write(f, envOrder, rs).value, '\n')
        == [Render(HeaderObject(fields), rs)] + EventTexts(f.events, rs) + [""]
  {
    var fields := HeaderFields(f.header, envOrder).value;
    var parts := [Render(HeaderObject(fields), rs)] + EventTexts(f.events, rs) + [""];
    EventLinesJoin(f.events, rs);
    assert parts[1..] == EventTexts(f.events, rs) + [""];
    assert Write(f, envOrder, rs).value == Text.Join(parts, "\n");
    forall i | 0 <= i < |parts| ensures '\n' !in parts[i] {
      if i == 0 {
        RenderNoNewline(HeaderObject(fields), rs);
      } else if i < |parts| - 1 {
        RenderNoNewline(EventJson(f.events[i - 1]), rs);
      }
    }
    Text.SplitJoin(parts, '\n');
  }

  /** A header without a title has no `title` member at all. */
  lemma NoTitleNoField(h: Header, envOrder: seq<string>)
    requires h.title.None? && HeaderFields(h, envOrder).Success?
    ensures "title" !in Keys(HeaderObject(HeaderFields(h, envOrder).value).members)
  {
    var fields := HeaderFields(h, envOrder).value;
    var names := Keys(HeaderObject(fields).members);
    forall i | 0 <= i < |names| ensures names[i] != "title" {
      assert Keys(fields)[i] in Keys(fields);
      assert names[i] == FieldName(fields[i].0);
    }
  }
}

=== FILE: assemble.dfy ===
/**
 * The timeline assembler (`instructions` in `config/run.rs`): the events of
 * each instruction, timed relative to the event before them, are folded
 * into one recording whose times are absolute.
 *
 * Pauses build up as a debt that is added to the first event of the next
 * instruction that shows anything; the recording starts with the prompt at
 * time zero and ends with a line ending; a running sum turns every delay
 * into an absolute time; and a debt still owed at the end is added to the
 * last event.
 */
module Assemble {
  import opened Asciicast

  /** What running one instruction yields (`Events`). */
  datatype Fragment =
    | Command(events: seq<Event>)
    | Clear(events: seq<Event>)
    | Once(event: Event)
    | Wait(duration: nat)
    | None

  /** The events a fragment yields when iterated: a pause yields none. */
  function Emitted(f: Fragment): (r: seq<Event>)
    ensures f.Wait? || f.None? ==> r == []
    ensures f.Once? ==> r == [f.event]
  {
    match f
    case Command(events) => events
    case Clear(events) => events
    case Once(event) => [event]
    case Wait(_) => []
    case None => []
  }

  /** The pause a fragment asks for. */
  function WaitOf(f: Fragment): nat {
    if f.Wait? then f.duration else 0
  }

  /** All the events the fragments yield, in order. */
  function AllEmitted(fs: seq<Fragment>): seq<Event> {
    if |fs| == 0 then [] else Emitted(fs[0]) + AllEmitted(fs[1..])
  }

  /** The sum of the pauses the fragments ask for. */
  function Waits(fs: seq<Fragment>): nat {
    if |fs| == 0 then 0 else WaitOf(fs[0]) + Waits(fs[1..])
  }

  /** The events with their times erased: what they show, in which order. */
  function Untimed(events: seq<Event>): (r: seq<Event>)
    ensures |r| == |events|
  {
    seq(|events|, i requires 0 <= i < |events| => events[i].(time := 0))
  }

  lemma UntimedAppend(a: seq<Event>, b: seq<Event>)
    ensures Untimed(a + b) == Untimed(a) + Untimed(b)
  {
  }

  lemma TotalTimeSingle(e: Event)
    ensures TotalTime([e]) == e.time
  {
    assert [e][..0] == [];
  }

  /** `TotalTime` summed from the front. */
  lemma TotalTimeCons(e: Event, rest: seq<Event>)
    ensures TotalTime([e] + rest) == e.time + TotalTime(rest)
  {
    TotalTimeAppend([e], rest);
    TotalTimeSingle(e);
  }

  /** The first event is delayed by `debt`; the others are unchanged. */
  function ApplyDebt(events: seq<Event>, debt: nat): (r: seq<Event>)
    ensures |r| == |events|
    ensures |events| > 0 ==> r[0] == events[0].(time := events[0].time + debt)
    ensures |events| > 0 ==> r[0].time == events[0].time + debt
    ensures |events| > 0 ==> r[1..] == events[1..]
  {
    if |events| == 0 then [] else [events[0].(time := events[0].time + debt)] + events[1..]
  }

  /** Paying a debt adds it to the total time of events, if there are any. */
  lemma ApplyDebtTotal(events: seq<Event>, debt: nat)
    ensures TotalTime(ApplyDebt(events, debt)) == TotalTime(events) + (if events == [] then 0 else debt)
  {
    if events != [] {
      TotalTimeCons(events[0].(time := events[0].time + debt), events[1..]);
      TotalTimeCons(events[0], events[1..]);
      assert [events[0]] + events[1..] == events;
    }
  }

  /** The events of the flattened fragments and the debt still owed. */
  datatype Flat = Flat(events: seq<Event>, debt: nat)

  /** The debt owed after fragment `f`: its pause is added to the debt,
      and a fragment that yields events pays it. */
  function NextDebt(f: Fragment, debt: nat): nat {
    if Emitted(f) == [] then debt + WaitOf(f) else 0
  }

  /** One step of the `flat_map` of the fold: the fragment's events, the
      first one delayed by the debt owed, and the debt owed after it. */
  function Step(f: Fragment, debt: nat): Flat {
    Flat(ApplyDebt(Emitted(f), debt + WaitOf(f)), NextDebt(f, debt))
  }

  /** The `flat_map` of the fold. */
  function FlatFrom(fs: seq<Fragment>, debt: nat): Flat {
    if |fs| == 0 then Flat([], debt)
    else
      var head := Step(fs[0], debt);
      var rest := FlatFrom(fs[1..], head.debt);
      Flat(head.events + rest.events, rest.debt)
  }

  /** Flattening shows the same events in the same order. */
  lemma {:induction false} FlatShows(fs: seq<Fragment>, debt: nat)
    ensures Untimed(FlatFrom(fs, debt).events) == Untimed(AllEmitted(fs))
    decreases |fs|
  {
    if |fs| > 0 {
      var owed := debt + WaitOf(fs[0]);
      var events := Emitted(fs[0]);
      var rest := FlatFrom(fs[1..], if events == [] then owed else 0);
      FlatShows(fs[1..], if events == [] then owed else 0);
      UntimedAppend(ApplyDebt(events, owed), rest.events);
      UntimedAppend(events, AllEmitted(fs[1..]));
    }
  }

  /** No time is lost or invented: the delays of the flattened events and
      the debt still owed add up to the initial debt, every pause and every
      fragment event's own delay. */
  lemma {:induction false} FlatConserves(fs: seq<Fragment>, debt: nat)
    ensures TotalTime(FlatFrom(fs, debt).events) + FlatFrom(fs, debt).debt
         == debt + Waits(fs) + TotalTime(AllEmitted(fs))
    decreases |fs|
  {
    if |fs| > 0 {
      var head := Step(fs[0], debt);
      var rest := FlatFrom(fs[1..], head.debt);
      assert FlatFrom(fs, debt) == Flat(head.events + rest.events, rest.debt);
      assert Waits(fs) == WaitOf(fs[0]) + Waits(fs[1..]);
      assert AllEmitted(fs) == Emitted(fs[0]) + AllEmitted(fs[1..]);
      FlatConserves(fs[1..], head.debt);
      StepConserves(fs[0], debt);
      TotalTimeAppend(head.events, rest.events);
      TotalTimeAppend(Emitted(fs[0]), AllEmitted(fs[1..]));
    }
  }

  /** One step keeps the time: the delays of its events and the debt it
      leaves add up to the debt owed before, its pause and its events' own
      delays. */
  lemma StepConserves(f: Fragment, debt: nat)
    ensures TotalTime(Step(f, debt).events) + Step(f, debt).debt
         == debt + WaitOf(f) + TotalTime(Emitted(f))
  {
    ApplyDebtTotal(Emitted(f), debt + WaitOf(f));
  }

  /** Flattening two runs of fragments: the second starts owing what the
      first left owed. */
  lemma {:induction false} FlatAppend(a: seq<Fragment>, b: seq<Fragment>, debt: nat)
    ensures FlatFrom(a + b, debt).events
         == FlatFrom(a, debt).events + FlatFrom(b, FlatFrom(a, debt).debt).events
    ensures FlatFrom(a + b, debt).debt == FlatFrom(b, FlatFrom(a, debt).debt).debt
    decreases |a|
  {
    if |a| == 0 {
      assert a + b == b;
    } else {
      var head := Step(a[0], debt);
      FlatAppend(a[1..], b, head.debt);
      SplitFirst(a, b);
      FlatCons(a[0], a[1..] + b, debt);
      FlatCons(a[0], a[1..], debt);
      EventsAssoc(head.events, FlatFrom(a[1..], head.debt).events,
                  FlatFrom(b, FlatFrom(a[1..], head.debt).debt).events);
    }
  }

  lemma SplitFirst(a: seq<Fragment>, b: seq<Fragment>)
    requires |a| > 0
    ensures a + b == [a[0]] + (a[1..] + b)
    ensures a == [a[0]] + a[1..]
  {
  }

  lemma EventsAssoc(x: seq<Event>, y: seq<Event>, z: seq<Event>)
    ensures x + (y + z) == (x + y) + z
  {
  }

  /** Flattening a fragment in front of others. */
  lemma FlatCons(f: Fragment, rest: seq<Fragment>, debt: nat)
    ensures FlatFrom([f] + rest, debt)
         == Flat(Step(f, debt).events + FlatFrom(rest, Step(f, debt).debt).events,
                 FlatFrom(rest, Step(f, debt).debt).debt)
  {
    assert ([f] + rest)[1..] == rest;
  }

  /** The debt owed at the end: with no event at all, every pause; otherwise
      the pauses after the last fragment that yields events. */
  lemma {:induction false} FlatLeftover(fs: seq<Fragment>, debt: nat)
    ensures AllEmitted(fs) == [] ==> FlatFrom(fs, debt) == Flat([], debt + Waits(fs))
    ensures forall j :: 0 <= j < |fs| && Emitted(fs[j]) != [] && AllEmitted(fs[j + 1..]) == [] ==>
      FlatFrom(fs, debt).debt == Waits(fs[j + 1..])
    decreases |fs|
  {
    if |fs| > 0 {
      var owed := debt + WaitOf(fs[0]);
      var next := if Emitted(fs[0]) == [] then owed else 0;
      FlatLeftover(fs[1..], next);
      forall j | 0 <= j < |fs| && Emitted(fs[j]) != [] && AllEmitted(fs[j + 1..]) == []
        ensures FlatFrom(fs, debt).debt == Waits(fs[j + 1..])
      {
        if j == 0 {
          FlatLeftover(fs[1..], 0);
          assert fs[j + 1..] == fs[1..];
        } else {
          assert fs[1..][j - 1] == fs[j];
          assert fs[1..][j - 1 + 1..] == fs[j + 1..];
        }
      }
    }
  }

  /** Are the events' times non-decreasing? */
  predicate Ordered(events: seq<Event>) {
    forall i, j :: 0 <= i < j < |events| ==> events[i].time <= events[j].time
  }

  /** The `scan` of the fold: each event's delay, added to the time of the
      event before it (`base` for the first), becomes its absolute time. */
  function Cumulate(events: seq<Event>, base: nat): (r: seq<Event>)
    ensures |r| == |events|
    ensures forall i :: 0 <= i < |r| ==> r[i].kind == events[i].kind && r[i].data == events[i].data
    ensures Ordered(r)
    ensures forall i :: 0 <= i < |r| ==> r[i].time >= base
  {
    if |events| == 0 then []
    else
      var first := events[0].(time := events[0].time + base);
      [first] + Cumulate(events[1..], first.time)
  }

  /** The absolute time of each event is `base` plus the delays of it and
      every event before it. */
  lemma {:induction false} CumulateTimes(events: seq<Event>, base: nat)
    ensures forall i :: 0 <= i < |events| ==>
      Cumulate(events, base)[i].time == base + TotalTime(events[..i + 1])
    decreases |events|
  {
    if |events| > 0 {
      var first := events[0].(time := events[0].time + base);
      CumulateTimes(events[1..], first.time);
      forall i | 0 <= i < |events|
        ensures Cumulate(events, base)[i].time == base + TotalTime(events[..i + 1])
      {
        TotalTimeCons(events[0], events[1..][..i]);
        assert [events[0]] + events[1..][..i] == events[..i + 1];
        if i == 0 {
          assert events[1..][..0] == [];
        }
      }
    }
  }

  /** Partner of `Cumulate`: the delay between each event and the one
      before it. */
  function Deltas(events: seq<Event>, base: nat): seq<Event>
    requires Ordered(events)
    requires forall i :: 0 <= i < |events| ==> events[i].time >= base
  {
    if |events| == 0 then []
    else [events[0].(time := events[0].time - base)] + Deltas(events[1..], events[0].time)
  }

  /** Taking the delays between absolute times gives back the delays. */
  lemma {:induction false} DeltasCumulate(events: seq<Event>, base: nat)
    ensures Deltas(Cumulate(events, base), base) == events
    decreases |events|
  {
    if |events| > 0 {
      var first := events[0].(time := events[0].time + base);
      var rest := Cumulate(events[1..], first.time);
      assert Cumulate(events, base) == [first] + rest;
      DeltasCumulate(events[1..], first.time);
      DeltasCons(first, rest, base);
      assert first.(time := first.time - base) == events[0];
      assert [events[0]] + events[1..] == events;
    }
  }

  /** `Deltas` of an event in front of others. */
  lemma DeltasCons(e: Event, rest: seq<Event>, base: nat)
    requires Ordered([e] + rest) && base <= e.time
    requires forall i :: 0 <= i < |rest| ==> rest[i].time >= e.time
    ensures Ordered(rest)
    ensures Deltas([e] + rest, base) == [e.(time := e.time - base)] + Deltas(rest, e.time)
  {
    var s := [e] + rest;
    assert forall i :: 0 <= i < |rest| ==> rest[i] == s[i + 1];
    assert s[1..] == rest;
  }

  /** The whole fold: the prompt at time zero, the flattened fragments and a
      line ending after one more `typeSpeed`, with absolute times, and any
      debt still owed added to the last event. */
  function Assemble(fs: seq<Fragment>, prompt: string, typeSpeed: nat): (r: seq<Event>)
    ensures |r| >= 2 && r[0] == OutputEvent(0, prompt)
    ensures r[|r| - 1].kind == Output && r[|r| - 1].data == "\r\n"
    ensures Ordered(r)
  {
    Finish(FlatFrom(fs, 0), prompt, typeSpeed)
  }

  /** The recording made of flattened events: the prompt, the events and a
      line ending, timed absolutely, with the debt still owed added to the
      last. */
  function Finish(flat: Flat, prompt: string, typeSpeed: nat): (r: seq<Event>)
    ensures |r| >= 2 && r[0] == OutputEvent(0, prompt)
    ensures r[|r| - 1].kind == Output && r[|r| - 1].data == "\r\n"
    ensures Ordered(r)
  {
    var timed := Cumulate([OutputEvent(0, prompt)] + flat.events + [OutputLn(typeSpeed)], 0);
    var last := |timed| - 1;
    timed[last := timed[last].(time := timed[last].time + flat.debt)]
  }

  /** The recording shows the prompt, every fragment event in order, and a
      line ending. */
  lemma AssembleShows(fs: seq<Fragment>, prompt: string, typeSpeed: nat)
    ensures |Assemble(fs, prompt, typeSpeed)| == |AllEmitted(fs)| + 2
    ensures Untimed(Assemble(fs, prompt, typeSpeed))
         == Untimed([OutputEvent(0, prompt)] + AllEmitted(fs) + [OutputLn(typeSpeed)])
  {
    var flat := FlatFrom(fs, 0);
    var all := [OutputEvent(0, prompt)] + flat.events + [OutputLn(typeSpeed)];
    FlatShows(fs, 0);
    UntimedAppend([OutputEvent(0, prompt)] + flat.events, [OutputLn(typeSpeed)]);
    UntimedAppend([OutputEvent(0, prompt)], flat.events);
    UntimedAppend([OutputEvent(0, prompt)] + AllEmitted(fs), [OutputLn(typeSpeed)]);
    UntimedAppend([OutputEvent(0, prompt)], AllEmitted(fs));
    var r := Assemble(fs, prompt, typeSpeed);
    var timed := Cumulate(all, 0);
    assert Untimed(r) == Untimed(timed) by {
      forall i | 0 <= i < |r| ensures Untimed(r)[i] == Untimed(timed)[i] {
        assert r[i].kind == timed[i].kind && r[i].data == timed[i].data;
      }
    }
  }

  /** The recording lasts exactly one `typeSpeed`, every pause, and every
      fragment event's own delay. */
  lemma AssembleDuration(fs: seq<Fragment>, prompt: string, typeSpeed: nat)
    ensures var r := Assemble(fs, prompt, typeSpeed);
      r[|r| - 1].time == typeSpeed + Waits(fs) + TotalTime(AllEmitted(fs))
  {
    var flat := FlatFrom(fs, 0);
    var all := [OutputEvent(0, prompt)] + flat.events + [OutputLn(typeSpeed)];
    CumulateTimes(all, 0);
    assert all[..|all| - 1 + 1] == all;
    FlatConserves(fs, 0);
    TotalTimeAppend([OutputEvent(0, prompt)] + flat.events, [OutputLn(typeSpeed)]);
    TotalTimeAppend([OutputEvent(0, prompt)], flat.events);
    TotalTimeSingle(OutputEvent(0, prompt));
    TotalTimeSingle(OutputLn(typeSpeed));
  }

  /** A fragment that yields nothing (a hidden command) changes nothing,
      and in particular does not pay the debt. */
  lemma NoneInvisible(a: seq<Fragment>, b: seq<Fragment>, prompt: string, typeSpeed: nat)
    ensures Assemble(a + [None] + b, prompt, typeSpeed) == Assemble(a + b, prompt, typeSpeed)
  {
    FlatAppend(a + [None], b, 0);
    FlatAppend(a, [None], 0);
    FlatAppend(a, b, 0);
    var fa := FlatFrom(a, 0);
    assert FlatFrom([None], fa.debt) == Flat([], fa.debt);
    assert fa.events + [] == fa.events;
  }

  /** Pauses in front of fragments only add to the debt. */
  lemma FlatWaitsFront(x: nat, y: nat, b: seq<Fragment>, debt: nat)
    ensures FlatFrom([Wait(x), Wait(y)] + b, debt) == FlatFrom(b, debt + x + y)
    ensures FlatFrom([Wait(x + y)] + b, debt) == FlatFrom(b, debt + x + y)
  {
    var two := [Wait(x), Wait(y)] + b;
    assert two[1..] == [Wait(y)] + b;
    assert ([Wait(y)] + b)[1..] == b;
    assert ([Wait(x + y)] + b)[1..] == b;
  }

  /** Consecutive pauses add up. */
  lemma WaitsAdd(a: seq<Fragment>, b: seq<Fragment>, x: nat, y: nat, prompt: string, typeSpeed: nat)
    ensures Assemble(a + [Wait(x), Wait(y)] + b, prompt, typeSpeed)
         == Assemble(a + [Wait(x + y)] + b, prompt, typeSpeed)
  {
    var two, one := [Wait(x), Wait(y)] + b, [Wait(x + y)] + b;
    assert a + [Wait(x), Wait(y)] + b == a + two;
    assert a + [Wait(x + y)] + b == a + one;
    FlatAppend(a, two, 0);
    FlatAppend(a, one, 0);
    FlatWaitsFront(x, y, b, FlatFrom(a, 0).debt);
    AssembleFlat(a + two, a + one, prompt, typeSpeed);
  }

  /** The recording depends on the fragments only through their flattening. */
  lemma AssembleFlat(fs: seq<Fragment>, gs: seq<Fragment>, prompt: string, typeSpeed: nat)
    requires FlatFrom(fs, 0) == FlatFrom(gs, 0)
    ensures Assemble(fs, prompt, typeSpeed) == Assemble(gs, prompt, typeSpeed)
  {
  }

  /** Two pauses before a marker: the marker appears after both, and the
      closing line ending one `typeSpeed` later. */
  lemma WaitThenMarkerExample(x: nat, y: nat, data: string, prompt: string, typeSpeed: nat)
    ensures Assemble([Wait(x), Wait(y), Once(MarkerEvent(0, data))], prompt, typeSpeed)
         == [OutputEvent(0, prompt), MarkerEvent(x + y, data), OutputLn(x + y + typeSpeed)]
  {
    var marker := Once(MarkerEvent(0, data));
    assert FlatFrom([marker], x + y) == Flat([MarkerEvent(x + y, data)], 0) by {
      assert FlatFrom([marker][1..], 0) == Flat([], 0);
    }
    FlatWaitsFront(x, y, [marker], 0);
    assert [Wait(x), Wait(y)] + [marker] == [Wait(x), Wait(y), marker];
    var all := [OutputEvent(0, prompt)] + [MarkerEvent(x + y, data)] + [OutputLn(typeSpeed)];
    assert all == [OutputEvent(0, prompt), MarkerEvent(x + y, data), OutputLn(typeSpeed)];
    CumulateThree(OutputEvent(0, prompt), MarkerEvent(x + y, data), OutputLn(typeSpeed));
  }

  lemma CumulateThree(a: Event, b: Event, c: Event)
    ensures Cumulate([a, b, c], 0)
         == [a, b.(time := a.time + b.time), c.(time := a.time + b.time + c.time)]
  {
    assert [a, b, c][1..] == [b, c];
    assert [b, c][1..] == [c];
    assert [c][1..] == [];
    var cb := c.(time := c.time + (b.time + a.time));
    assert Cumulate([c], b.time + a.time) == [cb];
    assert Cumulate([b, c], a.time) == [b.(time := b.time + a.time), cb];
  }

  /** A pause at the end lengthens the last event only. */
  lemma TrailingWaitExample(x: nat, prompt: string, typeSpeed: nat)
    ensures Assemble([Wait(x)], prompt, typeSpeed)
         == [OutputEvent(0, prompt), OutputLn(typeSpeed + x)]
  {
    FlatOneWait(x, 0);
    var all := [OutputEvent(0, prompt)] + [] + [OutputLn(typeSpeed)];
    assert all == [OutputEvent(0, prompt), OutputLn(typeSpeed)];
    CumulateTwo(OutputEvent(0, prompt), OutputLn(typeSpeed));
  }

  lemma FlatOneWait(x: nat, debt: nat)
    ensures FlatFrom([Wait(x)], debt) == Flat([], debt + x)
  {
    assert [Wait(x)][1..] == [];
  }

  lemma CumulateTwo(a: Event, b: Event)
    ensures Cumulate([a, b], 0) == [a, b.(time := a.time + b.time)]
  {
    assert [a, b][1..] == [b];
    assert [b][1..] == [];
  }
}

=== FILE: base.dfy ===
/**
 * Shared vocabulary of the model: optional values, results with an error
 * type, and the machine-integer ranges the recorder works with.
 *
 * Durations are natural numbers of nanoseconds throughout; instants of the
 * monotonic clock are natural numbers of nanoseconds since an arbitrary
 * origin.
 */
module Base {

  datatype Option<+T> = None | Some(value: T) {
    function GetOr(default: T): T {
      match this
      case Some(v) => v
      case None => default
    }
  }

  datatype Result<+T, +E> = Success(value: T) | Failure(error: E) {
    predicate IsFailure() { Failure? }

    function PropagateFailure<U>(): Result<U, E>
      requires Failure?
    {
      Failure(error)
    }

    function Extract(): T
      requires Success?
    {
      value
    }
  }

  /** One byte written to the pseudo-terminal. */
  type Byte = b: int | 0 <= b < 256

  /** Rust `u16`, used for terminal dimensions. */
  type U16 = n: int | 0 <= n < 0x1_0000

  /** Largest Rust `u64`. */
  const U64_MAX: nat := 0xFFFF_FFFF_FFFF_FFFF

  const NANOS_PER_MICRO: nat := 1_000
  const NANOS_PER_MILLI: nat := 1_000_000
  const NANOS_PER_SEC: nat := 1_000_000_000
}

=== FILE: config.dfy ===
/**
 * The script vocabulary and the settings of a recording (`config.rs`):
 * shells, environment variables, commands, keys and instructions, the
 * merge of command-line settings into the script's, and the pieces of the
 * conversion of a script into an asciicast file that do not touch the
 * shell: the terminal size, the shell's program and line split, and the
 * recorded environment.
 */
module Config {
  import opened Base
  import Text
  import ControlCodes

  type ControlCode = ControlCodes.ControlCode

  /** The shell that runs the script's commands. */
  datatype Shell =
    | Bash
    | Python
    | Custom(program: string, args: seq<string>, prompt: string, lineSplit: string,
             quitCommand: Option<string>)

  /** `Shell::default()` */
  const DEFAULT_SHELL: Shell := Bash

  /** The text a built-in shell expects at the end of a line that continues. */
  const BUILTIN_LINE_SPLIT: string := " \\"

  datatype EnvVar = EnvVar(name: string, value: string)

  /** What is typed into the shell. */
  datatype Command =
    | SingleLine(line: string)
    | MultiLine(lines: seq<string>)
    | Control(code: ControlCode)

  /** One key press, or a pause, of an interactive instruction. */
  datatype Key =
    | Char(c: char)
    | String(text: string)
    | Control(code: ControlCode)
    | Wait(duration: nat)

  /** One step of a script. Durations are nanoseconds. */
  datatype Instruction =
    | Command(command: Command, hidden: bool, typeSpeed: Option<nat>)
    | Interactive(command: Command, keys: seq<Key>, typeSpeed: Option<nat>)
    | Wait(duration: nat)
    | Marker(data: string)
    | Clear

  /** The settings of a recording; durations are nanoseconds. */
  datatype Settings = Settings(
    width: Option<U16>,
    height: Option<U16>,
    title: Option<string>,
    shell: Shell,
    environment: seq<EnvVar>,
    environmentCapture: seq<string>,
    typeSpeed: nat,
    prompt: string,
    secondaryPrompt: string,
    timeout: nat)

  const DEFAULT_TYPE_SPEED: nat := 100 * NANOS_PER_MILLI
  const DEFAULT_PROMPT: string := "$ "
  const DEFAULT_SECONDARY_PROMPT: string := "> "
  const DEFAULT_TIMEOUT: nat := 30 * NANOS_PER_SEC

  /** `Settings::default()` */
  const DEFAULT_SETTINGS: Settings := Settings(
    None, None, None, DEFAULT_SHELL, [], [],
    DEFAULT_TYPE_SPEED, DEFAULT_PROMPT, DEFAULT_SECONDARY_PROMPT, DEFAULT_TIMEOUT)

  // ---------------------------------------------------------------- Merge

  /** Merging an option: a present `other` replaces `self`. */
  function MergeOption<T>(self: Option<T>, other: Option<T>): (r: Option<T>)
    ensures r.Some? <==> self.Some? || other.Some?
    ensures other.Some? ==> r == other
    ensures other.None? ==> r == self
  {
    match other
    case Some(t) => Some(t)
    case None => self
  }

  /** Merging a list: `other` is appended. */
  function MergeSeq<T>(self: seq<T>, other: seq<T>): (r: seq<T>)
    ensures |r| == |self| + |other|
    ensures r[..|self|] == self && r[|self|..] == other
  {
    self + other
  }

  /** Merging a shell: `other` replaces `self` unless it is the default. */
  function MergeShell(self: Shell, other: Shell): (r: Shell)
    ensures r == other || r == self
    ensures r == self <==> other == DEFAULT_SHELL || other == self
  {
    if other != DEFAULT_SHELL then other else self
  }

  /** A scalar setting: `other` wins unless it equals the default `d`. */
  function MergeScalar<T(==)>(self: T, other: T, d: T): (r: T)
    ensures r == other || r == self
    ensures r == self <==> other == d || other == self
  {
    if other != d then other else self
  }

  /** `Settings::merge`: every field of `other` takes priority, except where
      it holds the default value. */
  function MergeSettings(self: Settings, other: Settings): (r: Settings)
    ensures r.width == MergeOption(self.width, other.width)
    ensures r.height == MergeOption(self.height, other.height)
    ensures r.title == MergeOption(self.title, other.title)
    ensures r.shell == MergeShell(self.shell, other.shell)
    ensures r.environment == self.environment + other.environment
    ensures r.environmentCapture == self.environmentCapture + other.environmentCapture
    ensures r.typeSpeed == (if other.typeSpeed != DEFAULT_TYPE_SPEED then other.typeSpeed else self.typeSpeed)
    ensures r.prompt == (if other.prompt != DEFAULT_PROMPT then other.prompt else self.prompt)
    ensures r.secondaryPrompt
         == (if other.secondaryPrompt != DEFAULT_SECONDARY_PROMPT then other.secondaryPrompt else self.secondaryPrompt)
    ensures r.timeout == (if other.timeout != DEFAULT_TIMEOUT then other.timeout else self.timeout)
  {
    Settings(
      MergeOption(self.width, other.width),
      MergeOption(self.height, other.height),
      MergeOption(self.title, other.title),
      MergeShell(self.shell, other.shell),
      MergeSeq(self.environment, other.environment),
      MergeSeq(self.environmentCapture, other.environmentCapture),
      MergeScalar(self.typeSpeed, other.typeSpeed, DEFAULT_TYPE_SPEED),
      MergeScalar(self.prompt, other.prompt, DEFAULT_PROMPT),
      MergeScalar(self.secondaryPrompt, other.secondaryPrompt, DEFAULT_SECONDARY_PROMPT),
      MergeScalar(self.timeout, other.timeout, DEFAULT_TIMEOUT))
  }

  /** Merging in the default settings changes nothing. */
  lemma MergeDefaultRight(s: Settings)
    ensures MergeSettings(s, DEFAULT_SETTINGS) == s
  {
    assert s.environment + [] == s.environment;
    assert s.environmentCapture + [] == s.environmentCapture;
  }

  /** Merging into the default settings yields the merged-in settings. */
  lemma MergeDefaultLeft(s: Settings)
    ensures MergeSettings(DEFAULT_SETTINGS, s) == s
  {
    assert [] + s.environment == s.environment;
    assert [] + s.environmentCapture == s.environmentCapture;
  }

  /** Merging is associative: several layers of settings can be combined in
      any grouping. */
  lemma MergeAssociative(a: Settings, b: Settings, c: Settings)
    ensures MergeSettings(MergeSettings(a, b), c) == MergeSettings(a, MergeSettings(b, c))
  {
    assert (a.environment + b.environment) + c.environment == a.environment + (b.environment + c.environment);
    assert (a.environmentCapture + b.environmentCapture) + c.environmentCapture
        == a.environmentCapture + (b.environmentCapture + c.environmentCapture);
  }

  /** The documented example: merging settings whose only change is a width
      of 100 into the defaults gives a width of 100. */
  lemma MergeWidthExample()
    ensures MergeSettings(DEFAULT_SETTINGS, DEFAULT_SETTINGS.(width := Some(100))).width == Some(100)
  {
  }

  // ---------------------------------------------------------------- Shell

  /** A command-line word, quoted when it holds whitespace. */
  function Quote(arg: string): (r: string)
    ensures Text.HasWhitespace(arg) ==> |r| == |arg| + 2 && r[0] == '"' && r[|r| - 1] == '"' && r[1..|r| - 1] == arg
    ensures !Text.HasWhitespace(arg) ==> r == arg
  {
    if Text.HasWhitespace(arg) then "\"" + arg + "\"" else arg
  }

  function QuoteAll(words: seq<string>): (r: seq<string>)
    ensures |r| == |words|
    ensures forall i :: 0 <= i < |words| ==> r[i] == Quote(words[i])
  {
    if |words| == 0 then [] else [Quote(words[0])] + QuoteAll(words[1..])
  }

  /** `impl Display for Shell`: the built-in shells by name, a custom shell as
      its program and arguments separated by spaces, each quoted when it
      holds whitespace. */
  function ShellDisplay(sh: Shell): string {
    match sh
    case Bash => "bash"
    case Python => "python"
    case Custom(program, args, _, _, _) => Text.Join(QuoteAll([program] + args), " ")
  }

  /** The program run for the shell. */
  function Program(sh: Shell): (r: string)
    ensures sh.Bash? ==> r == "bash"
    ensures sh.Python? ==> r == "python"
    ensures sh.Custom? ==> r == sh.program
  {
    match sh
    case Bash => "bash"
    case Python => "python"
    case Custom(program, _, _, _, _) => program
  }

  /** The text that ends a line continued on the next one. */
  function LineSplit(sh: Shell): (r: string)
    ensures sh.Custom? ==> r == sh.lineSplit
    ensures !sh.Custom? ==> r == BUILTIN_LINE_SPLIT
  {
    match sh
    case Bash | Python => BUILTIN_LINE_SPLIT
    case Custom(_, _, _, lineSplit, _) => lineSplit
  }

  /** A built-in shell displays as the program it runs. */
  lemma BuiltinDisplayIsProgram(sh: Shell)
    requires !sh.Custom?
    ensures ShellDisplay(sh) == Program(sh)
  {
  }

  /** When no word of a custom shell holds whitespace, its display splits at
      the spaces back into the program and its arguments. */
  lemma CustomDisplaySplits(sh: Shell)
    requires sh.Custom?
    requires forall i :: 0 <= i < |[sh.program] + sh.args| ==> !Text.HasWhitespace(([sh.program] + sh.args)[i])
    ensures Text.Split(ShellDisplay(sh), ' ') == [sh.program] + sh.args
  {
    var words := [sh.program] + sh.args;
    var quoted := QuoteAll(words);
    assert quoted == words;
    forall i | 0 <= i < |words| ensures ' ' !in words[i] {
      assert !Text.HasWhitespace(words[i]);
      assert Text.IsWhitespace(' ');
    }
    Text.SplitJoin(words, ' ');
  }

  // ---------------------------------------------------------------- EnvVar

  /** `EnvVar::from(&str)`: `NAME=VALUE` splits at the first `=`; a text
      without one is a name with an empty value. */
  function EnvVarFrom(s: string): (r: EnvVar)
    ensures '=' !in r.name
    ensures '=' in s ==> r.name + "=" + r.value == s
    ensures '=' !in s ==> r == EnvVar(s, "")
  {
    match Text.SplitOnce(s, '=')
    case Some((name, value)) => EnvVar(name, value)
    case None => EnvVar(s, "")
  }

  /** A name without `=` and any value survive `NAME=VALUE`. */
  lemma EnvVarRoundTrip(v: EnvVar)
    requires '=' !in v.name
    ensures EnvVarFrom(v.name + "=" + v.value) == v
  {
    Text.IndexOfCharAfterFree(v.name, '=', v.value);
    assert v.name + "=" + v.value == v.name + ['='] + v.value;
  }

  // ---------------------------------------------------------------- terminal size

  /** `terminal_size`: the given width and height, the missing one taken from
      `query`, the size of the current terminal as (rows, columns) or `None`
      when it cannot be read. The query is not made when both are given. */
  function TerminalSize(width: Option<U16>, height: Option<U16>, query: Option<(U16, U16)>)
    : (r: Option<(U16, U16)>)
    ensures r.Some? <==> (width.Some? && height.Some?) || query.Some?
    ensures r.Some? && width.Some? ==> r.value.0 == width.value
    ensures r.Some? && height.Some? ==> r.value.1 == height.value
    ensures r.Some? && width.None? ==> r.value.0 == query.value.1
    ensures r.Some? && height.None? ==> r.value.1 == query.value.0
  {
    if width.Some? && height.Some? then Some((width.value, height.value))
    else match query
      case None => None
      case Some((rows, columns)) => Some((width.GetOr(columns), height.GetOr(rows)))
  }

  // ---------------------------------------------------------------- environment

  /** `v` is the value of the last entry named `k`. */
  ghost predicate LastValue(vars: seq<EnvVar>, k: string, v: string) {
    exists i :: 0 <= i < |vars| && vars[i] == EnvVar(k, v) && forall j :: i < j < |vars| ==> vars[j].name != k
  }

  /** The environment entries as a map; a later duplicate name wins. */
  function EnvMap(vars: seq<EnvVar>): (r: map<string, string>)
    ensures forall k :: k in r <==> exists i :: 0 <= i < |vars| && vars[i].name == k
    ensures forall k | k in r :: LastValue(vars, k, r[k])
  {
    if |vars| == 0 then map[]
    else
      var last := vars[|vars| - 1];
      var m := EnvMap(vars[..|vars| - 1]);
      EnvMapKeys(vars[..|vars| - 1], last, m, m[last.name := last.value]);
      assert vars[..|vars| - 1] + [last] == vars;
      EnvMapValues(vars, m);
      m[last.name := last.value]
  }

  /** The names set after one more entry. */
  lemma EnvMapKeys(init: seq<EnvVar>, last: EnvVar, m: map<string, string>, r: map<string, string>)
    requires forall k :: k in m <==> exists i :: 0 <= i < |init| && init[i].name == k
    requires r == m[last.name := last.value]
    ensures forall k :: k in r <==> exists i :: 0 <= i < |init + [last]| && (init + [last])[i].name == k
  {
    var vars := init + [last];
    forall k ensures k in r <==> exists i :: 0 <= i < |vars| && vars[i].name == k {
      if k in m {
        var i :| 0 <= i < |init| && init[i].name == k;
        assert vars[i].name == k;
      }
      if k == last.name {
        assert vars[|init|].name == k;
      }
      if exists i :: 0 <= i < |vars| && vars[i].name == k {
        var i :| 0 <= i < |vars| && vars[i].name == k;
        if i < |init| {
          assert init[i].name == k;
        }
      }
    }
  }

  /** The values after one more entry: the new entry wins. */
  lemma EnvMapValues(vars: seq<EnvVar>, m: map<string, string>)
    requires |vars| > 0
    requires forall k | k in m :: LastValue(vars[..|vars| - 1], k, m[k])
    ensures var r := m[vars[|vars| - 1].name := vars[|vars| - 1].value];
      forall k | k in r :: LastValue(vars, k, r[k])
  {
    var init := vars[..|vars| - 1];
    var last := vars[|vars| - 1];
    var r := m[last.name := last.value];
    assert LastValue(vars, last.name, last.value) by {
      assert vars[|vars| - 1] == EnvVar(last.name, last.value);
    }
    forall k | k in r && k != last.name ensures LastValue(vars, k, r[k]) {
      var i :| 0 <= i < |init| && init[i] == EnvVar(k, m[k]) && forall j :: i < j < |init| ==> init[j].name != k;
      assert vars[i] == EnvVar(k, m[k]);
      assert forall j :: i < j < |init| ==> vars[j] == init[j];
    }
  }

  /** Adds each captured variable that is not yet set, with its value in the
      recorder's own environment, empty when it has none. */
  function Capture(m: map<string, string>, names: seq<string>, getenv: string -> Option<string>)
    : (r: map<string, string>)
    ensures r.Keys == m.Keys + set x | x in names
    ensures forall k | k in m :: r[k] == m[k]
    ensures forall k | k in r && k !in m :: r[k] == getenv(k).GetOr("")
    decreases |names|
  {
    if |names| == 0 then m
    else
      var k := names[0];
      var m' := if k in m then m else m[k := getenv(k).GetOr("")];
      var r := Capture(m', names[1..], getenv);
      assert (set x | x in names) == {k} + set x | x in names[1..];
      r
  }

  /** The `env` of the asciicast header: the script's environment (a later
      duplicate wins), then each captured variable not already set, then
      `SHELL` with the shell's resolved path. */
  function BuildEnv(vars: seq<EnvVar>, capture: seq<string>, getenv: string -> Option<string>,
                    shellPath: string): (r: map<string, string>)
    ensures r.Keys == (set v | v in vars :: v.name) + (set x | x in capture) + {"SHELL"}
    ensures r["SHELL"] == shellPath
    ensures forall k | k in r && k != "SHELL" && (exists i :: 0 <= i < |vars| && vars[i].name == k) :: LastValue(vars, k, r[k])
    ensures forall k | k in r && k != "SHELL" && (forall i :: 0 <= i < |vars| ==> vars[i].name != k)
      :: r[k] == getenv(k).GetOr("")
  {
    var m := EnvMap(vars);
    assert m.Keys == set v | v in vars :: v.name by {
      forall k | k in m ensures k in set v | v in vars :: v.name {
        var i :| 0 <= i < |vars| && vars[i].name == k;
        assert vars[i] in vars;
      }
    }
    Capture(m, capture, getenv)["SHELL" := shellPath]
  }
}

=== FILE: control.dfy ===
/**
 * Control codes of the pseudo-terminal library. Its conversion from a
 * caret-notation character, its caret text and its bytes are outside this
 * model, so they are carried as a table of functions that every operation
 * needing them takes as a parameter.
 */
module ControlCodes {
  import opened Base

  /** An opaque control code (`expectrl::ControlCode`). */
  datatype ControlCode = ControlCode(id: nat)

  datatype ControlTable = ControlTable(
    /** `ControlCode::try_from(char)`: `None` when the char names no code */
    fromChar: char -> Option<ControlCode>,
    /** `AsRef<str>`: the code as typed text, such as `^C` */
    text: ControlCode -> string,
    /** `AsRef<[u8]>`: the bytes written to the terminal */
    bytes: ControlCode -> seq<Byte>)
}

=== FILE: de.dfy ===
/**
 * Pieces shared by the custom deserialisers of the script format
 * (`config/de.rs`): the errors they raise, the parsing of a caret-notation
 * control character, and the loop that reads the fields of a map,
 * rejecting a field given twice.
 *
 * The data format itself is not modelled: what a visitor is handed by the
 * format (a string, the elements of a sequence, the entries of a map, the
 * payload of a tagged value) is an input, already decoded or already
 * failed.
 */
module De {
  import opened Base
  import ControlCodes
  import DurationParse

  /** The unexpected value named in an invalid-value error. */
  datatype Unexpected = UnexpectedStr(s: string) | UnexpectedChar(c: char)

  datatype DeError =
    /** `Error::invalid_value(unexpected, expected)` */
    | InvalidValue(unexpected: Unexpected, expected: string)
    /** `Error::custom` carrying a duration parse error */
    | Custom(cause: DurationParse.ParseError)
    | DuplicateField(field: string)
    | MissingField(field: string)
    /** `Error::invalid_type`: a value of another type than `expected` */
    | InvalidType(expected: string)
    /** an error raised by the data format, such as a value of the wrong
        type or an unknown field; `id` tells such errors apart */
    | Format(id: nat)

  const SINGLE_CONTROL_CHAR: string := "single control char"
  const VALID_CONTROL_CHAR: string := "valid control char"

  /** `invalid_control` */
  function InvalidControl(c: char): DeError {
    InvalidValue(UnexpectedChar(c), VALID_CONTROL_CHAR)
  }

  /** `parse_control`: the text after `^` must be exactly one char, and that
      char must name a control code. */
  function ParseControl(table: ControlCodes.ControlTable, control: string)
    : (r: Result<ControlCodes.ControlCode, DeError>)
    ensures r.Success? <==> |control| == 1 && table.fromChar(control[0]).Some?
    ensures r.Success? ==> r.value == table.fromChar(control[0]).value
    ensures |control| != 1 ==> r == Failure(InvalidValue(UnexpectedStr(control), SINGLE_CONTROL_CHAR))
    ensures |control| == 1 && r.Failure? ==> r == Failure(InvalidControl(control[0]))
  {
    if |control| != 1 then Failure(InvalidValue(UnexpectedStr(control), SINGLE_CONTROL_CHAR))
    else match table.fromChar(control[0])
      case Some(code) => Success(code)
      case None => Failure(InvalidControl(control[0]))
  }

  /** `control_from_variant`: the payload of a tagged control code is a char
      that must name a control code. */
  function ControlFromVariant(table: ControlCodes.ControlTable, payload: Result<char, DeError>)
    : (r: Result<ControlCodes.ControlCode, DeError>)
    ensures payload.Failure? ==> r == Failure(payload.error)
    ensures payload.Success? ==> (r.Success? <==> table.fromChar(payload.value).Some?)
    ensures payload.Success? && r.Failure? ==> r.error == InvalidControl(payload.value)
  {
    var c :- payload;
    match table.fromChar(c)
    case Some(code) => Success(code)
    case None => Failure(InvalidControl(c))
  }

  /** A tagged control code and the same char in caret notation agree. */
  lemma ControlNotationsAgree(table: ControlCodes.ControlTable, c: char)
    ensures ParseControl(table, [c]) == ControlFromVariant(table, Success(c))
  {
  }

  // ---------------------------------------------------------------- map_fields!

  /** What reading the next key of a map yields: an error, or a field with
      its still undecoded value. The map ends after the last event. */
  datatype MapEvent<F, R> = KeyError(error: DeError) | Entry(key: F, raw: R)

  /** Did a field named `k` occur before position `i`? */
  predicate SeenBefore<F(==), R>(events: seq<MapEvent<F, R>>, i: nat, k: F)
    requires i <= |events|
  {
    exists j :: 0 <= j < i && events[j].Entry? && events[j].key == k
  }

  /** The error the event at position `i` stops the loop with, if any: the
      key's own error, then a duplicate field (found before the value is
      read), then the value's error. */
  function StepError<F(==), R, V>(events: seq<MapEvent<F, R>>, i: nat,
                                  decode: (F, R) -> Result<V, DeError>, name: F -> string)
    : Option<DeError>
    requires i < |events|
  {
    match events[i]
    case KeyError(e) => Some(e)
    case Entry(k, raw) =>
      if SeenBefore(events, i, k) then Some(DuplicateField(name(k)))
      else match decode(k, raw)
        case Failure(e) => Some(e)
        case Success(_) => None
  }

  /** The loop of `map_fields!`: reads every entry, decoding its value with
      `decode`, into a map from field to value. It stops at the first key
      error, duplicate field or value error. */
  method MapFields<F(==), R, V>(events: seq<MapEvent<F, R>>,
                                decode: (F, R) -> Result<V, DeError>, name: F -> string)
    returns (r: Result<map<F, V>, DeError>)
    ensures r.Success? <==> forall i :: 0 <= i < |events| ==> StepError(events, i, decode, name).None?
    ensures r.Failure? ==> exists i :: (0 <= i < |events|
      && (forall j :: 0 <= j < i ==> StepError(events, j, decode, name).None?)
      && StepError(events, i, decode, name) == Some(r.error))
    ensures r.Success? ==> forall i :: 0 <= i < |events| ==>
      events[i].Entry? && events[i].key in r.value && Success(r.value[events[i].key]) == decode(events[i].key, events[i].raw)
    ensures r.Success? ==> forall k :: k in r.value ==> SeenBefore(events, |events|, k)
  {
    var fields: map<F, V> := map[];
    var i := 0;
    while i < |events|
      invariant 0 <= i <= |events|
      invariant forall j :: 0 <= j < i ==> StepError(events, j, decode, name).None?
      invariant forall j :: 0 <= j < i ==>
        events[j].Entry? && events[j].key in fields && Success(fields[events[j].key]) == decode(events[j].key, events[j].raw)
      invariant forall k :: k in fields <==> SeenBefore(events, i, k)
    {
      match events[i]
      case KeyError(e) =>
        assert StepError(events, i, decode, name) == Some(e);
        return Failure(e);
      case Entry(k, raw) =>
        if k in fields {
          assert StepError(events, i, decode, name) == Some(DuplicateField(name(k)));
          return Failure(DuplicateField(name(k)));
        }
        var value := decode(k, raw);
        if value.Failure? {
          assert StepError(events, i, decode, name) == Some(value.error);
          return Failure(value.error);
        }
        fields := fields[k := value.value];
        i := i + 1;
    }
    return Success(fields);
  }
}

=== FILE: de_command.dfy ===
/**
 * Deserialising a command of a script (`config/de/command.rs`): a plain
 * string is a single line, a string with line breaks is several lines and a
 * string starting with `^` is a control code in caret notation; a sequence
 * of strings is several lines; a tagged value names its variant.
 */
module DeCommand {
  import opened Base
  import Text
  import ControlCodes
  import opened De
  import Config

  type Command = Config.Command

  const SINGLE_LINE_STRING: string := "single line string"

  /** `Visitor::visit_str` */
  function VisitStr(table: ControlCodes.ControlTable, v: string): (r: Result<Command, DeError>)
    ensures r.Failure? ==> Text.IsPrefix("^", v) && Failure(r.error) == ParseControl(table, v[1..])
    ensures r.Success? && r.value.Control? <==> Text.IsPrefix("^", v) && ParseControl(table, v[1..]).Success?
    ensures r.Success? && r.value.Control? ==> Success(r.value.code) == ParseControl(table, v[1..])
    ensures r.Success? && r.value.MultiLine? <==> !Text.IsPrefix("^", v) && '\n' in v
    ensures r.Success? && r.value.MultiLine? ==> r.value.lines == Text.Lines(v)
    ensures r.Success? && r.value.SingleLine? <==> !Text.IsPrefix("^", v) && '\n' !in v
    ensures r.Success? && r.value.SingleLine? ==> r.value.line == v
  {
    match Text.StripPrefix(v, "^")
    case Some(control) =>
      assert control == v[1..];
      var code :- ParseControl(table, control);
      Success(Config.Command.Control(code))
    case None =>
      if '\n' in v then Success(Config.MultiLine(Text.Lines(v)))
      else Success(Config.SingleLine(v))
  }

  /** `Visitor::visit_string`: the owned string is taken as it is when it
      can only be a single line, and otherwise handed to `visit_str`. */
  function VisitString(table: ControlCodes.ControlTable, v: string): Result<Command, DeError> {
    if Text.IsPrefix("^", v) || '\n' in v then VisitStr(table, v)
    else Success(Config.SingleLine(v))
  }

  /** The shortcut of `visit_string` decides nothing differently. */
  lemma VisitStringAgrees(table: ControlCodes.ControlTable, v: string)
    ensures VisitString(table, v) == VisitStr(table, v)
  {
  }

  /** A line without line breaks and without a leading `^` is read back as
      that single line. */
  lemma SingleLineRoundTrip(table: ControlCodes.ControlTable, line: string)
    requires '\n' !in line && !Text.IsPrefix("^", line)
    ensures VisitStr(table, line) == Success(Config.SingleLine(line))
  {
  }

  /** Lines joined with line breaks are read back as those lines, provided
      there are at least two, none holds a line break or carriage return, the
      last is not empty and the first does not start with `^`. */
  lemma MultiLineRoundTrip(table: ControlCodes.ControlTable, lines: seq<string>)
    requires |lines| >= 2 && lines[|lines| - 1] != ""
    requires forall i :: 0 <= i < |lines| ==> '\n' !in lines[i] && '\r' !in lines[i]
    requires !Text.IsPrefix("^", lines[0])
    ensures VisitStr(table, Text.Join(lines, "\n")) == Success(Config.MultiLine(lines))
  {
    Text.JoinHasSeparator(lines, '\n');
    assert "\n" == ['\n'];
    JoinNoCaret(lines);
    Text.LinesOfJoin(lines);
  }

  /** Joined lines start with `^` only if the first line does. */
  lemma JoinNoCaret(lines: seq<string>)
    requires |lines| >= 2 && !Text.IsPrefix("^", lines[0])
    ensures !Text.IsPrefix("^", Text.Join(lines, "\n"))
  {
    var v := Text.Join(lines, "\n");
    Text.JoinCons(lines[0], lines[1..], "\n");
    assert lines == [lines[0]] + lines[1..];
    if |lines[0]| == 0 {
      assert v[0] == '\n';
    } else {
      assert v[0] == lines[0][0];
    }
  }

  /** The lines of a multi-line string lose nothing but a final line break,
      when the string holds no carriage return. */
  lemma MultiLineKeepsText(table: ControlCodes.ControlTable, v: string)
    requires '\r' !in v
    requires VisitStr(table, v).Success? && VisitStr(table, v).value.MultiLine?
    ensures Text.Join(VisitStr(table, v).value.lines, "\n") + (if v[|v| - 1] == '\n' then "\n" else "") == v
  {
    Text.LinesJoin(v);
  }

  /** `Visitor::visit_seq`: the elements, all strings, are the lines; the
      first element that fails to deserialise is the error. */
  function VisitSeq(elements: seq<Result<string, DeError>>): (r: Result<Command, DeError>)
    ensures r.Success? <==> forall i :: 0 <= i < |elements| ==> elements[i].Success?
    ensures r.Success? ==> r.value.MultiLine? && |r.value.lines| == |elements|
    ensures r.Success? ==> forall i :: 0 <= i < |elements| ==> r.value.lines[i] == elements[i].value
    ensures r.Failure? ==> exists i :: 0 <= i < |elements| && elements[i] == Failure(r.error)
                                   && forall j :: 0 <= j < i ==> elements[j].Success?
  {
    if |elements| == 0 then Success(Config.MultiLine([]))
    else
      var first :- elements[0];
      match VisitSeq(elements[1..])
      case Failure(e) =>
        var i :| 0 <= i < |elements[1..]| && elements[1..][i] == Failure(e)
                 && forall j :: 0 <= j < i ==> elements[1..][j].Success?;
        assert elements[i + 1] == Failure(e);
        Failure(e)
      case Success(rest) => Success(Config.MultiLine([first] + rest.lines))
  }

  /** The variant named by a tag, with the result of deserialising its
      payload (`EnumAccess::variant` and `VariantAccess::newtype_variant`). */
  datatype Tagged =
    | SingleLineTag(line: Result<string, DeError>)
    | MultiLineTag(lines: Result<seq<string>, DeError>)
    | ControlTag(c: Result<char, DeError>)
    | TagFailure(error: DeError)

  /** `Visitor::visit_enum`: a tagged single line must not hold a line
      break; the other variants take their payload as it is. */
  function VisitEnum(table: ControlCodes.ControlTable, data: Tagged): (r: Result<Command, DeError>)
    ensures data.TagFailure? ==> r == Failure(data.error)
    ensures data.SingleLineTag? && data.line.Success? ==>
      (r.Success? <==> '\n' !in data.line.value)
    ensures data.SingleLineTag? && data.line.Success? && r.Failure? ==>
      r.error == InvalidValue(UnexpectedStr(data.line.value), SINGLE_LINE_STRING)
    ensures data.SingleLineTag? && r.Success? ==> data.line.Success? && r.value == Config.SingleLine(data.line.value)
    ensures data.SingleLineTag? && data.line.Failure? ==> r == Failure(data.line.error)
    ensures data.MultiLineTag? ==> r.Success? == data.lines.Success?
    ensures data.MultiLineTag? && data.lines.Failure? ==> r == Failure(data.lines.error)
    ensures data.MultiLineTag? && r.Success? ==> r.value == Config.MultiLine(data.lines.value)
    ensures data.ControlTag? && r.Success? ==> r.value.Control? && Success(r.value.code) == ControlFromVariant(table, data.c)
    ensures data.ControlTag? && r.Failure? ==> Failure(r.error) == ControlFromVariant(table, data.c)
  {
    match data
    case TagFailure(e) => Failure(e)
    case SingleLineTag(payload) =>
      var line :- payload;
      if '\n' in line then Failure(InvalidValue(UnexpectedStr(line), SINGLE_LINE_STRING))
      else Success(Config.SingleLine(line))
    case MultiLineTag(payload) =>
      var lines :- payload;
      Success(Config.MultiLine(lines))
    case ControlTag(payload) =>
      var code :- ControlFromVariant(table, payload);
      Success(Config.Command.Control(code))
  }

  /** A tagged single line and the plain string agree, unless the string
      starts with `^`: tagged, it stays a line. */
  lemma TaggedSingleLine(table: ControlCodes.ControlTable, line: string)
    requires '\n' !in line
    ensures VisitEnum(table, SingleLineTag(Success(line))) == Success(Config.SingleLine(line))
    ensures !Text.IsPrefix("^", line) ==> VisitEnum(table, SingleLineTag(Success(line))) == VisitStr(table, line)
  {
  }

  /** A tagged control char and the same char after `^` agree. */
  lemma TaggedControl(table: ControlCodes.ControlTable, c: char)
    ensures VisitEnum(table, ControlTag(Success(c))) == VisitStr(table, "^" + [c])
  {
    assert ("^" + [c])[1..] == [c];
    ControlNotationsAgree(table, c);
  }
}

=== FILE: de_key.dfy ===
/**
 * Deserialising a key of an interactive instruction
 * (`config/de/key.rs`): a char is that key; a string starting with `^` is a
 * control code, one starting with `!Str ` is the rest of the string, one
 * of exactly one char is that char, and any other string is a pause given
 * as a duration.
 */
module DeKey {
  import opened Base
  import Text
  import ControlCodes
  import Decimal
  import DurationParse
  import opened De
  import Config

  type Key = Config.Key

  const STR_PREFIX: string := "!Str "

  /** `Visitor::visit_char` */
  function VisitChar(c: char): (r: Result<Key, DeError>)
    ensures r.Success? && r.value.Char? && r.value.c == c
  {
    Success(Config.Char(c))
  }

  /** `Visitor::visit_str`: the forms are tried in the order caret control
      code, `!Str ` string, single char, duration. */
  function VisitStr(table: ControlCodes.ControlTable, v: string): (r: Result<Key, DeError>)
    ensures Text.IsPrefix("^", v) ==> (r.Success? ==> r.value.Control?)
    ensures Text.IsPrefix("^", v) ==>
      (r.Success? <==> ParseControl(table, v[1..]).Success?)
      && (r.Success? ==> Success(r.value.code) == ParseControl(table, v[1..]))
      && (r.Failure? ==> Failure(r.error) == ParseControl(table, v[1..]))
    ensures !Text.IsPrefix("^", v) && Text.IsPrefix(STR_PREFIX, v) ==>
      r == Success(Config.String(v[|STR_PREFIX|..]))
    ensures !Text.IsPrefix("^", v) && !Text.IsPrefix(STR_PREFIX, v) && |v| == 1 ==>
      r == Success(Config.Char(v[0]))
    ensures !Text.IsPrefix("^", v) && !Text.IsPrefix(STR_PREFIX, v) && |v| != 1 ==>
      (r.Success? <==> DurationParse.Parse(v).Success?)
      && (r.Success? ==> r.value == Config.Key.Wait(DurationParse.Parse(v).value))
      && (r.Failure? ==> r.error == Custom(DurationParse.Parse(v).error))
  {
    if Text.IsPrefix("^", v) then CaretKey(table, v[1..]) else PlainKey(v)
  }

  function CaretKey(table: ControlCodes.ControlTable, control: string): (r: Result<Key, DeError>)
    ensures r.Success? <==> ParseControl(table, control).Success?
    ensures r.Success? ==> r.value.Control? && Success(r.value.code) == ParseControl(table, control)
    ensures r.Failure? ==> Failure(r.error) == ParseControl(table, control)
  {
    var code :- ParseControl(table, control);
    Success(Config.Key.Control(code))
  }

  function PlainKey(v: string): (r: Result<Key, DeError>)
    ensures Text.IsPrefix(STR_PREFIX, v) ==> r == Success(Config.String(v[|STR_PREFIX|..]))
    ensures !Text.IsPrefix(STR_PREFIX, v) && |v| == 1 ==> r == Success(Config.Char(v[0]))
    ensures !Text.IsPrefix(STR_PREFIX, v) && |v| != 1 ==> r == WaitKey(v)
  {
    if Text.IsPrefix(STR_PREFIX, v) then Success(Config.String(v[|STR_PREFIX|..]))
    else if |v| == 1 then Success(Config.Char(v[0]))
    else WaitKey(v)
  }

  /** A pause given as a duration, or the duration's parse error. */
  function WaitKey(v: string): (r: Result<Key, DeError>)
    ensures r.Success? <==> DurationParse.Parse(v).Success?
    ensures r.Success? ==> r.value == Config.Key.Wait(DurationParse.Parse(v).value)
    ensures r.Failure? ==> r.error == Custom(DurationParse.Parse(v).error)
  {
    match DurationParse.Parse(v)
    case Success(d) => Success(Config.Key.Wait(d))
    case Failure(e) => Failure(Custom(e))
  }

  /** A string of one char other than `^` is that char's key. */
  lemma SingleCharIsChar(table: ControlCodes.ControlTable, c: char)
    requires c != '^'
    ensures VisitStr(table, [c]) == Success(Config.Char(c))
  {
    assert !Text.IsPrefix("^", [c]) by { assert [c][..1] == [c]; }
    assert !Text.IsPrefix(STR_PREFIX, [c]);
  }

  /** Any text behind `!Str ` is typed as it is. */
  lemma StrRoundTrip(table: ControlCodes.ControlTable, s: string)
    ensures VisitStr(table, STR_PREFIX + s) == Success(Config.String(s))
  {
    assert (STR_PREFIX + s)[|STR_PREFIX|..] == s;
    assert (STR_PREFIX + s)[0] == '!';
  }

  /** The decimal text of any `u64` and a unit is a pause of that length. */
  lemma WaitRoundTrip(table: ControlCodes.ControlTable, n: nat, u: DurationParse.Unit)
    requires n <= U64_MAX
    ensures VisitStr(table, Decimal.Show(n) + DurationParse.Suffix(u))
         == Success(Config.Key.Wait(n * DurationParse.UnitNanos(u)))
  {
    var v := Decimal.Show(n) + DurationParse.Suffix(u);
    assert Decimal.IsDigit(v[0]);
    assert !Text.IsPrefix("^", v) by { assert v[..1][0] == v[0]; }
    assert !Text.IsPrefix(STR_PREFIX, v) by { assert |v| < |STR_PREFIX| || v[..|STR_PREFIX|][0] == v[0]; }
    assert |v| != 1;
    DurationParse.ParseRoundTrip(n, u);
    assert WaitKey(v) == Success(Config.Key.Wait(n * DurationParse.UnitNanos(u)));
  }

  /** The variant named by a tag, with the result of deserialising its
      payload. */
  datatype Tagged =
    | CharTag(c: Result<char, DeError>)
    | StrTag(s: Result<string, DeError>)
    | ControlTag(control: Result<char, DeError>)
    | WaitTag(wait: Result<string, DeError>)
    | TagFailure(error: DeError)

  /** `Visitor::visit_enum`: a tagged wait is always parsed as a duration,
      whatever its length. */
  function VisitEnum(table: ControlCodes.ControlTable, data: Tagged): (r: Result<Key, DeError>)
    ensures data.TagFailure? ==> r == Failure(data.error)
    ensures data.CharTag? ==> r.Success? == data.c.Success?
    ensures data.CharTag? && r.Success? ==> r.value == Config.Char(data.c.value)
    ensures data.StrTag? ==> r.Success? == data.s.Success?
    ensures data.StrTag? && r.Success? ==> r.value == Config.String(data.s.value)
    ensures data.ControlTag? ==> r.Success? == ControlFromVariant(table, data.control).Success?
    ensures data.ControlTag? && r.Success? ==>
      r.value.Control? && Success(r.value.code) == ControlFromVariant(table, data.control)
    ensures data.WaitTag? && data.wait.Success? ==>
      (r.Success? <==> DurationParse.Parse(data.wait.value).Success?)
      && (r.Success? ==> r.value == Config.Key.Wait(DurationParse.Parse(data.wait.value).value))
      && (r.Failure? ==> r.error == Custom(DurationParse.Parse(data.wait.value).error))
  {
    match data
    case TagFailure(e) => Failure(e)
    case CharTag(payload) =>
      var c :- payload;
      Success(Config.Char(c))
    case StrTag(payload) =>
      var s :- payload;
      Success(Config.String(s))
    case ControlTag(payload) =>
      var code :- ControlFromVariant(table, payload);
      Success(Config.Key.Control(code))
    case WaitTag(payload) =>
      var w :- payload;
      WaitKey(w)
  }

  /** A tagged wait and the plain duration string agree. */
  lemma TaggedWaitAgrees(table: ControlCodes.ControlTable, n: nat, u: DurationParse.Unit)
    requires n <= U64_MAX
    ensures VisitEnum(table, WaitTag(Success(Decimal.Show(n) + DurationParse.Suffix(u))))
         == VisitStr(table, Decimal.Show(n) + DurationParse.Suffix(u))
  {
    WaitRoundTrip(table, n, u);
    DurationParse.ParseRoundTrip(n, u);
  }

  /** The examples of the key format: `t`, and `1s`. */
  lemma Examples(table: ControlCodes.ControlTable)
    ensures VisitStr(table, "t") == Success(Config.Char('t'))
    ensures VisitStr(table, "1s") == Success(Config.Key.Wait(NANOS_PER_SEC))
  {
    SingleCharIsChar(table, 't');
    OneSecond(table);
  }

  lemma OneSecond(table: ControlCodes.ControlTable)
    ensures VisitStr(table, "1s") == Success(Config.Key.Wait(NANOS_PER_SEC))
  {
    assert Decimal.Show(1) + DurationParse.Suffix(DurationParse.Seconds) == "1s";
    WaitRoundTrip(table, 1, DurationParse.Seconds);
  }
}

=== FILE: de_shell.dfy ===
/**
 * Deserialising the shell setting (`config/de/shell.rs`): the names of the
 * built-in shells, a map describing a custom shell, or a tagged value
 * naming either.
 */
module DeShell {
  import opened Base
  import opened De
  import Config

  type Shell = Config.Shell

  const SUPPORTED_SHELL: string := "supported shell (e.g. bash or python) or a custom shell"

  /** `Visitor::visit_str`: the built-in shells by their lower-case or
      capitalised name. */
  function VisitStr(v: string): (r: Result<Shell, DeError>)
    ensures r == Success(Config.Bash) <==> v == "bash" || v == "Bash"
    ensures r == Success(Config.Python) <==> v == "python" || v == "Python"
    ensures r.Failure? <==> v !in {"bash", "Bash", "python", "Python"}
    ensures r.Failure? ==> r.error == InvalidValue(UnexpectedStr(v), SUPPORTED_SHELL)
  {
    if v == "bash" || v == "Bash" then Success(Config.Bash)
    else if v == "python" || v == "Python" then Success(Config.Python)
    else Failure(InvalidValue(UnexpectedStr(v), SUPPORTED_SHELL))
  }

  /** A built-in shell is read back from its display name. */
  lemma DisplayRoundTrip(sh: Shell)
    requires !sh.Custom?
    ensures VisitStr(Config.ShellDisplay(sh)) == Success(sh)
  {
  }

  /** The fields of a custom shell. */
  datatype CustomField = Program | Args | Prompt | LineSplit | QuitCommand

  /** A field's name in the script (snake case). */
  function FieldName(f: CustomField): string {
    match f
    case Program => "program"
    case Args => "args"
    case Prompt => "prompt"
    case LineSplit => "line_split"
    case QuitCommand => "quit_command"
  }

  /** `CUSTOM_FIELDS` */
  const CUSTOM_FIELDS: seq<string> := ["program", "args", "prompt", "line_split", "quit_command"]

  lemma FieldNames()
    ensures forall f: CustomField :: FieldName(f) in CUSTOM_FIELDS
    ensures forall f: CustomField, g: CustomField :: FieldName(f) == FieldName(g) ==> f == g
  {
  }

  /** A value of the map as the data format hands it over. */
  datatype Raw = RawStr(s: string) | RawSeq(items: seq<string>) | RawFailure(error: DeError)

  /** A decoded field value: `args` is a list of strings, every other field
      a string. */
  datatype FieldValue = Str(s: string) | Strs(items: seq<string>)

  function DecodeField(f: CustomField, raw: Raw): (r: Result<FieldValue, DeError>)
    ensures r.Success? && f == Args ==> raw.RawSeq? && r.value == Strs(raw.items)
    ensures r.Success? && f != Args ==> raw.RawStr? && r.value == Str(raw.s)
    ensures raw.RawFailure? ==> r == Failure(raw.error)
    ensures (f == Args && raw.RawSeq?) || (f != Args && raw.RawStr?) ==> r.Success?
  {
    match raw
    case RawFailure(e) => Failure(e)
    case RawStr(s) => if f == Args then Failure(InvalidType("a sequence")) else Success(Str(s))
    case RawSeq(items) => if f == Args then Success(Strs(items)) else Failure(InvalidType("a string"))
  }

  function StrOf(v: FieldValue): string {
    match v
    case Str(s) => s
    case Strs(_) => ""
  }

  function StrsOf(v: FieldValue): seq<string> {
    match v
    case Strs(items) => items
    case Str(_) => []
  }

  /** Every event of the map is read without error. */
  predicate AllRead(entries: seq<MapEvent<CustomField, Raw>>) {
    forall i :: 0 <= i < |entries| ==> StepError(entries, i, DecodeField, FieldName).None?
  }

  /** Is field `f` given in the map? */
  predicate Given(entries: seq<MapEvent<CustomField, Raw>>, f: CustomField) {
    SeenBefore(entries, |entries|, f)
  }

  /** Is `i` the entry of field `f`? */
  predicate EntryOf(entries: seq<MapEvent<CustomField, Raw>>, i: int, f: CustomField) {
    0 <= i < |entries| && entries[i].Entry? && entries[i].key == f
  }

  /** What reading the fields of a custom shell yields: the required
      fields `program`, `prompt` and `line_split`, checked in that order;
      each field given set from its entry; `args` defaulting to none and
      `quit_command` to no quit command; and, when an entry cannot be read,
      the error of the first such entry. */
  ghost predicate ReadAsMap(entries: seq<MapEvent<CustomField, Raw>>, r: Result<Shell, DeError>) {
    && (r.Success? <==> AllRead(entries) && Given(entries, Program) && Given(entries, Prompt)
                        && Given(entries, LineSplit))
    && (r.Success? ==> r.value.Custom?)
    && (r.Success? ==> forall i :: EntryOf(entries, i, Program) ==>
         (entries[i].raw.RawStr? && r.value.program == entries[i].raw.s))
    && (r.Success? ==> forall i :: EntryOf(entries, i, Prompt) ==>
         (entries[i].raw.RawStr? && r.value.prompt == entries[i].raw.s))
    && (r.Success? ==> forall i :: EntryOf(entries, i, LineSplit) ==>
         (entries[i].raw.RawStr? && r.value.lineSplit == entries[i].raw.s))
    && (r.Success? ==> forall i :: EntryOf(entries, i, QuitCommand) ==>
         (entries[i].raw.RawStr? && r.value.quitCommand == Some(entries[i].raw.s)))
    && (r.Success? ==> forall i :: EntryOf(entries, i, Args) ==>
         (entries[i].raw.RawSeq? && r.value.args == entries[i].raw.items))
    && (r.Success? && !Given(entries, Args) ==> r.value.args == [])
    && (r.Success? && !Given(entries, QuitCommand) ==> r.value.quitCommand == None)
    && (AllRead(entries) && !Given(entries, Program) ==> r == Failure(MissingField("program")))
    && (AllRead(entries) && Given(entries, Program) && !Given(entries, Prompt) ==>
         r == Failure(MissingField("prompt")))
    && (AllRead(entries) && Given(entries, Program) && Given(entries, Prompt) && !Given(entries, LineSplit) ==>
         r == Failure(MissingField("line_split")))
    && (!AllRead(entries) ==> exists i :: (0 <= i < |entries|
         && (forall j :: 0 <= j < i ==> StepError(entries, j, DecodeField, FieldName).None?)
         && StepError(entries, i, DecodeField, FieldName) == Some(r.error)))
  }

  /** `CustomVisitor::visit_map`: reads the fields, then requires `program`,
      `prompt` and `line_split`, in that order; `args` defaults to none and
      `quit_command` to no quit command. */
  method VisitMap(entries: seq<MapEvent<CustomField, Raw>>) returns (r: Result<Shell, DeError>)
    ensures ReadAsMap(entries, r)
  {
    var fields :- MapFields(entries, DecodeField, FieldName);
    if Program !in fields {
      return Failure(MissingField("program"));
    }
    var args := if Args in fields then StrsOf(fields[Args]) else [];
    if Prompt !in fields {
      return Failure(MissingField("prompt"));
    }
    if LineSplit !in fields {
      return Failure(MissingField("line_split"));
    }
    var quit := if QuitCommand in fields then Some(StrOf(fields[QuitCommand])) else None;
    return Success(Config.Custom(StrOf(fields[Program]), args, StrOf(fields[Prompt]), StrOf(fields[LineSplit]), quit));
  }

  /** The variant named by a tag: a built-in shell with the result of
      reading its (empty) payload, or a custom shell with its fields. */
  datatype Tagged =
    | BashTag(unit: Option<DeError>)
    | PythonTag(unit: Option<DeError>)
    | CustomTag(entries: seq<MapEvent<CustomField, Raw>>)
    | TagFailure(error: DeError)

  /** `Visitor::visit_enum` */
  method VisitEnum(data: Tagged) returns (r: Result<Shell, DeError>)
    ensures data.TagFailure? ==> r == Failure(data.error)
    ensures data.BashTag? ==> r == (if data.unit.Some? then Failure(data.unit.value) else Success(Config.Bash))
    ensures data.PythonTag? ==> r == (if data.unit.Some? then Failure(data.unit.value) else Success(Config.Python))
    ensures data.CustomTag? ==> ReadAsMap(data.entries, r)
    ensures data.CustomTag? && data.entries == [] ==> r == Failure(MissingField("program"))
  {
    match data
    case TagFailure(e) => return Failure(e);
    case BashTag(unit) => return if unit.Some? then Failure(unit.value) else Success(Config.Bash);
    case PythonTag(unit) => return if unit.Some? then Failure(unit.value) else Success(Config.Python);
    case CustomTag(entries) => r := VisitMap(entries);
  }
}

=== FILE: decimal.dfy ===
/**
 * Decimal text of unsigned integers: rendering (as the JSON writer prints
 * integers) and Rust's `<u64 as FromStr>::from_str`, which the duration
 * parser uses for its numeric part.
 */
module Decimal {
  import opened Base

  predicate IsDigit(c: char) {
    '0' <= c <= '9'
  }

  predicate AllDigits(s: string) {
    forall i :: 0 <= i < |s| ==> IsDigit(s[i])
  }

  function DigitChar(d: nat): (c: char)
    requires d < 10
    ensures IsDigit(c)
  {
    ('0' as int + d) as char
  }

  function DigitValue(c: char): (d: nat)
    requires IsDigit(c)
    ensures d < 10 && DigitChar(d) == c
  {
    c as int - '0' as int
  }

  /** The value of a digit string read most significant digit first, with
      no bound on its size. */
  function DigitsValue(s: string): nat
    requires AllDigits(s)
  {
    if |s| == 0 then 0
    else DigitsValue(s[..|s| - 1]) * 10 + DigitValue(s[|s| - 1])
  }

  /** The shortest decimal text of `n`. */
  function Show(n: nat): (r: string)
    ensures |r| >= 1 && AllDigits(r)
    ensures |r| > 1 ==> r[0] != '0'
    ensures DigitsValue(r) == n
  {
    if n < 10 then [DigitChar(n)]
    else
      var r := Show(n / 10) + [DigitChar(n % 10)];
      assert r[..|r| - 1] == Show(n / 10);
      r
  }

  /** `core::num::IntErrorKind`, as far as `u64` parsing can produce it. */
  datatype IntErrorKind = Empty | InvalidDigit | PosOverflow

  /** The digit loop of `from_str_radix`: left to right, each character is
      first checked to be a digit, then the running value is multiplied by
      ten and the digit added, failing as soon as that exceeds `u64::MAX`. */
  function Accumulate(s: string): (r: Result<nat, IntErrorKind>)
    ensures r.Success? <==> AllDigits(s) && DigitsValue(s) <= U64_MAX
    ensures r.Success? ==> r.value == DigitsValue(s)
    ensures r != Failure(Empty)
  {
    if |s| == 0 then Success(0)
    else
      var init := s[..|s| - 1];
      var c := s[|s| - 1];
      assert forall i :: 0 <= i < |init| ==> init[i] == s[i];
      match Accumulate(init)
      case Failure(e) =>
        assert AllDigits(s) ==> AllDigits(init) && DigitsValue(s) >= DigitsValue(init);
        Failure(e)
      case Success(v) =>
        if !IsDigit(c) then Failure(InvalidDigit)
        else if v * 10 + DigitValue(c) > U64_MAX then Failure(PosOverflow)
        else Success(v * 10 + DigitValue(c))
  }

  /** `<u64 as FromStr>::from_str`: an optional `+` sign, then one or more
      ASCII digits whose value fits in 64 bits. A lone sign is an invalid
      digit; a `-` sign is not accepted for unsigned types. */
  function ParseU64(s: string): (r: Result<nat, IntErrorKind>)
    ensures r == Failure(Empty) <==> s == ""
    ensures r.Success? <==>
      var digits := if |s| > 0 && s[0] == '+' then s[1..] else s;
      |digits| > 0 && AllDigits(digits) && DigitsValue(digits) <= U64_MAX
    ensures r.Success? ==> r.value <= U64_MAX
  {
    if |s| == 0 then Failure(Empty)
    else if (s[0] == '+' || s[0] == '-') && |s| == 1 then Failure(InvalidDigit)
    else if s[0] == '+' then Accumulate(s[1..])
    else Accumulate(s)
  }

  lemma ShowHasNoSign(n: nat)
    ensures Show(n)[0] != '+' && Show(n)[0] != '-'
  {
  }

  /** Parsing the decimal text of any `u64` gives the number back. */
  lemma ParseShow(n: nat)
    requires n <= U64_MAX
    ensures ParseU64(Show(n)) == Success(n)
  {
    ShowHasNoSign(n);
  }

  /** Among digit strings without a leading zero, the decimal text of a
      number is the only one that parses to it. */
  lemma {:induction false} ShowUnique(s: string)
    requires |s| >= 1 && AllDigits(s) && (|s| > 1 ==> s[0] != '0')
    ensures Show(DigitsValue(s)) == s
  {
    if |s| == 1 {
    } else {
      var init := s[..|s| - 1];
      assert forall i :: 0 <= i < |init| ==> init[i] == s[i];
      ShowUnique(init);
      DigitsValuePositive(init);
      var v := DigitsValue(s);
      assert v / 10 == DigitsValue(init) && v % 10 == DigitValue(s[|s| - 1]);
      assert s == init + [s[|s| - 1]];
    }
  }

  lemma {:induction false} DigitsValuePositive(s: string)
    requires |s| >= 1 && AllDigits(s) && s[0] != '0'
    ensures DigitsValue(s) >= 1
  {
    if |s| > 1 {
      var init := s[..|s| - 1];
      assert forall i :: 0 <= i < |init| ==> init[i] == s[i];
      DigitsValuePositive(init);
    }
  }
}

=== FILE: duration.dfy ===
/**
 * The duration grammar of scripts and command-line options: an unsigned
 * integer followed by `s`, `ms` or `us`, surrounded by optional
 * whitespace (`config::de::duration::parse`).
 */
module DurationParse {
  import opened Base
  import Text
  import Decimal

  datatype ParseError = ContainsWhitespace | UnknownUnit | InvalidInt(kind: Decimal.IntErrorKind)

  datatype Unit = Seconds | Millis | Micros

  function Suffix(u: Unit): string {
    match u
    case Seconds => "s"
    case Millis => "ms"
    case Micros => "us"
  }

  function UnitNanos(u: Unit): nat {
    match u
    case Seconds => NANOS_PER_SEC
    case Millis => NANOS_PER_MILLI
    case Micros => NANOS_PER_MICRO
  }

  /** `n` units as a duration, or the integer error of the numeric part. */
  function Scaled(number: string, u: Unit): (r: Result<nat, ParseError>)
    ensures r.Success? <==> Decimal.ParseU64(number).Success?
    ensures r.Success? ==> r.value == Decimal.ParseU64(number).value * UnitNanos(u)
    ensures r.Success? ==> r.value % NANOS_PER_MICRO == 0
    ensures r.Failure? ==> r.error == InvalidInt(Decimal.ParseU64(number).error)
  {
    match Decimal.ParseU64(number)
    case Success(n) => WholeMicros(n, u); Success(n * UnitNanos(u))
    case Failure(k) => Failure(InvalidInt(k))
  }

  /** Any number of units is a whole number of microseconds. */
  lemma WholeMicros(n: nat, u: Unit)
    ensures (n * UnitNanos(u)) % NANOS_PER_MICRO == 0
  {
    match u
    case Seconds => MicrosOf(n * 1_000_000);
    case Millis => MicrosOf(n * 1_000);
    case Micros => MicrosOf(n);
  }

  lemma MicrosOf(m: nat)
    ensures (m * NANOS_PER_MICRO) % NANOS_PER_MICRO == 0
  {
  }

  /** Parses a duration. After trimming, any whitespace left is an error;
      the suffix `ms` is tried before `us`, and both before `s`; a text
      ending in none of them has an unknown unit; a numeric part that is
      not a `u64` is an integer error. */
  function Parse(s: string): (r: Result<nat, ParseError>)
    ensures r == Failure(ContainsWhitespace) <==> Text.HasWhitespace(Text.Trim(s))
    ensures r == Failure(UnknownUnit)
        <==> !Text.HasWhitespace(Text.Trim(s)) && !Text.IsSuffix("s", Text.Trim(s))
    ensures var t := Text.Trim(s);
      !Text.HasWhitespace(t) && Text.IsSuffix("ms", t) ==> r == Scaled(t[..|t| - 2], Millis)
    ensures var t := Text.Trim(s);
      !Text.HasWhitespace(t) && !Text.IsSuffix("ms", t) && Text.IsSuffix("us", t) ==>
        r == Scaled(t[..|t| - 2], Micros)
    ensures var t := Text.Trim(s);
      !Text.HasWhitespace(t) && !Text.IsSuffix("ms", t) && !Text.IsSuffix("us", t) && Text.IsSuffix("s", t) ==>
        r == Scaled(t[..|t| - 1], Seconds)
    ensures r.Success? ==> r.value % NANOS_PER_MICRO == 0
  {
    ParseTrimmed(Text.Trim(s))
  }

  /** `Parse` after the surrounding whitespace is gone. */
  function ParseTrimmed(t: string): (r: Result<nat, ParseError>)
    ensures r == Failure(ContainsWhitespace) <==> Text.HasWhitespace(t)
    ensures r == Failure(UnknownUnit) <==> !Text.HasWhitespace(t) && !Text.IsSuffix("s", t)
    ensures !Text.HasWhitespace(t) && Text.IsSuffix("ms", t) ==> r == Scaled(t[..|t| - 2], Millis)
    ensures !Text.HasWhitespace(t) && !Text.IsSuffix("ms", t) && Text.IsSuffix("us", t)
      ==> r == Scaled(t[..|t| - 2], Micros)
    ensures !Text.HasWhitespace(t) && !Text.IsSuffix("ms", t) && !Text.IsSuffix("us", t) && Text.IsSuffix("s", t)
      ==> r == Scaled(t[..|t| - 1], Seconds)
    ensures r.Success? ==> r.value % NANOS_PER_MICRO == 0
  {
    if Text.HasWhitespace(t) then Failure(ContainsWhitespace)
    else match Text.StripSuffix(t, "ms")
      case Some(ms) => Scaled(ms, Millis)
      case None => match Text.StripSuffix(t, "us")
        case Some(us) => Scaled(us, Micros)
        case None => match Text.StripSuffix(t, "s")
          case Some(secs) => Scaled(secs, Seconds)
          case None => Failure(UnknownUnit)
  }

  lemma ShowNoWhitespace(n: nat)
    ensures !Text.HasWhitespace(Decimal.Show(n))
  {
    var d := Decimal.Show(n);
    forall i | 0 <= i < |d| ensures !Text.IsWhitespace(d[i]) {
      assert Decimal.IsDigit(d[i]);
    }
  }

  lemma TrimUnchanged(t: string)
    requires |t| > 0 && !Text.IsWhitespace(t[0]) && !Text.IsWhitespace(t[|t| - 1])
    ensures Text.Trim(t) == t
  {
  }

  /** The decimal text of any `u64` followed by a unit suffix parses to
      that many units. */
  lemma ParseRoundTrip(n: nat, u: Unit)
    requires n <= U64_MAX
    ensures Parse(Decimal.Show(n) + Suffix(u)) == Success(n * UnitNanos(u))
  {
    var t := Decimal.Show(n) + Suffix(u);
    assert Decimal.IsDigit(t[0]);
    TrimUnchanged(t);
    ParseTrimmedRoundTrip(n, u);
  }

  lemma ParseTrimmedRoundTrip(n: nat, u: Unit)
    requires n <= U64_MAX
    ensures ParseTrimmed(Decimal.Show(n) + Suffix(u)) == Success(n * UnitNanos(u))
  {
    var d := Decimal.Show(n);
    SuffixedNoWhitespace(n, u);
    Decimal.ParseShow(n);
    match u
    case Millis => StripMillis(d);
    case Micros => StripMicros(d);
    case Seconds => StripSeconds(d);
  }

  lemma SuffixedNoWhitespace(n: nat, u: Unit)
    ensures !Text.HasWhitespace(Decimal.Show(n) + Suffix(u))
  {
    var d := Decimal.Show(n);
    var t := d + Suffix(u);
    ShowNoWhitespace(n);
    forall i | 0 <= i < |t| ensures !Text.IsWhitespace(t[i]) {
      if i < |d| { assert t[i] == d[i]; }
    }
  }

  lemma StripMillis(d: string)
    ensures Text.StripSuffix(d + "ms", "ms") == Some(d)
  {
    assert (d + "ms")[..|d|] == d;
  }

  lemma StripMicros(d: string)
    ensures Text.StripSuffix(d + "us", "ms") == None
    ensures Text.StripSuffix(d + "us", "us") == Some(d)
  {
    var t := d + "us";
    assert t[|t| - 2] == 'u';
    assert t[..|d|] == d;
  }

  lemma StripSeconds(d: string)
    requires |d| >= 1 && Decimal.AllDigits(d)
    ensures Text.StripSuffix(d + "s", "ms") == None
    ensures Text.StripSuffix(d + "s", "us") == None
    ensures Text.StripSuffix(d + "s", "s") == Some(d)
  {
    var t := d + "s";
    assert t[|t| - 2] == d[|d| - 1];
    assert Decimal.IsDigit(d[|d| - 1]);
    assert t[..|d|] == d;
  }

  /** The examples of the command-line help: "1s", "150ms" and "900us". */
  lemma HelpExamples()
    ensures Parse("1s") == Success(1_000_000_000)
    ensures Parse("150ms") == Success(150_000_000)
    ensures Parse("900us") == Success(900_000)
  {
    ShowSmall();
    assert Decimal.Show(150) + Suffix(Millis) == "150ms";
    assert Decimal.Show(900) + Suffix(Micros) == "900us";
    Example(1, Seconds, "1s");
    Example(150, Millis, "150ms");
    Example(900, Micros, "900us");
  }

  lemma Example(n: nat, u: Unit, s: string)
    requires n <= U64_MAX && s == Decimal.Show(n) + Suffix(u)
    ensures Parse(s) == Success(n * UnitNanos(u))
  {
    ParseRoundTrip(n, u);
  }

  /** Numerals the decimal text of a number never has still parse, as
      Rust's `u64` parser reads them: a leading zero and a `+` sign. A `-`
      sign is an invalid digit, a missing number an empty integer. */
  lemma NonCanonicalExamples()
    ensures Parse("05ms") == Success(5_000_000)
    ensures Parse("+5s") == Success(5_000_000_000)
    ensures Parse("-5s") == Failure(InvalidInt(Decimal.InvalidDigit))
    ensures Parse("ms") == Failure(InvalidInt(Decimal.Empty))
  {
    LeadingZero();
    PlusSign();
    MinusSign();
    NoNumber();
  }

  lemma LeadingZero()
    ensures Parse("05ms") == Success(5_000_000)
  {
    NonCanonical("05ms", 2, "05", Millis);
    assert Decimal.Accumulate("0") == Success(0);
    assert Decimal.ParseU64("05") == Success(5);
  }

  lemma PlusSign()
    ensures Parse("+5s") == Success(5_000_000_000)
  {
    NonCanonical("+5s", 1, "+5", Seconds);
    assert Decimal.ParseU64("+5") == Success(5);
  }

  lemma MinusSign()
    ensures Parse("-5s") == Failure(InvalidInt(Decimal.InvalidDigit))
  {
    NonCanonical("-5s", 1, "-5", Seconds);
    assert Decimal.Accumulate("-") == Failure(Decimal.InvalidDigit);
    assert Decimal.ParseU64("-5") == Failure(Decimal.InvalidDigit);
  }

  lemma NoNumber()
    ensures Parse("ms") == Failure(InvalidInt(Decimal.Empty))
  {
    NonCanonical("ms", 2, "", Millis);
  }

  lemma NonCanonical(t: string, k: nat, number: string, u: Unit)
    requires |t| > 0 && !Text.IsWhitespace(t[0]) && !Text.IsWhitespace(t[|t| - 1]) && !Text.HasWhitespace(t)
    requires k == |Suffix(u)| && t == number + Suffix(u)
    requires u == Seconds ==> |number| > 0 && Decimal.IsDigit(number[|number| - 1])
    ensures Parse(t) == Scaled(number, u)
  {
    TrimUnchanged(t);
    match u
    case Millis => StripMillis(number);
    case Micros => StripMicros(number);
    case Seconds =>
      assert t[|t| - 2] == number[|number| - 1];
      assert t[..|number|] == number;
  }

  lemma ShowSmall()
    ensures Decimal.Show(1) == "1"
    ensures Decimal.Show(150) == "150"
    ensures Decimal.Show(900) == "900"
  {
    assert Decimal.Show(15) == "15";
    assert Decimal.Show(90) == "90";
  }
}

=== FILE: record.dfy ===
/**
 * Turning a script into a recording (`TryFrom<Script> for File` in
 * `config.rs`): resolving the terminal size, running the instructions in a
 * session for the configured shell, and filling in the header: the
 * recording's duration is the time of its last event and its environment
 * is the configured one, the captured variables and `SHELL`.
 *
 * Asking the terminal for its size, looking the shell program up on the
 * search path, reading environment variables and the wall clock are
 * inputs; starting and quitting the shell are outside the model.
 */
module Record {
  import opened Base
  import ControlCodes
  import Config
  import opened Asciicast
  import ShellSession
  import Run

  /** A script: its settings and its instructions. */
  datatype Script = Script(settings: Config.Settings, instructions: seq<Config.Instruction>)

  /** What the world outside the model answers while recording. */
  datatype World = World(
    /** the size of the current terminal as (rows, columns), if known */
    terminalSize: Option<(U16, U16)>,
    /** `which`: the path of a program on the search path */
    which: string -> Option<string>,
    /** `std::env::var` */
    getenv: string -> Option<string>,
    /** the clock when the shell is started */
    startedAt: nat,
    /** `SystemTime::now()` after the run, nanoseconds since the Unix epoch */
    now: int,
    /** the shell's side of each instruction */
    io: nat -> Run.StepIo)

  datatype RecordError =
    | NoTerminalSize
    | InstructionFailed(error: Run.RunError)

  /** The `SHELL` entry: the program's full path when it is found, its name
      otherwise. */
  function ShellEnv(sh: Config.Shell, which: string -> Option<string>): (r: string)
    ensures which(Config.Program(sh)).None? ==> r == Config.Program(sh)
    ensures which(Config.Program(sh)).Some? ==> r == which(Config.Program(sh)).value
  {
    which(Config.Program(sh)).GetOr(Config.Program(sh))
  }

  /** The settings the instructions are run with. */
  function CtxOf(settings: Config.Settings, table: ControlCodes.ControlTable): (ctx: Run.Ctx)
    ensures ctx.lineSplit == Config.LineSplit(settings.shell)
    ensures ctx.prompt == settings.prompt && ctx.typeSpeed == settings.typeSpeed
    ensures ctx.secondaryPrompt == settings.secondaryPrompt && ctx.table == table
  {
    Run.Ctx(settings.prompt, settings.secondaryPrompt, settings.typeSpeed,
            Config.LineSplit(settings.shell), table)
  }

  /** The session the instructions are run in. */
  function SessionOf(settings: Config.Settings, w: World): ShellSession.Session {
    ShellSession.ForShell(settings.shell, settings.timeout, w.startedAt)
  }

  /** `try_from`: records the script. */
  function RecordScript(script: Script, table: ControlCodes.ControlTable, w: World)
    : (r: Result<File, RecordError>)
    ensures var st := script.settings;
      r.Success? <==>
        Config.TerminalSize(st.width, st.height, w.terminalSize).Some?
        && Run.Instructions(CtxOf(st, table), SessionOf(st, w), script.instructions, w.io).Success?
    ensures var st := script.settings;
      Config.TerminalSize(st.width, st.height, w.terminalSize).None? ==> r == Failure(NoTerminalSize)
    ensures r.Success? ==> var h := r.value.header;
      var st := script.settings;
      && (h.width, h.height) == Config.TerminalSize(st.width, st.height, w.terminalSize).value
      && h.timestamp == Some(w.now)
      && h.idleTimeLimit.None? && h.command.None?
      && h.title == st.title
      && |r.value.events| >= 2
      && h.duration == Some(r.value.events[|r.value.events| - 1].time)
    ensures r.Success? ==> var env := r.value.header.env;
      && env == Config.BuildEnv(script.settings.environment, script.settings.environmentCapture,
                                w.getenv, ShellEnv(script.settings.shell, w.which))
      && env["SHELL"] == ShellEnv(script.settings.shell, w.which)
  {
    var st := script.settings;
    match Config.TerminalSize(st.width, st.height, w.terminalSize)
    case None => Failure(NoTerminalSize)
    case Some((width, height)) =>
      match Run.Instructions(CtxOf(st, table), SessionOf(st, w), script.instructions, w.io)
      case Failure(e) => Failure(InstructionFailed(e))
      case Success((_, events)) =>
        var env := Config.BuildEnv(st.environment, st.environmentCapture, w.getenv,
                                   ShellEnv(st.shell, w.which));
        var duration := if |events| == 0 then None else Some(events[|events| - 1].time);
        Success(File(Header(width, height, Some(w.now), duration, None, None, st.title, env), events))
  }

  /** The duration in the header is the time of the latest event: every
      event happens within it, the prompt first at time zero. */
  lemma DurationBoundsEvents(script: Script, table: ControlCodes.ControlTable, w: World)
    requires RecordScript(script, table, w).Success?
    ensures var f := RecordScript(script, table, w).value;
      f.header.duration.Some?
      && forall i :: 0 <= i < |f.events| ==> f.events[i].time <= f.header.duration.value
    ensures var f := RecordScript(script, table, w).value;
      f.events[0] == OutputEvent(0, script.settings.prompt)
  {
    var st := script.settings;
    var f := RecordScript(script, table, w).value;
    var ran := Run.Instructions(CtxOf(st, table), SessionOf(st, w), script.instructions, w.io).value;
    assert f.events == ran.1;
  }

  /** A recording can be written unless the clock reads a time before the
      Unix epoch. */
  lemma RecordingWrites(script: Script, table: ControlCodes.ControlTable, w: World,
                        envOrder: seq<string>, rs: Renderers)
    ensures RecordScript(script, table, w).Success? ==>
      (Write(RecordScript(script, table, w).value, envOrder, rs).Success? <==> w.now >= 0)
  {
  }

  /** Variables captured from the environment do not override the ones the
      script sets, and `SHELL` always names the shell that was run. */
  lemma ScriptEnvironmentWins(script: Script, table: ControlCodes.ControlTable, w: World, k: string)
    requires k != "SHELL"
    requires exists i :: 0 <= i < |script.settings.environment| && script.settings.environment[i].name == k
    ensures RecordScript(script, table, w).Success? ==>
      var env := RecordScript(script, table, w).value.header.env;
      k in env && Config.LastValue(script.settings.environment, k, env[k])
  {
    var v :| v in script.settings.environment && v.name == k;
    assert k in (set v | v in script.settings.environment :: v.name);
  }
}

=== FILE: run.dfy ===
/**
 * Running a script (`Instruction::run` and `instructions` in
 * `config/run.rs`): each instruction talks to the shell session and yields
 * a fragment of events; the fragments are then assembled into the
 * recording.
 *
 * The shell's side of each instruction is an input (`StepIo`): the clock
 * when the command is sent, whether the writes of the command succeed, the
 * reads that follow, the clock when the prompt event is made and, for an
 * interactive command, the outcome of pressing its keys, whose polling
 * loop is outside the model.
 */
module Run {
  import opened Base
  import Text
  import ControlCodes
  import Config
  import opened Asciicast
  import ShellSession
  import Typing
  import Assemble

  type Session = ShellSession.Session

  /** The settings every instruction is run with. */
  datatype Ctx = Ctx(prompt: string, secondaryPrompt: string, typeSpeed: nat, lineSplit: string,
                     table: ControlCodes.ControlTable)

  /** The outcome of pressing the keys of an interactive command: what was
      recorded, how many keys were pressed before the prompt came back, and
      the time of the last event. */
  datatype KeysRun = KeysRun(events: seq<Event>, keysSent: nat, lastEvent: nat)

  /** The shell's side of one instruction. A failed key loop carries the
      read or write error that ended it. */
  datatype StepIo = StepIo(sendAt: nat, writes: Typing.Writes, start: nat, polls: seq<ShellSession.Poll>,
                           promptAt: nat, keys: Result<KeysRun, ShellSession.SessionError>)

  /** The session after an instruction's command is sent, or the write
      error. */
  function Sent(ctx: Ctx, s: Session, cmd: Config.Command, io: StepIo): Result<Session, ShellSession.SessionError> {
    Typing.SendCommand(ctx.table, s, cmd, io.sendAt, io.writes)
  }

  /** What `Clear` shows: return to column one, cursor home, clear the
      screen and the scroll-back. */
  const CLEAR: string := "\r\U{1B}[H\U{1B}[2J\U{1B}[3J"

  /** How a command with its own type speed, if any, is typed. */
  function StyleOf(ctx: Ctx, typeSpeed: Option<nat>): Typing.Style {
    Typing.Style(typeSpeed.GetOr(ctx.typeSpeed), ctx.secondaryPrompt, ctx.lineSplit)
  }

  /** The session after an interactive command's keys: the keys pressed are
      sent, and the last event is the last one the keys recorded. */
  function AfterKeys(ctx: Ctx, s: Session, keys: seq<Config.Key>, k: KeysRun): (r: Session)
    ensures r.lastEvent == k.lastEvent
    ensures var n := if k.keysSent <= |keys| then k.keysSent else |keys|;
      r.sent == s.sent + Typing.KeysBytes(ctx.table, keys[..n])
    ensures r.prompt == s.prompt && r.timeout == s.timeout && r.quitCommand == s.quitCommand
  {
    var n := if k.keysSent <= |keys| then k.keysSent else |keys|;
    s.(sent := s.sent + Typing.KeysBytes(ctx.table, keys[..n]), lastEvent := k.lastEvent)
  }

  /** `after` begins with `before`: the bytes sent are only ever appended
      to. */
  predicate Extended(before: seq<Byte>, after: seq<Byte>) {
    |before| <= |after| && after[..|before|] == before
  }

  lemma AppendExtends(a: seq<Byte>, b: seq<Byte>)
    ensures Extended(a, a + b)
  {
  }

  lemma AppendsExtend(a: seq<Byte>, b: seq<Byte>, c: seq<Byte>)
    ensures Extended(a, a + b + c)
  {
    assert (a + b + c)[..|a|] == a;
  }

  /** `Instruction::run` for a command: send it, read up to the prompt, and
      unless hidden, show the typed command, the output and the script's
      prompt. */
  function RunCommand(ctx: Ctx, s: Session, cmd: Config.Command, hidden: bool, typeSpeed: Option<nat>, io: StepIo)
    : (r: Result<(Session, Assemble.Fragment), ShellSession.SessionError>)
    ensures Sent(ctx, s, cmd, io).Failure? ==> r == Failure(ShellSession.WriteError)
    ensures r.Success? <==> Sent(ctx, s, cmd, io).Success?
                            && ShellSession.ReadUntilPrompt(Sent(ctx, s, cmd, io).value, io.start, io.polls).Success?
    ensures r.Success? && hidden ==> r.value.1 == Assemble.None
    ensures r.Success? ==>
      && r.value.0.sent == s.sent + Typing.CommandBytes(ctx.table, cmd)
      && Extended(s.sent, r.value.0.sent)
      && r.value.0.prompt == s.prompt && r.value.0.timeout == s.timeout
    ensures r.Success? && !hidden ==>
      r.value.1.Command? && |r.value.1.events| > 0
      && r.value.1.events[|r.value.1.events| - 1].data == ctx.prompt
      && r.value.0.lastEvent == io.promptAt
  {
    var sent :- Sent(ctx, s, cmd, io);
    var u :- ShellSession.ReadUntilPrompt(sent, io.start, io.polls);
    AppendExtends(s.sent, Typing.CommandBytes(ctx.table, cmd));
    if hidden then Success((u.session, Assemble.None))
    else
      var (s', promptEvent) := ShellSession.NewEvent(u.session, ctx.prompt, io.promptAt);
      var typed := Typing.CommandEvents(ctx.table, cmd, StyleOf(ctx, typeSpeed));
      Success((s', Assemble.Command(typed + u.events + [promptEvent])))
  }

  /** `Instruction::run` for an interactive command: send it, press its
      keys, and show the typed command, what the keys recorded and the
      script's prompt. */
  function RunInteractive(ctx: Ctx, s: Session, cmd: Config.Command, keys: seq<Config.Key>,
                          typeSpeed: Option<nat>, io: StepIo)
    : (r: Result<(Session, Assemble.Fragment), ShellSession.SessionError>)
    ensures Sent(ctx, s, cmd, io).Failure? ==> r == Failure(ShellSession.WriteError)
    ensures r.Success? <==> Sent(ctx, s, cmd, io).Success? && io.keys.Success?
    ensures r.Success? ==>
      var n := if io.keys.value.keysSent <= |keys| then io.keys.value.keysSent else |keys|;
      && r.value.0.sent == s.sent + Typing.CommandBytes(ctx.table, cmd) + Typing.KeysBytes(ctx.table, keys[..n])
      && Extended(s.sent, r.value.0.sent)
      && r.value.0.prompt == s.prompt && r.value.0.timeout == s.timeout
    ensures r.Success? ==>
      r.value.1.Command? && |r.value.1.events| > 0
      && r.value.1.events[|r.value.1.events| - 1].data == ctx.prompt
      && r.value.0.lastEvent == io.promptAt
  {
    var sent :- Sent(ctx, s, cmd, io);
    var k :- io.keys;
    var n := if k.keysSent <= |keys| then k.keysSent else |keys|;
    AppendsExtend(s.sent, Typing.CommandBytes(ctx.table, cmd), Typing.KeysBytes(ctx.table, keys[..n]));
    var (s', promptEvent) := ShellSession.NewEvent(AfterKeys(ctx, sent, keys, k), ctx.prompt, io.promptAt);
    var typed := Typing.CommandEvents(ctx.table, cmd, StyleOf(ctx, typeSpeed));
    Success((s', Assemble.Command(typed + k.events + [promptEvent])))
  }

  /** `Instruction::run`: the session after the instruction and the
      fragment of events it yields. */
  function RunInstruction(ctx: Ctx, s: Session, instr: Config.Instruction, io: StepIo)
    : (r: Result<(Session, Assemble.Fragment), ShellSession.SessionError>)
    ensures instr.Wait? ==> r == Success((s, Assemble.Wait(instr.duration)))
    ensures instr.Marker? ==> r == Success((s, Assemble.Once(MarkerEvent(0, instr.data))))
    ensures instr.Clear? ==>
      r == Success((s, Assemble.Clear([OutputEvent(ctx.typeSpeed, CLEAR), OutputEvent(ctx.typeSpeed, ctx.prompt)])))
    ensures (instr.Command? || instr.Interactive?) && Sent(ctx, s, instr.command, io).Failure? ==>
      r == Failure(ShellSession.WriteError)
    ensures instr.Command? ==>
      (r.Success? <==> Sent(ctx, s, instr.command, io).Success?
                       && ShellSession.ReadUntilPrompt(Sent(ctx, s, instr.command, io).value, io.start, io.polls).Success?)
    ensures instr.Interactive? ==> (r.Success? <==> Sent(ctx, s, instr.command, io).Success? && io.keys.Success?)
    ensures r.Success? && instr.Command? && instr.hidden ==> r.value.1 == Assemble.None
    ensures r.Success? && (instr.Command? || instr.Interactive?) ==>
      Extended(s.sent, r.value.0.sent)
      && r.value.0.prompt == s.prompt && r.value.0.timeout == s.timeout
    ensures r.Success? && instr.Command? ==>
      r.value.0.sent == s.sent + Typing.CommandBytes(ctx.table, instr.command)
    ensures r.Success? && instr.Interactive? ==>
      var n := if io.keys.value.keysSent <= |instr.keys| then io.keys.value.keysSent else |instr.keys|;
      r.value.0.sent == s.sent + Typing.CommandBytes(ctx.table, instr.command)
                        + Typing.KeysBytes(ctx.table, instr.keys[..n])
    ensures r.Success? && (instr.Interactive? || (instr.Command? && !instr.hidden)) ==>
      r.value.1.Command? && |r.value.1.events| > 0
      && r.value.1.events[|r.value.1.events| - 1].data == ctx.prompt
      && r.value.0.lastEvent == io.promptAt
  {
    match instr
    case Command(cmd, hidden, typeSpeed) => RunCommand(ctx, s, cmd, hidden, typeSpeed, io)
    case Interactive(cmd, keys, typeSpeed) => RunInteractive(ctx, s, cmd, keys, typeSpeed, io)
    case Wait(d) => Success((s, Assemble.Wait(d)))
    case Marker(data) => Success((s, Assemble.Once(MarkerEvent(0, data))))
    case Clear =>
      Success((s, Assemble.Clear([OutputEvent(ctx.typeSpeed, CLEAR), OutputEvent(ctx.typeSpeed, ctx.prompt)])))
  }

  /** A visible command shows the typed command, then the shell's output up
      to the shell's own prompt, then the script's prompt; the output is the
      beginning of what the shell printed, with nothing lost or reordered. */
  lemma CommandShows(ctx: Ctx, s: Session, cmd: Config.Command, typeSpeed: Option<nat>, io: StepIo)
    requires RunInstruction(ctx, s, Config.Command(cmd, false, typeSpeed), io).Success?
    ensures var sent := Sent(ctx, s, cmd, io).value;
      var u := ShellSession.ReadUntilPrompt(sent, io.start, io.polls).value;
      var frag := RunInstruction(ctx, s, Config.Command(cmd, false, typeSpeed), io).value.1;
      var shown := Typing.Shown(Assemble.Emitted(frag));
      && frag == Assemble.Command(Typing.CommandEvents(ctx.table, cmd, StyleOf(ctx, typeSpeed)) + u.events
                                  + [OutputEvent(ShellSession.Elapsed(io.promptAt, u.session.lastEvent), ctx.prompt)])
      && shown == Typing.Shown(Typing.CommandEvents(ctx.table, cmd, StyleOf(ctx, typeSpeed)))
                  + Text.Concat(EventData(u.events)) + ctx.prompt
      && Text.IsPrefix(Text.Concat(EventData(u.events)) + s.prompt,
                       Text.Concat(ShellSession.PollTexts(io.polls[..|io.polls| - |u.rest|])))
  {
    var sent := Sent(ctx, s, cmd, io).value;
    var u := ShellSession.ReadUntilPrompt(sent, io.start, io.polls).value;
    var typed := Typing.CommandEvents(ctx.table, cmd, StyleOf(ctx, typeSpeed));
    var promptEvent := OutputEvent(ShellSession.Elapsed(io.promptAt, u.session.lastEvent), ctx.prompt);
    assert RunInstruction(ctx, s, Config.Command(cmd, false, typeSpeed), io).value.1
        == Assemble.Command(typed + u.events + [promptEvent]);
    ThreePartsShow(typed, u.events, promptEvent);
    assert sent.prompt == s.prompt;
    ShellSession.ReadUntilPromptContent(sent, io.start, io.polls);
  }

  lemma ThreePartsShow(typed: seq<Event>, output: seq<Event>, last: Event)
    ensures Typing.Shown(Assemble.Emitted(Assemble.Command(typed + output + [last])))
         == Typing.Shown(typed) + Text.Concat(EventData(output)) + last.data
  {
    Typing.ShownAppend(typed + output, [last]);
    Typing.ShownAppend(typed, output);
    assert EventData([last]) == [last.data];
    Text.ConcatOne(last.data);
  }

  /** Each typed event of a command takes the command's own type speed when
      it has one, and the default otherwise. */
  lemma TypeSpeedOverrides(ctx: Ctx, s: Session, cmd: Config.Command, typeSpeed: Option<nat>, io: StepIo)
    requires RunInstruction(ctx, s, Config.Command(cmd, false, typeSpeed), io).Success?
    ensures var frag := RunInstruction(ctx, s, Config.Command(cmd, false, typeSpeed), io).value.1;
      var n := |Typing.CommandEvents(ctx.table, cmd, StyleOf(ctx, typeSpeed))|;
      n <= |frag.events|
      && forall i :: 0 <= i < n ==>
        frag.events[i].time == (if typeSpeed.Some? then typeSpeed.value else ctx.typeSpeed)
  {
  }

  /** An interactive command shows the typed command, then what its keys
      recorded, then the script's prompt, timed from the keys' last event;
      the typed events take the command's own type speed when it has one,
      and the default otherwise. */
  lemma InteractiveShows(ctx: Ctx, s: Session, cmd: Config.Command, keys: seq<Config.Key>,
                         typeSpeed: Option<nat>, io: StepIo)
    requires RunInstruction(ctx, s, Config.Interactive(cmd, keys, typeSpeed), io).Success?
    ensures io.keys.Success?
    ensures var frag := RunInstruction(ctx, s, Config.Interactive(cmd, keys, typeSpeed), io).value.1;
      var typed := Typing.CommandEvents(ctx.table, cmd, StyleOf(ctx, typeSpeed));
      var k := io.keys.value;
      && frag == Assemble.Command(typed + k.events
                                  + [OutputEvent(ShellSession.Elapsed(io.promptAt, k.lastEvent), ctx.prompt)])
      && Typing.Shown(Assemble.Emitted(frag))
         == Typing.Shown(typed) + Text.Concat(EventData(k.events)) + ctx.prompt
      && forall i :: 0 <= i < |typed| ==>
        frag.events[i].time == (if typeSpeed.Some? then typeSpeed.value else ctx.typeSpeed)
  {
    var typed := Typing.CommandEvents(ctx.table, cmd, StyleOf(ctx, typeSpeed));
    var k := io.keys.value;
    var last := OutputEvent(ShellSession.Elapsed(io.promptAt, k.lastEvent), ctx.prompt);
    var frag := RunInteractive(ctx, s, cmd, keys, typeSpeed, io).value.1;
    assert frag == Assemble.Command(typed + k.events + [last]);
    ThreePartsShow(typed, k.events, last);
    forall i | 0 <= i < |typed|
      ensures frag.events[i].time == (if typeSpeed.Some? then typeSpeed.value else ctx.typeSpeed)
    {
      assert frag.events[i] == typed[i];
    }
  }

  /** A run of the script that fails names the instruction that failed. */
  datatype RunError = RunError(index: nat, cause: ShellSession.SessionError)

  /** What running the instructions yields: the session after them and the
      fragment of each. */
  datatype Ran = Ran(session: Session, fragments: seq<Assemble.Fragment>)

  /** Runs the instructions in order from the `from`-th, stopping at the
      first that fails (`process_results`). */
  function RunAll(ctx: Ctx, s: Session, instrs: seq<Config.Instruction>, io: nat -> StepIo, from: nat)
    : (r: Result<Ran, RunError>)
    requires from <= |instrs|
    ensures r.Success? ==> |r.value.fragments| == |instrs| - from
    ensures r.Failure? ==> from <= r.error.index < |instrs|
    decreases |instrs| - from
  {
    if from == |instrs| then Success(Ran(s, []))
    else match RunInstruction(ctx, s, instrs[from], io(from))
      case Failure(e) => Failure(RunError(from, e))
      case Success((s', fragment)) =>
        var rest :- RunAll(ctx, s', instrs, io, from + 1);
        Success(Ran(rest.session, [fragment] + rest.fragments))
  }

  /** The fragment each instruction yields: a pause for a pause, one marker
      event for a marker, the clearing and prompt events for a clear, nothing
      for a hidden command, and events ending with the prompt for a visible
      or interactive command. Only commands can fail. */
  lemma {:induction false} RunAllFragments(ctx: Ctx, s: Session, instrs: seq<Config.Instruction>,
                                           io: nat -> StepIo, from: nat)
    requires from <= |instrs|
    requires RunAll(ctx, s, instrs, io, from).Success?
    ensures FragmentsOf(ctx, instrs, from, RunAll(ctx, s, instrs, io, from).value.fragments)
    decreases |instrs| - from
  {
    if from < |instrs| {
      var step := RunInstruction(ctx, s, instrs[from], io(from));
      RunAllSucceeds(ctx, s, instrs, io, from);
      var rest := RunAll(ctx, step.value.0, instrs, io, from + 1);
      RunAllFragments(ctx, step.value.0, instrs, io, from + 1);
      FragmentsCons(ctx, s, instrs, io, from, rest.value.fragments);
    }
  }

  /** Each instruction from the `from`-th on yields a fragment of its shape. */
  predicate FragmentsOf(ctx: Ctx, instrs: seq<Config.Instruction>, from: nat, frags: seq<Assemble.Fragment>) {
    from <= |instrs| && |frags| == |instrs| - from
    && forall i :: from <= i < |instrs| ==> FragmentOf(ctx, instrs[i], frags[i - from])
  }

  /** A run that succeeds: its first step and the rest succeed. */
  lemma RunAllSucceeds(ctx: Ctx, s: Session, instrs: seq<Config.Instruction>, io: nat -> StepIo, from: nat)
    requires from < |instrs| && RunAll(ctx, s, instrs, io, from).Success?
    ensures var step := RunInstruction(ctx, s, instrs[from], io(from));
      && step.Success?
      && RunAll(ctx, step.value.0, instrs, io, from + 1).Success?
      && RunAll(ctx, s, instrs, io, from).value.fragments
         == [step.value.1] + RunAll(ctx, step.value.0, instrs, io, from + 1).value.fragments
  {
  }

  /** The fragments of the instructions from `from` on, one at a time. */
  lemma FragmentsCons(ctx: Ctx, s: Session, instrs: seq<Config.Instruction>, io: nat -> StepIo, from: nat,
                      rest: seq<Assemble.Fragment>)
    requires from < |instrs| && RunInstruction(ctx, s, instrs[from], io(from)).Success?
    requires FragmentsOf(ctx, instrs, from + 1, rest)
    ensures FragmentsOf(ctx, instrs, from, [RunInstruction(ctx, s, instrs[from], io(from)).value.1] + rest)
  {
    StepFragment(ctx, s, instrs[from], io(from));
    ShapesCons(ctx, instrs, from, RunInstruction(ctx, s, instrs[from], io(from)).value.1, rest);
  }

  lemma ShapesCons(ctx: Ctx, instrs: seq<Config.Instruction>, from: nat, head: Assemble.Fragment,
                   rest: seq<Assemble.Fragment>)
    requires from < |instrs| && FragmentOf(ctx, instrs[from], head)
    requires FragmentsOf(ctx, instrs, from + 1, rest)
    ensures FragmentsOf(ctx, instrs, from, [head] + rest)
  {
    forall i | from <= i < |instrs| ensures FragmentOf(ctx, instrs[i], ([head] + rest)[i - from]) {
      if i > from {
        assert ([head] + rest)[i - from] == rest[i - (from + 1)];
      }
    }
  }

  /** Only commands fail. */
  lemma {:induction false} RunAllFailure(ctx: Ctx, s: Session, instrs: seq<Config.Instruction>,
                                         io: nat -> StepIo, from: nat)
    requires from <= |instrs|
    requires RunAll(ctx, s, instrs, io, from).Failure?
    ensures var e := RunAll(ctx, s, instrs, io, from).error;
      instrs[e.index].Command? || instrs[e.index].Interactive?
    decreases |instrs| - from
  {
    var step := RunInstruction(ctx, s, instrs[from], io(from));
    RunAllUnfold(ctx, s, instrs, io, from);
    if step.Failure? {
      StepFragment(ctx, s, instrs[from], io(from));
    } else {
      RunAllFailure(ctx, step.value.0, instrs, io, from + 1);
    }
  }

  /** One step of `RunAll`. */
  lemma RunAllUnfold(ctx: Ctx, s: Session, instrs: seq<Config.Instruction>, io: nat -> StepIo, from: nat)
    requires from < |instrs|
    ensures var step := RunInstruction(ctx, s, instrs[from], io(from));
      step.Failure? ==> RunAll(ctx, s, instrs, io, from) == Failure(RunError(from, step.error))
    ensures var step := RunInstruction(ctx, s, instrs[from], io(from));
      step.Success? ==>
        var rest := RunAll(ctx, step.value.0, instrs, io, from + 1);
        && (rest.Failure? ==> RunAll(ctx, s, instrs, io, from) == Failure(rest.error))
        && (rest.Success? ==>
              RunAll(ctx, s, instrs, io, from) == Success(Ran(rest.value.session, [step.value.1] + rest.value.fragments)))
  {
  }

  /** The fragment of one instruction has the shape `FragmentOf` says, and
      only commands fail. */
  lemma StepFragment(ctx: Ctx, s: Session, instr: Config.Instruction, io: StepIo)
    ensures var r := RunInstruction(ctx, s, instr, io);
      r.Success? ==> FragmentOf(ctx, instr, r.value.1)
    ensures RunInstruction(ctx, s, instr, io).Failure? ==> instr.Command? || instr.Interactive?
  {
  }

  /** The shape of the fragment an instruction yields. */
  predicate FragmentOf(ctx: Ctx, instr: Config.Instruction, f: Assemble.Fragment) {
    match instr
    case Wait(d) => f == Assemble.Wait(d)
    case Marker(data) => f == Assemble.Once(MarkerEvent(0, data))
    case Clear => f == Assemble.Clear([OutputEvent(ctx.typeSpeed, CLEAR), OutputEvent(ctx.typeSpeed, ctx.prompt)])
    case Command(_, hidden, _) =>
      if hidden then f == Assemble.None
      else f.Command? && |f.events| > 0 && f.events[|f.events| - 1].data == ctx.prompt
    case Interactive(_, _, _) =>
      f.Command? && |f.events| > 0 && f.events[|f.events| - 1].data == ctx.prompt
  }

  /** `instructions`: runs the script and assembles the recording. */
  function Instructions(ctx: Ctx, s: Session, instrs: seq<Config.Instruction>, io: nat -> StepIo)
    : (r: Result<(Session, seq<Event>), RunError>)
    ensures r.Success? ==> |r.value.1| >= 2 && r.value.1[0] == OutputEvent(0, ctx.prompt)
    ensures r.Success? ==> r.value.1[|r.value.1| - 1].data == "\r\n"
    ensures r.Success? ==> Assemble.Ordered(r.value.1)
    ensures r.Failure? <==> RunAll(ctx, s, instrs, io, 0).Failure?
  {
    var ran :- RunAll(ctx, s, instrs, io, 0);
    Success((ran.session, Assemble.Assemble(ran.fragments, ctx.prompt, ctx.typeSpeed)))
  }

  /** A script of a single marker: the prompt, the marker at the start and
      the closing line ending one type speed later. Nothing is sent. */
  lemma MarkerScriptExample(ctx: Ctx, s: Session, data: string, io: nat -> StepIo)
    ensures Instructions(ctx, s, [Config.Marker(data)], io)
         == Success((s, [OutputEvent(0, ctx.prompt), MarkerEvent(0, data), OutputLn(ctx.typeSpeed)]))
  {
    var instrs := [Config.Marker(data)];
    var marker := Assemble.Once(MarkerEvent(0, data));
    assert RunInstruction(ctx, s, instrs[0], io(0)) == Success((s, marker));
    RunAllUnfold(ctx, s, instrs, io, 0);
    assert RunAll(ctx, s, instrs, io, 1) == Success(Ran(s, []));
    assert [marker] + [] == [marker];
    assert RunAll(ctx, s, instrs, io, 0) == Success(Ran(s, [marker]));
    Assemble.WaitThenMarkerExample(0, 0, data, ctx.prompt, ctx.typeSpeed);
    Assemble.FlatWaitsFront(0, 0, [marker], 0);
    assert [Assemble.Wait(0), Assemble.Wait(0)] + [marker] == [Assemble.Wait(0), Assemble.Wait(0), marker];
  }
}

=== FILE: session.dfy ===
/**
 * The shell session (`config/spawn.rs`) as far as it decides what is
 * recorded: the prompt it watches for, the time of the last event, the
 * bytes sent to the shell, turning a chunk of shell output into an output
 * event, and reading until the prompt appears or the timeout passes.
 *
 * The pseudo-terminal is outside the model. Each read is an input: the
 * text the read returned (or an I/O error) and the clock readings taken
 * while it was handled. Clock readings are instants in nanoseconds; the
 * difference of two instants saturates at zero, as `Instant` subtraction
 * does.
 */
module ShellSession {
  import opened Base
  import Text
  import Config
  import opened Asciicast

  /** The state of a session. `sent` is every byte written to the shell so
      far. */
  datatype Session = Session(prompt: string, quitCommand: Option<string>, timeout: nat,
                             lastEvent: nat, sent: seq<Byte>)

  const BASH_PROMPT: string := "AUTOCAST_PROMPT"
  const BASH_QUIT: string := "exit"
  const PYTHON_PROMPT: string := ">>> "
  const PYTHON_QUIT: string := "exit()"

  /** `ShellSession::new`: nothing sent yet, the last event is now. */
  function New(prompt: string, quitCommand: Option<string>, timeout: nat, now: nat): (s: Session)
    ensures s.sent == [] && s.lastEvent == now
    ensures s.prompt == prompt && s.quitCommand == quitCommand && s.timeout == timeout
  {
    Session(prompt, quitCommand, timeout, now, [])
  }

  /** The prompt and quit command a shell is started with: bash is given a
      prompt of its own, python keeps its usual one, a custom shell says
      which. */
  function ForShell(sh: Config.Shell, timeout: nat, now: nat): (s: Session)
    ensures sh.Bash? ==> s.prompt == BASH_PROMPT && s.quitCommand == Some(BASH_QUIT)
    ensures sh.Python? ==> s.prompt == PYTHON_PROMPT && s.quitCommand == Some(PYTHON_QUIT)
    ensures sh.Custom? ==> s.prompt == sh.prompt && s.quitCommand == sh.quitCommand
    ensures s.sent == [] && s.lastEvent == now && s.timeout == timeout
  {
    match sh
    case Bash => New(BASH_PROMPT, Some(BASH_QUIT), timeout, now)
    case Python => New(PYTHON_PROMPT, Some(PYTHON_QUIT), timeout, now)
    case Custom(_, _, prompt, _, quit) => New(prompt, quit, timeout, now)
  }

  /** `now - earlier` for instants: zero when `now` is the earlier one. */
  function Elapsed(now: nat, earlier: nat): (d: nat)
    ensures earlier <= now ==> earlier + d == now
    ensures now <= earlier ==> d == 0
  {
    if earlier <= now then now - earlier else 0
  }

  /** `new_event`: an output event timed since the last event, which is
      now. */
  function NewEvent(s: Session, data: string, now: nat): (r: (Session, Event))
    ensures r.1 == OutputEvent(Elapsed(now, s.lastEvent), data)
    ensures r.0 == s.(lastEvent := now)
  {
    (s.(lastEvent := now), OutputEvent(Elapsed(now, s.lastEvent), data))
  }

  /** `reset`: the last event is now. */
  function Reset(s: Session, now: nat): (r: Session)
    ensures r == s.(lastEvent := now)
  {
    s.(lastEvent := now)
  }

  /** `send`: the bytes go to the shell. Whether the write succeeds is the
      pseudo-terminal's answer, an input (`ok`); a failed write is an error
      of the session. */
  function Send(s: Session, bytes: seq<Byte>, ok: bool): (r: Result<Session, SessionError>)
    ensures r.Success? <==> ok
    ensures r.Failure? ==> r.error == WriteError
    ensures r.Success? ==>
      |r.value.sent| == |s.sent| + |bytes| && r.value.sent[..|s.sent|] == s.sent && r.value.sent[|s.sent|..] == bytes
    ensures r.Success? ==> r.value == s.(sent := r.value.sent)
  {
    if ok then Success(s.(sent := s.sent + bytes)) else Failure(WriteError)
  }

  /** The line ending `send_line` adds on non-Windows builds. */
  const NEWLINE: Byte := 10

  /** `send_line`: the line, then a line feed, as two writes; the first
      write that fails ends it. */
  function SendLine(s: Session, line: seq<Byte>, lineOk: bool, endingOk: bool): (r: Result<Session, SessionError>)
    ensures r.Success? <==> lineOk && endingOk
    ensures r.Failure? ==> r.error == WriteError
    ensures r.Success? ==> r.value.sent == s.sent + line + [NEWLINE]
    ensures r.Success? ==> r.value == s.(sent := r.value.sent)
  {
    var s' :- Send(s, line, lineOk);
    Send(s', [NEWLINE], endingOk)
  }

  /** Does the prompt occur anywhere in `data`? */
  predicate HasPrompt(data: string, prompt: string) {
    exists j :: 0 <= j <= |data| && Text.OccursAt(data, prompt, j)
  }

  /** The result of one read: the session after it, the event it produced if
      any, and whether the prompt was seen. */
  datatype ReadResult = ReadResult(session: Session, event: Option<Event>, prompt: bool)

  /** `read`, given the text the read returned and the clock at the moment
      an event is made. Nothing is recorded for an empty read. Otherwise the
      text before the LAST occurrence of the prompt is recorded, and what
      follows that occurrence is dropped; without the prompt the whole text
      is recorded. An empty text before the prompt records nothing. */
  function Read(s: Session, data: string, now: nat): (r: ReadResult)
    ensures r.prompt <==> data != "" && HasPrompt(data, s.prompt)
    ensures r.event.None? ==> r.session == s
    ensures r.event.Some? ==> r.session == s.(lastEvent := now)
    ensures r.event.Some? ==> r.event.value.time == Elapsed(now, s.lastEvent)
    ensures r.event.Some? ==> r.event.value.kind == Output && r.event.value.data != ""
    ensures !r.prompt ==> (r.event.Some? <==> data != "")
    ensures !r.prompt && r.event.Some? ==> r.event.value.data == data
    ensures r.prompt ==> var before := if r.event.Some? then r.event.value.data else "";
      Text.IsPrefix(before + s.prompt, data)
      && forall j :: |before| < j <= |data| ==> !Text.OccursAt(data, s.prompt, j)
  {
    if data == "" then ReadResult(s, None, false)
    else match Text.RSplitOnce(data, s.prompt)
      case Some((before, after)) =>
        assert before + s.prompt + after == data;
        assert (before + s.prompt + after)[..|before + s.prompt|] == before + s.prompt;
        if before == "" then ReadResult(s, None, true)
        else
          var (s', e) := NewEvent(s, before, now);
          ReadResult(s', Some(e), true)
      case None =>
        var (s', e) := NewEvent(s, data, now);
        ReadResult(s', Some(e), false)
  }

  /** An empty read records nothing and finds no prompt. */
  lemma ReadEmpty(s: Session, now: nat)
    ensures Read(s, "", now) == ReadResult(s, None, false)
  {
  }

  /** Output followed by the prompt at the very end: the output is recorded
      and the prompt found. */
  lemma ReadOutputThenPrompt(s: Session, out: string, now: nat)
    requires out != ""
    ensures Read(s, out + s.prompt, now)
         == ReadResult(s.(lastEvent := now), Some(OutputEvent(Elapsed(now, s.lastEvent), out)), true)
  {
    var data := out + s.prompt;
    assert Text.OccursAt(data, s.prompt, |out|) by { assert data[|out|..|out| + |s.prompt|] == s.prompt; }
    var split := Text.RSplitOnce(data, s.prompt);
    assert split.Some?;
    var (before, after) := split.value;
    assert |before| == |out|;
    assert before == data[..|before|];
  }

  /** The prompt alone: nothing is recorded, the prompt is found. */
  lemma ReadPromptOnly(s: Session, now: nat)
    requires s.prompt != ""
    ensures Read(s, s.prompt, now) == ReadResult(s, None, true)
  {
    assert Text.OccursAt(s.prompt, s.prompt, 0) by { assert s.prompt[0..|s.prompt|] == s.prompt; }
    var split := Text.RSplitOnce(s.prompt, s.prompt);
    assert split.Some?;
    var (before, after) := split.value;
    assert |before| == 0;
  }

  /** Output without the prompt is recorded whole. */
  lemma ReadNoPrompt(s: Session, data: string, now: nat)
    requires data != "" && !HasPrompt(data, s.prompt)
    ensures Read(s, data, now) == ReadResult(s.(lastEvent := now), Some(OutputEvent(Elapsed(now, s.lastEvent), data)), false)
  {
  }

  /** One read of the shell's output: the text it returned, `None` for an
      I/O error, the clock when an event is made, and the clock when the
      loop next looks at it (for the timeout, or for the time since the last
      event once the prompt is found). */
  datatype Poll = Poll(data: Option<string>, at: nat, checkAt: nat)

  datatype SessionError =
    | ReadError
    | WriteError
    | Timeout
    /** the model's list of reads ended before the prompt appeared */
    | InputExhausted

  /** What `read_until_prompt` returns, with the session after it and the
      reads not yet consumed. */
  datatype UntilPrompt = UntilPrompt(session: Session, events: seq<Event>, sinceLast: nat, rest: seq<Poll>)

  /** The text every read returned (empty for an I/O error). */
  function PollTexts(polls: seq<Poll>): (r: seq<string>)
    ensures |r| == |polls|
    ensures forall i :: 0 <= i < |polls| ==> r[i] == polls[i].data.GetOr("")
  {
    if |polls| == 0 then [] else [polls[0].data.GetOr("")] + PollTexts(polls[1..])
  }

  /** The events a read records: none or one. */
  function Recorded(rr: ReadResult): seq<Event> {
    if rr.event.Some? then [rr.event.value] else []
  }

  /** `read_until_prompt`: reads until the prompt is found. After a read
      without the prompt, the time since `start` is checked against the
      session's timeout. */
  function ReadUntilPrompt(s: Session, start: nat, polls: seq<Poll>): (r: Result<UntilPrompt, SessionError>)
    ensures r.Success? ==> |r.value.rest| < |polls| && r.value.rest == polls[|polls| - |r.value.rest|..]
    ensures r.Success? ==> r.value.session == s.(lastEvent := r.value.session.lastEvent)
    ensures r.Success? ==> forall i :: 0 <= i < |r.value.events| ==>
      r.value.events[i].kind == Output && r.value.events[i].data != ""
    decreases |polls|
  {
    if |polls| == 0 then Failure(InputExhausted)
    else match polls[0].data
      case None => Failure(ReadError)
      case Some(data) =>
        var rr := Read(s, data, polls[0].at);
        if rr.prompt then
          Success(UntilPrompt(rr.session, Recorded(rr), Elapsed(polls[0].checkAt, rr.session.lastEvent), polls[1..]))
        else if Elapsed(polls[0].checkAt, start) > s.timeout then Failure(Timeout)
        else match ReadUntilPrompt(rr.session, start, polls[1..])
          case Failure(e) => Failure(e)
          case Success(u) =>
            assert forall j :: 1 <= j < |polls| ==> polls[j] == polls[1..][j - 1];
            Success(u.(events := Recorded(rr) + u.events))
  }

  /** A read the loop goes on after: it succeeded, did not show the prompt
      and came within the timeout. */
  predicate PassedOver(prompt: string, timeout: nat, start: nat, p: Poll) {
    p.data.Some? && (p.data.value == "" || !HasPrompt(p.data.value, prompt))
    && Elapsed(p.checkAt, start) <= timeout
  }

  /** The first `k` reads are all passed over. */
  predicate AllPassedOver(prompt: string, timeout: nat, start: nat, polls: seq<Poll>, k: nat)
    requires k <= |polls|
  {
    forall j :: 0 <= j < k ==> PassedOver(prompt, timeout, start, polls[j])
  }

  /** The loop after a read without the prompt. */
  lemma ReadUntilPromptMore(s: Session, start: nat, polls: seq<Poll>)
    requires |polls| > 0 && polls[0].data.Some?
    requires !Read(s, polls[0].data.value, polls[0].at).prompt
    requires Elapsed(polls[0].checkAt, start) <= s.timeout
    ensures var rr := Read(s, polls[0].data.value, polls[0].at);
      && rr.session.prompt == s.prompt && rr.session.timeout == s.timeout
      && PassedOver(s.prompt, s.timeout, start, polls[0])
      && (ReadUntilPrompt(rr.session, start, polls[1..]).Failure? ==>
            ReadUntilPrompt(s, start, polls) == Failure(ReadUntilPrompt(rr.session, start, polls[1..]).error))
      && (ReadUntilPrompt(rr.session, start, polls[1..]).Success? ==>
            var u := ReadUntilPrompt(rr.session, start, polls[1..]).value;
            ReadUntilPrompt(s, start, polls) == Success(u.(events := Recorded(rr) + u.events)))
  {
  }

  /** Where the loop stops: every read before the last one consumed was
      passed over, and the last one consumed showed the prompt. The time
      since the last event is taken when the loop stops. */
  lemma {:induction false} ReadUntilPromptStops(s: Session, start: nat, polls: seq<Poll>)
    requires ReadUntilPrompt(s, start, polls).Success?
    ensures var u := ReadUntilPrompt(s, start, polls).value;
      var k := |polls| - |u.rest|;
      && AllPassedOver(s.prompt, s.timeout, start, polls, k - 1)
      && polls[k - 1].data.Some? && polls[k - 1].data.value != ""
      && HasPrompt(polls[k - 1].data.value, s.prompt)
      && u.sinceLast == Elapsed(polls[k - 1].checkAt, u.session.lastEvent)
    decreases |polls|
  {
    var rr := Read(s, polls[0].data.value, polls[0].at);
    if !rr.prompt {
      ReadUntilPromptMore(s, start, polls);
      ReadUntilPromptStops(rr.session, start, polls[1..]);
      var k' := |polls| - 1 - |ReadUntilPrompt(rr.session, start, polls[1..]).value.rest|;
      assert forall j :: 0 <= j < k' ==> polls[1..][j] == polls[j + 1];
      assert polls[1..][k' - 1] == polls[k'];
    }
  }

  /** Why the loop fails: a timeout only after a check past it, a read
      error only after a failed read. */
  lemma {:induction false} ReadUntilPromptFails(s: Session, start: nat, polls: seq<Poll>)
    ensures ReadUntilPrompt(s, start, polls) == Failure(Timeout) ==>
      exists j :: 0 <= j < |polls| && Elapsed(polls[j].checkAt, start) > s.timeout
    ensures ReadUntilPrompt(s, start, polls) == Failure(ReadError) ==>
      exists j :: 0 <= j < |polls| && polls[j].data.None?
    decreases |polls|
  {
    if |polls| > 0 && polls[0].data.Some? {
      var rr := Read(s, polls[0].data.value, polls[0].at);
      if !rr.prompt && Elapsed(polls[0].checkAt, start) <= s.timeout {
        ReadUntilPromptMore(s, start, polls);
        ReadUntilPromptFails(rr.session, start, polls[1..]);
        var r := ReadUntilPrompt(s, start, polls);
        if r == Failure(Timeout) {
          var j :| 0 <= j < |polls[1..]| && Elapsed(polls[1..][j].checkAt, start) > s.timeout;
          assert polls[j + 1] == polls[1..][j];
        }
        if r == Failure(ReadError) {
          var j :| 0 <= j < |polls[1..]| && polls[1..][j].data.None?;
          assert polls[j + 1] == polls[1..][j];
        }
      }
    }
  }

  /** What is recorded, followed by the prompt, is the beginning of what
      was read: no output is lost or reordered before the prompt. */
  lemma {:induction false} ReadUntilPromptContent(s: Session, start: nat, polls: seq<Poll>)
    requires ReadUntilPrompt(s, start, polls).Success?
    ensures var u := ReadUntilPrompt(s, start, polls).value;
      Text.IsPrefix(Text.Concat(EventData(u.events)) + s.prompt, Text.Concat(PollTexts(polls[..|polls| - |u.rest|])))
    decreases |polls|
  {
    var data := polls[0].data.value;
    var rr := Read(s, data, polls[0].at);
    if rr.prompt {
      ReadStepPrompt(s, data, polls[0].at, polls);
    } else {
      ReadUntilPromptMore(s, start, polls);
      var u' := ReadUntilPrompt(rr.session, start, polls[1..]).value;
      ReadUntilPromptContent(rr.session, start, polls[1..]);
      var k' := |polls| - 1 - |u'.rest|;
      ReadStepMore(s, polls, k', Text.Concat(EventData(u'.events)) + s.prompt, u'.events);
    }
  }

  /** With a clock that does not run backwards, the recorded times add up to
      the time from the last event before the loop to the last event of the
      loop: each event is timed from the one before. */
  lemma {:induction false} ReadUntilPromptClock(s: Session, start: nat, polls: seq<Poll>)
    requires ReadUntilPrompt(s, start, polls).Success?
    requires MonotoneClock(s.lastEvent, polls)
    ensures var u := ReadUntilPrompt(s, start, polls).value;
      s.lastEvent + TotalTime(u.events) == u.session.lastEvent
    decreases |polls|
  {
    var data := polls[0].data.value;
    var rr := Read(s, data, polls[0].at);
    var evs := Recorded(rr);
    ReadClock(s, data, polls[0].at);
    if !rr.prompt {
      ReadUntilPromptMore(s, start, polls);
      MonotoneClockTail(s.lastEvent, rr.session.lastEvent, polls);
      ReadUntilPromptClock(rr.session, start, polls[1..]);
      TotalTimeAppend(evs, ReadUntilPrompt(rr.session, start, polls[1..]).value.events);
    }
  }

  /** The time recorded by one read, on a clock that has not run backwards. */
  lemma ReadClock(s: Session, data: string, now: nat)
    requires s.lastEvent <= now
    ensures s.lastEvent + TotalTime(Recorded(Read(s, data, now))) == Read(s, data, now).session.lastEvent
  {
    var rr := Read(s, data, now);
    if rr.event.Some? {
      assert TotalTime([rr.event.value]) == TotalTime([]) + rr.event.value.time;
    }
  }

  /** The clock stays monotone over the reads after the first. */
  lemma MonotoneClockTail(from: nat, next: nat, polls: seq<Poll>)
    requires |polls| > 0 && MonotoneClock(from, polls)
    requires next == from || next == polls[0].at
    ensures MonotoneClock(next, polls[1..])
  {
    assert forall i :: 0 <= i < |polls| - 1 ==> polls[1..][i] == polls[i + 1];
  }

  /** The clock never runs backwards over the reads, starting from `from`. */
  predicate MonotoneClock(from: nat, polls: seq<Poll>) {
    (forall i :: 0 <= i < |polls| ==> from <= polls[i].at)
    && (forall i, j :: 0 <= i < j < |polls| ==> polls[i].at <= polls[j].at)
  }

  /** The content of a read that finds the prompt. */
  lemma ReadStepPrompt(s: Session, data: string, now: nat, polls: seq<Poll>)
    requires |polls| > 0 && polls[0].data == Some(data)
    requires Read(s, data, now).prompt
    ensures Text.IsPrefix(Text.Concat(EventData(Recorded(Read(s, data, now)))) + s.prompt,
                          Text.Concat(PollTexts(polls[..1])))
  {
    var rr := Read(s, data, now);
    PollTextsFirst(polls);
    Text.ConcatOne(data);
    RecordedText(rr);
  }

  lemma PollTextsFirst(polls: seq<Poll>)
    requires |polls| > 0
    ensures PollTexts(polls[..1]) == [polls[0].data.GetOr("")]
  {
  }

  /** The text a read records. */
  lemma RecordedText(rr: ReadResult)
    ensures Text.Concat(EventData(Recorded(rr))) == if rr.event.Some? then rr.event.value.data else ""
  {
    if rr.event.Some? {
      assert EventData(Recorded(rr)) == [rr.event.value.data];
      Text.ConcatOne(rr.event.value.data);
    }
  }

  /** A read without the prompt records all it returned. */
  lemma ReadNoPromptRecordsAll(s: Session, data: string, now: nat)
    requires !Read(s, data, now).prompt
    ensures Text.Concat(EventData(Recorded(Read(s, data, now)))) == data
  {
    RecordedText(Read(s, data, now));
  }

  /** The content of a read without the prompt, followed by the rest of the
      loop, whose recorded text and prompt `tail` begin the text of the
      following `k` reads. */
  lemma ReadStepMore(s: Session, polls: seq<Poll>, k: nat, tail: string, events: seq<Event>)
    requires 0 < |polls| && k < |polls| && polls[0].data.Some?
    requires !Read(s, polls[0].data.value, polls[0].at).prompt
    requires tail == Text.Concat(EventData(events)) + s.prompt
    requires Text.IsPrefix(tail, Text.Concat(PollTexts(polls[1..][..k])))
    ensures var evs := Recorded(Read(s, polls[0].data.value, polls[0].at));
      Text.IsPrefix(Text.Concat(EventData(evs + events)) + s.prompt, Text.Concat(PollTexts(polls[..k + 1])))
  {
    var data := polls[0].data.value;
    var evs := Recorded(Read(s, data, polls[0].at));
    ReadNoPromptRecordsAll(s, data, polls[0].at);
    assert PollTexts(polls[..k + 1]) == [data] + PollTexts(polls[1..][..k]) by {
      assert polls[..k + 1] == [polls[0]] + polls[1..][..k];
    }
    EventDataAppend(evs, events);
    Text.ConcatAppend(EventData(evs), EventData(events));
    Text.ConcatAppend([data], PollTexts(polls[1..][..k]));
    Text.ConcatOne(data);
    PrefixCons(data, Text.Concat(EventData(events)), s.prompt, Text.Concat(PollTexts(polls[1..][..k])));
  }

  /** A common beginning keeps a prefix a prefix. */
  lemma PrefixCons(d: string, a: string, p: string, b: string)
    requires Text.IsPrefix(a + p, b)
    ensures Text.IsPrefix(d + a + p, d + b)
  {
    assert (d + b)[..|d + a + p|] == d + b[..|a + p|];
  }
}

=== FILE: text.dfy ===
/**
 * The parts of Rust's `str` API the recorder relies on, over `string`
 * (a sequence of Unicode scalar values): prefix and suffix stripping,
 * `split_once`, `rsplit_once`, `split`, `lines`, `trim` and joining.
 */
module Text {
  import opened Base

  predicate IsPrefix(p: string, s: string) {
    |p| <= |s| && s[..|p|] == p
  }

  predicate IsSuffix(p: string, s: string) {
    |p| <= |s| && s[|s| - |p|..] == p
  }

  /** `str::strip_prefix` */
  function StripPrefix(s: string, p: string): (r: Option<string>)
    ensures r.Some? <==> IsPrefix(p, s)
    ensures r.Some? ==> p + r.value == s
  {
    if IsPrefix(p, s) then
      assert s == p + s[|p|..];
      Some(s[|p|..])
    else None
  }

  /** `str::strip_suffix` */
  function StripSuffix(s: string, p: string): (r: Option<string>)
    ensures r.Some? <==> IsSuffix(p, s)
    ensures r.Some? ==> r.value + p == s
  {
    if IsSuffix(p, s) then
      assert s == s[..|s| - |p|] + p;
      Some(s[..|s| - |p|])
    else None
  }

  /** Does `p` occur in `s` starting at position `i`? */
  predicate OccursAt(s: string, p: string, i: nat) {
    i + |p| <= |s| && s[i..i + |p|] == p
  }

  /** Start of the last occurrence of `p` in `s`. */
  function LastIndexOf(s: string, p: string): (r: Option<nat>)
    ensures r.Some? ==> OccursAt(s, p, r.value)
    ensures r.Some? ==> forall j :: r.value < j <= |s| ==> !OccursAt(s, p, j)
    ensures r.None? ==> forall j :: 0 <= j <= |s| ==> !OccursAt(s, p, j)
  {
    LastIndexAtOrBelow(s, p, |s|)
  }

  function LastIndexAtOrBelow(s: string, p: string, k: nat): (r: Option<nat>)
    requires k <= |s|
    ensures r.Some? ==> r.value <= k && OccursAt(s, p, r.value)
    ensures r.Some? ==> forall j :: r.value < j <= k ==> !OccursAt(s, p, j)
    ensures r.None? ==> forall j :: 0 <= j <= k ==> !OccursAt(s, p, j)
    decreases k
  {
    if OccursAt(s, p, k) then Some(k)
    else if k == 0 then None
    else LastIndexAtOrBelow(s, p, k - 1)
  }

  /** `str::rsplit_once` with a string pattern: the text before and after
      the last occurrence of `p`. */
  function RSplitOnce(s: string, p: string): (r: Option<(string, string)>)
    ensures r.Some? <==> exists j :: 0 <= j <= |s| && OccursAt(s, p, j)
    ensures r.Some? ==> r.value.0 + p + r.value.1 == s
    ensures r.Some? ==> forall j :: |r.value.0| < j <= |s| ==> !OccursAt(s, p, j)
  {
    match LastIndexOf(s, p)
    case None => None
    case Some(i) =>
      assert s == s[..i] + p + s[i + |p|..] by {
        assert s == s[..i] + s[i..i + |p|] + s[i + |p|..];
      }
      Some((s[..i], s[i + |p|..]))
  }

  /** Position of the first occurrence of `c` in `s`. */
  function IndexOfChar(s: string, c: char): (r: Option<nat>)
    ensures r.Some? ==> r.value < |s| && s[r.value] == c && c !in s[..r.value]
    ensures r.None? <==> c !in s
  {
    if |s| == 0 then None
    else if s[0] == c then Some(0)
    else match IndexOfChar(s[1..], c)
      case None => None
      case Some(i) =>
        assert s[..i + 1] == [s[0]] + s[1..][..i];
        Some(i + 1)
  }

  /** `str::split_once` with a char pattern: the text before and after the
      first occurrence of `c`. */
  function SplitOnce(s: string, c: char): (r: Option<(string, string)>)
    ensures r.Some? <==> c in s
    ensures r.Some? ==> r.value.0 + [c] + r.value.1 == s && c !in r.value.0
  {
    match IndexOfChar(s, c)
    case None => None
    case Some(i) =>
      assert s == s[..i] + [c] + s[i + 1..];
      Some((s[..i], s[i + 1..]))
  }

  /** The parts joined with `sep` between consecutive ones (`[T]::join`). */
  function Join(parts: seq<string>, sep: string): string {
    if |parts| == 0 then ""
    else if |parts| == 1 then parts[0]
    else parts[0] + sep + Join(parts[1..], sep)
  }

  /** `str::split` with a char pattern. */
  function Split(s: string, c: char): (r: seq<string>)
    ensures |r| >= 1
    decreases |s|
  {
    match IndexOfChar(s, c)
    case None => [s]
    case Some(i) => [s[..i]] + Split(s[i + 1..], c)
  }

  lemma IndexOfCharAfterFree(a: string, c: char, b: string)
    requires c !in a
    ensures IndexOfChar(a + [c] + b, c) == Some(|a|)
  {
    var s := a + [c] + b;
    assert s[..|a|] == a;
    assert s[|a|] == c;
    assert forall k :: 0 <= k < |a| ==> s[k] == a[k];
    assert forall k :: |a| < k <= |s| ==> s[..k][|a|] == c;
  }

  /** Splitting undoes joining when no part contains the separator. */
  lemma {:induction false} SplitJoin(parts: seq<string>, c: char)
    requires |parts| >= 1
    requires forall i :: 0 <= i < |parts| ==> c !in parts[i]
    ensures Split(Join(parts, [c]), c) == parts
  {
    if |parts| == 1 {
      assert IndexOfChar(parts[0], c).None?;
    } else {
      var head, tail := parts[0], parts[1..];
      assert parts == [head] + tail;
      assert forall i :: 0 <= i < |tail| ==> tail[i] == parts[i + 1];
      SplitJoin(tail, c);
      JoinCons(head, tail, [c]);
      SplitCons(head, c, Join(tail, [c]));
    }
  }

  /** A part without the separator, the separator and more text: `Split`
      keeps the part as it is. */
  lemma SplitCons(a: string, c: char, b: string)
    requires c !in a
    ensures Split(a + [c] + b, c) == [a] + Split(b, c)
  {
    var s := a + [c] + b;
    IndexOfCharAfterFree(a, c, b);
    assert s[..|a|] == a;
    assert s[|a| + 1..] == b;
  }

  /** `char::is_whitespace`: the Unicode White_Space property. */
  predicate IsWhitespace(c: char) {
    || ('\t' <= c <= '\r')
    || c == ' '
    || c == '\U{0085}'
    || c == '\U{00A0}'
    || c == '\U{1680}'
    || ('\U{2000}' <= c <= '\U{200A}')
    || c == '\U{2028}'
    || c == '\U{2029}'
    || c == '\U{202F}'
    || c == '\U{205F}'
    || c == '\U{3000}'
  }

  predicate HasWhitespace(s: string) {
    exists i :: 0 <= i < |s| && IsWhitespace(s[i])
  }

  predicate AllWhitespace(s: string) {
    forall i :: 0 <= i < |s| ==> IsWhitespace(s[i])
  }

  function TrimStart(s: string): (r: string)
    ensures IsSuffix(r, s) && AllWhitespace(s[..|s| - |r|])
    ensures r == [] || !IsWhitespace(r[0])
  {
    if |s| > 0 && IsWhitespace(s[0]) then
      var r := TrimStart(s[1..]);
      assert s[..|s| - |r|] == [s[0]] + s[1..][..|s| - 1 - |r|];
      r
    else s
  }

  function TrimEnd(s: string): (r: string)
    ensures IsPrefix(r, s) && AllWhitespace(s[|r|..])
    ensures r == [] || !IsWhitespace(r[|r| - 1])
  {
    if |s| > 0 && IsWhitespace(s[|s| - 1]) then
      var r := TrimEnd(s[..|s| - 1]);
      assert s[|r|..] == s[..|s| - 1][|r|..] + [s[|s| - 1]];
      r
    else s
  }

  /** `str::trim`: the longest infix of `s` that neither starts nor ends
      with whitespace, cut out of whitespace on both sides. */
  function Trim(s: string): (r: string)
    ensures exists i :: 0 <= i <= |s| - |r| && s[i..i + |r|] == r
                        && AllWhitespace(s[..i]) && AllWhitespace(s[i + |r|..])
    ensures r == [] || (!IsWhitespace(r[0]) && !IsWhitespace(r[|r| - 1]))
  {
    var t := TrimStart(s);
    var r := TrimEnd(t);
    InfixOfSuffix(s, t, r);
    r
  }

  /** A prefix `r` of a suffix `t` of `s` sits in `s` where `t` begins, and
      what surrounds it there is what was cut off. */
  lemma InfixOfSuffix(s: string, t: string, r: string)
    requires IsSuffix(t, s) && AllWhitespace(s[..|s| - |t|])
    requires IsPrefix(r, t) && AllWhitespace(t[|r|..])
    ensures exists i :: 0 <= i <= |s| - |r| && s[i..i + |r|] == r
                        && AllWhitespace(s[..i]) && AllWhitespace(s[i + |r|..])
  {
    var i := |s| - |t|;
    assert s[i..] == t;
    assert s[i..i + |r|] == s[i..][..|r|];
    assert s[i + |r|..] == s[i..][|r|..];
  }

  /** One line of `str::lines`: the `"\r"` before a removed `"\n"` goes too. */
  function StripCarriageReturn(line: string): string {
    if |line| > 0 && line[|line| - 1] == '\r' then line[..|line| - 1] else line
  }

  /** `str::lines`: split at `"\n"` (or `"\r\n"`); a final line ending adds
      no empty line, and a last line without `"\n"` keeps any `"\r"`. */
  function Lines(s: string): (r: seq<string>)
    ensures forall i :: 0 <= i < |r| ==> '\n' !in r[i]
    ensures |r| == 0 <==> |s| == 0
    decreases |s|
  {
    if |s| == 0 then []
    else match SplitOnce(s, '\n')
      case None => [s]
      case Some((line, rest)) =>
        var l := StripCarriageReturn(line);
        assert forall k :: 0 <= k < |l| ==> l[k] == line[k];
        [l] + Lines(rest)
  }

  lemma NoCharInSlice(s: string, c: char, i: nat, j: nat)
    requires c !in s && i <= j <= |s|
    ensures c !in s[i..j]
  {
    forall k | 0 <= k < j - i ensures s[i..j][k] != c {
      assert s[i..j][k] == s[i + k];
    }
  }

  /** With no carriage returns in the text, `Lines` loses nothing but an
      optional final line ending. */
  lemma {:induction false} LinesJoin(s: string)
    requires '\r' !in s
    ensures Join(Lines(s), "\n") + (if |s| > 0 && s[|s| - 1] == '\n' then "\n" else "") == s
    decreases |s|
  {
    if |s| > 0 {
      match SplitOnce(s, '\n')
      case None =>
        assert s[|s| - 1] in s;
      case Some((line, rest)) =>
        LinesJoinStep(s, line, rest);
    }
  }

  lemma {:induction false} LinesJoinStep(s: string, line: string, rest: string)
    requires '\r' !in s && |s| > 0
    requires SplitOnce(s, '\n') == Some((line, rest))
    ensures Join(Lines(s), "\n") + (if s[|s| - 1] == '\n' then "\n" else "") == s
    decreases |s|, 0
  {
    LinesUnfold(s, line, rest);
    LinesJoin(rest);
    var e := if s[|s| - 1] == '\n' then "\n" else "";
    if |rest| == 0 {
      assert Lines(s) == [line];
    } else {
      JoinCons(line, Lines(rest), "\n");
      assert s[|s| - 1] == rest[|rest| - 1];
      AppendAssoc(line + "\n", Join(Lines(rest), "\n"), e);
    }
  }

  lemma AppendAssoc(a: string, b: string, c: string)
    ensures (a + b) + c == a + (b + c)
  {
  }

  lemma LinesUnfold(s: string, line: string, rest: string)
    requires '\r' !in s && |s| > 0
    requires SplitOnce(s, '\n') == Some((line, rest))
    ensures s == line + "\n" + rest && |rest| < |s|
    ensures '\r' !in rest
    ensures Lines(s) == [line] + Lines(rest)
  {
    assert line == s[..|line|] && rest == s[|line| + 1..];
    NoCharInSlice(s, '\r', 0, |line|);
    NoCharInSlice(s, '\r', |line| + 1, |s|);
    if |line| > 0 {
      assert line[|line| - 1] in line;
    }
    assert StripCarriageReturn(line) == line;
  }

  /** Lines without line breaks, the last one not empty, come back from
      `Lines` after being joined with `"\n"`. */
  lemma {:induction false} LinesOfJoin(parts: seq<string>)
    requires |parts| >= 1 && parts[|parts| - 1] != ""
    requires forall i :: 0 <= i < |parts| ==> '\n' !in parts[i] && '\r' !in parts[i]
    ensures Lines(Join(parts, "\n")) == parts
    decreases |parts|
  {
    if |parts| == 1 {
      assert Join(parts, "\n") == parts[0];
    } else {
      var head, tail := parts[0], parts[1..];
      assert parts == [head] + tail;
      assert forall i :: 0 <= i < |tail| ==> tail[i] == parts[i + 1];
      LinesOfJoin(tail);
      JoinCons(head, tail, "\n");
      assert "\n" == ['\n'];
      LinesCons(head, Join(tail, "\n"));
    }
  }

  /** A line without line breaks, a line break and more text: `Lines` keeps
      the first line as it is. */
  lemma LinesCons(p: string, rest: string)
    requires '\n' !in p && '\r' !in p
    ensures Lines(p + ['\n'] + rest) == [p] + Lines(rest)
  {
    var s := p + ['\n'] + rest;
    IndexOfCharAfterFree(p, '\n', rest);
    assert s[..|p|] == p && s[|p| + 1..] == rest;
    if |p| > 0 {
      assert p[|p| - 1] in p;
    }
    assert StripCarriageReturn(p) == p;
  }

  /** The separator occurs in a join of at least two parts. */
  lemma JoinHasSeparator(parts: seq<string>, c: char)
    requires |parts| >= 2
    ensures c in Join(parts, [c])
  {
    assert Join(parts, [c])[|parts[0]|] == c;
  }

  lemma JoinCons(x: string, xs: seq<string>, sep: string)
    requires |xs| > 0
    ensures Join([x] + xs, sep) == x + sep + Join(xs, sep)
  {
    assert ([x] + xs)[1..] == xs;
  }

  /** A non-empty text is its first char followed by the rest. */
  lemma ConsAssoc(s: string, tail: string)
    requires |s| > 0
    ensures [s[0]] + (s[1..] + tail) == s + tail
  {
    assert s == [s[0]] + s[1..];
  }

  /** Strings glued together in order. */
  function Concat(parts: seq<string>): string {
    if |parts| == 0 then "" else parts[0] + Concat(parts[1..])
  }

  lemma ConcatOne(x: string)
    ensures Concat([x]) == x
  {
    assert Concat([x]) == x + Concat([]);
  }

  lemma {:induction false} ConcatAppend(a: seq<string>, b: seq<string>)
    ensures Concat(a + b) == Concat(a) + Concat(b)
  {
    if |a| == 0 {
      assert a + b == b;
    } else {
      assert (a + b)[1..] == a[1..] + b;
      ConcatAppend(a[1..], b);
    }
  }
}

=== FILE: typing.dfy ===
/**
 * Typing a command (`config/run.rs`): the output events that show a
 * command being typed at the prompt, and the bytes actually sent to the
 * shell for a command or a key.
 */
module Typing {
  import opened Base
  import Text
  import Utf8
  import ControlCodes
  import Config
  import opened Asciicast
  import ShellSession

  type Session = ShellSession.Session

  /** The text the events show, in order. */
  function Shown(events: seq<Event>): string {
    Text.Concat(EventData(events))
  }

  lemma ShownAppend(a: seq<Event>, b: seq<Event>)
    ensures Shown(a + b) == Shown(a) + Shown(b)
  {
    EventDataAppend(a, b);
    Text.ConcatAppend(EventData(a), EventData(b));
  }

  /** Every event is output delayed by `typeSpeed`. */
  predicate Typed(events: seq<Event>, typeSpeed: nat) {
    forall i :: 0 <= i < |events| ==> events[i].kind == Output && events[i].time == typeSpeed
  }

  /** `type_line`: one output event per char, each `typeSpeed` after the
      one before, then a line ending. */
  function TypeLine(typeSpeed: nat, chars: string): (r: seq<Event>)
    ensures |r| == |chars| + 1
    ensures Typed(r, typeSpeed)
    ensures forall i :: 0 <= i < |chars| ==> r[i].data == [chars[i]]
    ensures r[|chars|] == OutputLn(typeSpeed)
  {
    if |chars| == 0 then [OutputLn(typeSpeed)]
    else [OutputEvent(typeSpeed, [chars[0]])] + TypeLine(typeSpeed, chars[1..])
  }

  /** A typed line shows the line and a line ending. */
  lemma {:induction false} TypeLineShows(typeSpeed: nat, chars: string)
    ensures Shown(TypeLine(typeSpeed, chars)) == chars + "\r\n"
    decreases |chars|
  {
    if |chars| == 0 {
      ShownOne(OutputLn(typeSpeed));
    } else {
      TypeLineShows(typeSpeed, chars[1..]);
      TypeLineCons(typeSpeed, chars);
      Text.ConsAssoc(chars, "\r\n");
    }
  }

  /** A typed line shows its first char, then the rest of it typed. */
  lemma TypeLineCons(typeSpeed: nat, chars: string)
    requires |chars| > 0
    ensures Shown(TypeLine(typeSpeed, chars)) == [chars[0]] + Shown(TypeLine(typeSpeed, chars[1..]))
  {
    var head := [OutputEvent(typeSpeed, [chars[0]])];
    var tail := TypeLine(typeSpeed, chars[1..]);
    assert TypeLine(typeSpeed, chars) == head + tail;
    ShownOne(head[0]);
    ShownAppend(head, tail);
  }

  lemma ShownOne(e: Event)
    ensures Shown([e]) == e.data
  {
    assert EventData([e]) == [e.data];
    Text.ConcatOne(e.data);
  }

  /** How a command is typed: the delay per key, the prompt shown before
      each continuation line, and the text that ends a continued line. */
  datatype Style = Style(typeSpeed: nat, secondaryPrompt: string, lineSplit: string)

  /** What line `i` of a multi-line command is preceded by: the secondary
      prompt, unless it is the first line. */
  function LinePrefix(i: nat, st: Style): string {
    if i != 0 then st.secondaryPrompt else ""
  }

  /** The text typed for line `i`: the line, with the line split unless it
      is the last line. */
  function LineText(lines: seq<string>, i: nat, st: Style): string
    requires i < |lines|
  {
    lines[i] + (if i + 1 < |lines| then st.lineSplit else "")
  }

  /** The events of line `i` of a multi-line command. */
  function LineEvents(lines: seq<string>, i: nat, st: Style): seq<Event>
    requires i < |lines|
  {
    (if i != 0 then [OutputEvent(st.typeSpeed, st.secondaryPrompt)] else [])
    + TypeLine(st.typeSpeed, LineText(lines, i, st))
  }

  /** The events of lines `from` to the last. */
  function LinesEvents(lines: seq<string>, from: nat, st: Style): (r: seq<Event>)
    requires from <= |lines|
    ensures Typed(r, st.typeSpeed)
    decreases |lines| - from
  {
    if from == |lines| then []
    else LineEvents(lines, from, st) + LinesEvents(lines, from + 1, st)
  }

  /** `Command::events`: how a command appears while it is typed. */
  function CommandEvents(table: ControlCodes.ControlTable, cmd: Config.Command, st: Style): (r: seq<Event>)
    ensures Typed(r, st.typeSpeed)
    ensures cmd.SingleLine? ==> |r| == |cmd.line| + 1
    ensures cmd.Control? ==> |r| == |table.text(cmd.code)| + 1
    ensures cmd.MultiLine? ==> (r == [] <==> cmd.lines == [])
  {
    match cmd
    case SingleLine(line) => TypeLine(st.typeSpeed, line)
    case MultiLine(lines) => LinesEvents(lines, 0, st)
    case Control(code) => TypeLine(st.typeSpeed, table.text(code))
  }

  /** The separator the typed lines of a multi-line command show between
      them. */
  function Continuation(st: Style): string {
    st.lineSplit + "\r\n" + st.secondaryPrompt
  }

  /** What the typed command shows: a single line or a control code's text
      and a line ending; several lines each ending with the line split and
      a line ending, continuation lines starting with the secondary prompt,
      the last line with a line ending only. No lines show nothing at all. */
  lemma CommandShows(table: ControlCodes.ControlTable, cmd: Config.Command, st: Style)
    ensures cmd.SingleLine? ==> Shown(CommandEvents(table, cmd, st)) == cmd.line + "\r\n"
    ensures cmd.Control? ==> Shown(CommandEvents(table, cmd, st)) == table.text(cmd.code) + "\r\n"
    ensures cmd.MultiLine? && cmd.lines != [] ==>
      Shown(CommandEvents(table, cmd, st)) == Text.Join(cmd.lines, Continuation(st)) + "\r\n"
    ensures cmd.MultiLine? && cmd.lines == [] ==> CommandEvents(table, cmd, st) == []
  {
    match cmd
    case SingleLine(line) => TypeLineShows(st.typeSpeed, line);
    case Control(code) => TypeLineShows(st.typeSpeed, table.text(code));
    case MultiLine(lines) =>
      if lines != [] {
        LinesShow(lines, 0, st);
        assert lines[0..] == lines;
      }
  }

  /** One line of a multi-line command shows its prefix, its text and a
      line ending. */
  lemma LineShows(lines: seq<string>, i: nat, st: Style)
    requires i < |lines|
    ensures Shown(LineEvents(lines, i, st)) == LinePrefix(i, st) + LineText(lines, i, st) + "\r\n"
  {
    var pre := if i != 0 then [OutputEvent(st.typeSpeed, st.secondaryPrompt)] else [];
    PrefixedLineShows(st.typeSpeed, pre, LineText(lines, i, st));
    assert Shown(pre) == LinePrefix(i, st) by {
      if i != 0 {
        assert Shown(pre) == Text.Concat([st.secondaryPrompt]);
      }
    }
  }

  lemma PrefixedLineShows(typeSpeed: nat, pre: seq<Event>, typed: string)
    ensures Shown(pre + TypeLine(typeSpeed, typed)) == Shown(pre) + typed + "\r\n"
  {
    ShownAppend(pre, TypeLine(typeSpeed, typed));
    TypeLineShows(typeSpeed, typed);
  }

  lemma {:induction false} LinesShow(lines: seq<string>, from: nat, st: Style)
    requires from < |lines|
    ensures Shown(LinesEvents(lines, from, st))
         == LinePrefix(from, st) + Text.Join(lines[from..], Continuation(st)) + "\r\n"
    decreases |lines| - from
  {
    if from + 1 == |lines| {
      LastLineShows(lines, from, st);
    } else {
      LinesShow(lines, from + 1, st);
      NextLineShows(lines, from, st);
    }
  }

  /** The last line shows its prefix, the line and a line ending. */
  lemma LastLineShows(lines: seq<string>, from: nat, st: Style)
    requires from + 1 == |lines|
    ensures Shown(LinesEvents(lines, from, st))
         == LinePrefix(from, st) + Text.Join(lines[from..], Continuation(st)) + "\r\n"
  {
    LineShows(lines, from, st);
    ShownAppend(LineEvents(lines, from, st), LinesEvents(lines, from + 1, st));
    assert LineText(lines, from, st) == lines[from];
    assert lines[from..] == [lines[from]];
    assert LinesEvents(lines, from + 1, st) == [];
    assert Shown([]) == "";
  }

  /** A line that is not the last, followed by the lines after it. */
  lemma NextLineShows(lines: seq<string>, from: nat, st: Style)
    requires from + 1 < |lines|
    requires Shown(LinesEvents(lines, from + 1, st))
          == LinePrefix(from + 1, st) + Text.Join(lines[from + 1..], Continuation(st)) + "\r\n"
    ensures Shown(LinesEvents(lines, from, st))
         == LinePrefix(from, st) + Text.Join(lines[from..], Continuation(st)) + "\r\n"
  {
    LineShows(lines, from, st);
    ShownAppend(LineEvents(lines, from, st), LinesEvents(lines, from + 1, st));
    assert LineText(lines, from, st) == lines[from] + st.lineSplit;
    assert LinePrefix(from + 1, st) == st.secondaryPrompt;
    Text.JoinCons(lines[from], lines[from + 1..], Continuation(st));
    assert lines[from..] == [lines[from]] + lines[from + 1..];
    Regroup(LinePrefix(from, st), lines[from], st, Text.Join(lines[from + 1..], Continuation(st)));
  }

  /** The text of one line followed by the text of the lines after it. */
  lemma Regroup(pre: string, line: string, st: Style, rest: string)
    ensures pre + (line + st.lineSplit) + "\r\n" + (st.secondaryPrompt + rest + "\r\n")
         == pre + (line + Continuation(st) + rest) + "\r\n"
  {
  }

  /** The example of a two-line command `a`, `b`: `a`, the line split, a
      line ending, the secondary prompt, `b` and a line ending. */
  lemma TwoLineExample(table: ControlCodes.ControlTable, st: Style)
    ensures Shown(CommandEvents(table, Config.MultiLine(["a", "b"]), st))
         == "a" + st.lineSplit + "\r\n" + st.secondaryPrompt + "b" + "\r\n"
  {
    CommandShows(table, Config.MultiLine(["a", "b"]), st);
    assert Text.Join(["a", "b"], Continuation(st)) == "a" + Continuation(st) + "b";
  }

  // ---------------------------------------------------------------- sending

  /** The bytes `Command::send` writes: a line, or several lines joined by
      spaces, as UTF-8 and a line feed; a control code's own bytes. */
  function CommandBytes(table: ControlCodes.ControlTable, cmd: Config.Command): (r: seq<Byte>)
    ensures !cmd.Control? ==> |r| >= 1 && r[|r| - 1] == ShellSession.NEWLINE
    ensures cmd.SingleLine? ==> Utf8.Decode(r[..|r| - 1]) == Some(cmd.line)
    ensures cmd.MultiLine? ==> Utf8.Decode(r[..|r| - 1]) == Some(Text.Join(cmd.lines, " "))
    ensures cmd.Control? ==> r == table.bytes(cmd.code)
  {
    match cmd
    case SingleLine(line) => LineBytes(line); Utf8.Encode(line) + [ShellSession.NEWLINE]
    case MultiLine(lines) => LineBytes(Text.Join(lines, " ")); Utf8.Encode(Text.Join(lines, " ")) + [ShellSession.NEWLINE]
    case Control(code) => table.bytes(code)
  }

  /** A line's UTF-8 bytes before its line feed decode back to the line. */
  lemma LineBytes(text: string)
    ensures var bs := Utf8.Encode(text) + [ShellSession.NEWLINE];
      bs[..|bs| - 1] == Utf8.Encode(text) && Utf8.Decode(bs[..|bs| - 1]) == Some(text)
  {
    var bs := Utf8.Encode(text) + [ShellSession.NEWLINE];
    assert bs[..|bs| - 1] == Utf8.Encode(text);
    Utf8.DecodeEncode(text);
  }

  /** The outcome of the writes `Command::send` makes, answered by the
      pseudo-terminal: the write of the text (a control code's bytes for a
      control code), then the write of the line feed after a line. */
  datatype Writes = Writes(textOk: bool, endingOk: bool)

  /** `Command::send`: restarts the clock of the last event, then writes the
      command. A control code is a single write; a line is the text and a
      line feed, and fails when either write fails. */
  function SendCommand(table: ControlCodes.ControlTable, s: Session, cmd: Config.Command, now: nat, w: Writes)
    : (r: Result<Session, ShellSession.SessionError>)
    ensures r.Success? <==> w.textOk && (cmd.Control? || w.endingOk)
    ensures r.Failure? ==> r.error == ShellSession.WriteError
    ensures r.Success? ==> r.value == s.(lastEvent := now, sent := s.sent + CommandBytes(table, cmd))
  {
    var s' := ShellSession.Reset(s, now);
    match cmd
    case SingleLine(line) => ShellSession.SendLine(s', Utf8.Encode(line), w.textOk, w.endingOk)
    case MultiLine(lines) => ShellSession.SendLine(s', Utf8.Encode(Text.Join(lines, " ")), w.textOk, w.endingOk)
    case Control(code) => ShellSession.Send(s', table.bytes(code), w.textOk)
  }

  /** No UTF-8 byte of a text without line feeds is a line feed. */
  lemma {:induction false} EncodeNoNewline(s: string)
    requires '\n' !in s
    ensures ShellSession.NEWLINE !in Utf8.Encode(s)
    decreases |s|
  {
    if |s| > 0 {
      assert s[0] != '\n';
      assert '\n' !in s[1..];
      EncodeNoNewline(s[1..]);
    }
  }

  /** A line command reaches the shell as exactly one line: its text, which
      decodes back to the typed text (several lines joined by spaces), and a
      single line feed at the end. */
  lemma CommandReachesShellAsOneLine(table: ControlCodes.ControlTable, cmd: Config.Command)
    requires !cmd.Control?
    requires cmd.SingleLine? ==> '\n' !in cmd.line
    requires cmd.MultiLine? ==> '\n' !in Text.Join(cmd.lines, " ")
    ensures var bs := CommandBytes(table, cmd);
      |bs| >= 1 && bs[|bs| - 1] == ShellSession.NEWLINE && ShellSession.NEWLINE !in bs[..|bs| - 1]
    ensures var bs := CommandBytes(table, cmd);
      Utf8.Decode(bs[..|bs| - 1])
        == Some(if cmd.SingleLine? then cmd.line else Text.Join(cmd.lines, " "))
  {
    var text := if cmd.SingleLine? then cmd.line else Text.Join(cmd.lines, " ");
    var bs := CommandBytes(table, cmd);
    assert bs == Utf8.Encode(text) + [ShellSession.NEWLINE];
    assert bs[..|bs| - 1] == Utf8.Encode(text);
    EncodeNoNewline(text);
    Utf8.DecodeEncode(text);
  }

  // ---------------------------------------------------------------- keys

  /** `char as u8`: the low byte of the char's scalar value. */
  function CharByte(c: char): (b: Byte)
    ensures c as int < 0x100 ==> b == c as int
    ensures (c as int - b) % 0x100 == 0
  {
    (c as int) % 256
  }

  /** Each char of a text as its low byte. */
  function CharsBytes(text: string): (r: seq<Byte>)
    ensures |r| == |text|
    ensures forall i :: 0 <= i < |text| ==> r[i] == CharByte(text[i])
  {
    seq(|text|, i requires 0 <= i < |text| => CharByte(text[i]))
  }

  /** The bytes `Key::send` writes, as written: each char as its low byte,
      a control code's own bytes, nothing for a pause. */
  function KeyBytes(table: ControlCodes.ControlTable, key: Config.Key): (r: seq<Byte>)
    ensures key.Char? ==> r == [CharByte(key.c)]
    ensures key.String? ==> |r| == |key.text| && forall i :: 0 <= i < |r| ==> r[i] == CharByte(key.text[i])
    ensures key.Control? ==> r == table.bytes(key.code)
    ensures key.Wait? ==> r == []
  {
    match key
    case Char(c) => [CharByte(c)]
    case String(text) => CharsBytes(text)
    case Control(code) => table.bytes(code)
    case Wait(_) => []
  }

  /** For text of ASCII chars only, the bytes sent are its UTF-8 form. */
  lemma {:induction false} KeyBytesAscii(table: ControlCodes.ControlTable, text: string)
    requires forall i :: 0 <= i < |text| ==> text[i] as int < 0x80
    ensures KeyBytes(table, Config.String(text)) == Utf8.Encode(text)
    decreases |text|
  {
    if |text| > 0 {
      KeyBytesAscii(table, text[1..]);
      assert KeyBytes(table, Config.String(text))
          == [CharByte(text[0])] + KeyBytes(table, Config.String(text[1..]));
    }
  }

  /** As written, a char outside ASCII is not sent as itself: `Ł` (U+0141)
      is sent as the byte of `A`, and `é` as a byte that is no UTF-8. */
  lemma KeyBytesNonAscii(table: ControlCodes.ControlTable)
    ensures KeyBytes(table, Config.Char('Ł')) == KeyBytes(table, Config.Char('A'))
    ensures KeyBytes(table, Config.Char('é')) == [0xE9]
    ensures Utf8.Encode("é") == [0xC3, 0xA9]
    ensures Utf8.Decode(KeyBytes(table, Config.Char('é'))) == None
  {
  }

  /** The bytes of a key, each char sent as its UTF-8 form. */
  function KeyBytesUtf8(table: ControlCodes.ControlTable, key: Config.Key): (r: seq<Byte>)
    ensures key.Char? ==> 1 <= |r| <= 4
    ensures key.String? ==> |r| >= |key.text|
    ensures key.Wait? ==> r == []
  {
    match key
    case Char(c) => Utf8.EncodeChar(c)
    case String(text) => Utf8.Encode(text)
    case Control(code) => table.bytes(code)
    case Wait(_) => []
  }

  /** Typed chars and strings reach the shell as themselves, and a string's
      bytes agree with the bytes as written exactly when it is ASCII. */
  lemma KeyBytesUtf8Decodes(table: ControlCodes.ControlTable, key: Config.Key)
    ensures key.Char? ==> Utf8.Decode(KeyBytesUtf8(table, key)) == Some([key.c])
    ensures key.String? ==> Utf8.Decode(KeyBytesUtf8(table, key)) == Some(key.text)
    ensures key.String? ==>
      (KeyBytesUtf8(table, key) == KeyBytes(table, key)
       <==> forall i :: 0 <= i < |key.text| ==> key.text[i] as int < 0x80)
  {
    match key
    case Char(c) =>
      assert Utf8.Encode([c]) == Utf8.EncodeChar(c) + Utf8.Encode([]);
      Utf8.DecodeEncode([c]);
    case String(text) =>
      Utf8.DecodeEncode(text);
      Utf8.EncodeLengthAscii(text);
      if forall i :: 0 <= i < |text| ==> text[i] as int < 0x80 {
        KeyBytesAscii(table, text);
      }
    case Control(_) =>
    case Wait(_) =>
  }

  /** How many writes `Key::send` makes: one per char of a string, one for
      a char or a control code, none for a pause. */
  function KeyWrites(key: Config.Key): nat {
    match key
    case String(text) => |text|
    case Wait(_) => 0
    case _ => 1
  }

  /** `Key::send`, as written: the `i`-th write the key makes succeeds when
      `ok(i)`, an answer of the pseudo-terminal; the chars of a string are
      written one at a time, and the first write that fails ends it. */
  function SendKey(table: ControlCodes.ControlTable, s: Session, key: Config.Key, ok: nat -> bool)
    : (r: Result<Session, ShellSession.SessionError>)
    ensures r.Success? <==> forall i :: 0 <= i < KeyWrites(key) ==> ok(i)
    ensures r.Failure? ==> r.error == ShellSession.WriteError
    ensures r.Success? ==> r.value == s.(sent := s.sent + KeyBytes(table, key))
  {
    match key
    case Char(c) => ShellSession.Send(s, [CharByte(c)], ok(0))
    case String(text) => SendChars(s, text, ok, 0)
    case Control(code) => ShellSession.Send(s, table.bytes(code), ok(0))
    case Wait(_) => Success(s)
  }

  /** The chars of a string from the `from`-th on, one write each. */
  function SendChars(s: Session, text: string, ok: nat -> bool, from: nat)
    : (r: Result<Session, ShellSession.SessionError>)
    requires from <= |text|
    ensures r.Success? <==> forall i :: from <= i < |text| ==> ok(i)
    ensures r.Failure? ==> r.error == ShellSession.WriteError
    ensures r.Success? ==> r.value == s.(sent := s.sent + CharsBytes(text[from..]))
    decreases |text| - from
  {
    if from == |text| then
      assert s.sent + CharsBytes(text[from..]) == s.sent;
      Success(s)
    else
      var s' :- ShellSession.Send(s, [CharByte(text[from])], ok(from));
      CharsBytesCons(text, from);
      SendChars(s', text, ok, from + 1)
  }

  lemma CharsBytesCons(text: string, from: nat)
    requires from < |text|
    ensures CharsBytes(text[from..]) == [CharByte(text[from])] + CharsBytes(text[from + 1..])
  {
  }

  /** The bytes of the keys in order, as written. */
  function KeysBytes(table: ControlCodes.ControlTable, keys: seq<Config.Key>): (r: seq<Byte>)
    ensures keys == [] ==> r == []
    ensures |keys| == 1 ==> r == KeyBytes(table, keys[0])
  {
    if |keys| == 0 then [] else KeyBytes(table, keys[0]) + KeysBytes(table, keys[1..])
  }

  /** Keys pressed one after another send their bytes one after another. */
  lemma {:induction false} KeysBytesAppend(table: ControlCodes.ControlTable, a: seq<Config.Key>, b: seq<Config.Key>)
    ensures KeysBytes(table, a + b) == KeysBytes(table, a) + KeysBytes(table, b)
    decreases |a|
  {
    if |a| == 0 {
      assert a + b == b;
    } else {
      assert (a + b)[0] == a[0] && (a + b)[1..] == a[1..] + b;
      KeysBytesAppend(table, a[1..], b);
    }
  }

  /** Pauses send nothing. */
  lemma {:induction false} WaitsSendNothing(table: ControlCodes.ControlTable, keys: seq<Config.Key>)
    requires forall i :: 0 <= i < |keys| ==> keys[i].Wait?
    ensures KeysBytes(table, keys) == []
    decreases |keys|
  {
    if |keys| > 0 {
      WaitsSendNothing(table, keys[1..]);
    }
  }
}

=== FILE: utf8.dfy ===
/**
 * UTF-8, the byte form in which Rust hands a `&str` or `String` to a
 * writer (`AsRef<[u8]>`), with its decoder as the partner definition.
 */
module Utf8 {
  import opened Base

  /** The one to four bytes of one scalar value. */
  function EncodeChar(c: char): (r: seq<Byte>)
    ensures 1 <= |r| <= 4
    ensures |r| == 1 <==> c as int < 0x80
  {
    var n := c as int;
    if n < 0x80 then [n]
    else if n < 0x800 then [0xC0 + n / 0x40, 0x80 + n % 0x40]
    else if n < 0x1_0000 then [0xE0 + n / 0x1000, 0x80 + (n / 0x40) % 0x40, 0x80 + n % 0x40]
    else [0xF0 + n / 0x4_0000, 0x80 + (n / 0x1000) % 0x40, 0x80 + (n / 0x40) % 0x40, 0x80 + n % 0x40]
  }

  function Encode(s: string): (r: seq<Byte>)
    ensures |r| >= |s|
  {
    if |s| == 0 then [] else EncodeChar(s[0]) + Encode(s[1..])
  }

  /** Number of bytes of the sequence a leading byte starts. */
  function SequenceLength(lead: Byte): nat {
    if lead < 0x80 then 1
    else if lead < 0xE0 then 2
    else if lead < 0xF0 then 3
    else 4
  }

  /** The scalar value a well-formed sequence of 1 to 4 bytes encodes. */
  function DecodeSequence(bs: seq<Byte>): int
    requires 1 <= |bs| <= 4
  {
    var b0: int := bs[0];
    if |bs| == 1 then b0
    else
      var b1: int := bs[1];
      if |bs| == 2 then (b0 - 0xC0) * 0x40 + (b1 - 0x80)
      else
        var b2: int := bs[2];
        if |bs| == 3 then ((b0 - 0xE0) * 0x40 + (b1 - 0x80)) * 0x40 + (b2 - 0x80)
        else
          var b3: int := bs[3];
          (((b0 - 0xF0) * 0x40 + (b1 - 0x80)) * 0x40 + (b2 - 0x80)) * 0x40 + (b3 - 0x80)
  }

  lemma DecodeEncodeChar(c: char)
    ensures SequenceLength(EncodeChar(c)[0]) == |EncodeChar(c)|
    ensures DecodeSequence(EncodeChar(c)) == c as int
  {
    var n := c as int;
    if 0x80 <= n < 0x800 {
      DecodeTwo(n);
    } else if 0x800 <= n < 0x1_0000 {
      DecodeThree(n);
    } else if 0x1_0000 <= n {
      DecodeFour(n);
    }
  }

  lemma DecodeTwo(n: int)
    requires 0x80 <= n < 0x800
    ensures SequenceLength(0xC0 + n / 0x40) == 2
    ensures DecodeSequence([0xC0 + n / 0x40, 0x80 + n % 0x40]) == n
  {
    assert n == (n / 0x40) * 0x40 + n % 0x40;
  }

  lemma DecodeThree(n: int)
    requires 0x800 <= n < 0x1_0000
    ensures SequenceLength(0xE0 + n / 0x1000) == 3
    ensures DecodeSequence([0xE0 + n / 0x1000, 0x80 + (n / 0x40) % 0x40, 0x80 + n % 0x40]) == n
  {
    var q := n / 0x40;
    assert q == (q / 0x40) * 0x40 + q % 0x40;
    assert q / 0x40 == n / 0x1000;
    assert n == q * 0x40 + n % 0x40;
  }

  lemma DecodeFour(n: int)
    requires 0x1_0000 <= n < 0x11_0000
    ensures SequenceLength(0xF0 + n / 0x4_0000) == 4
    ensures DecodeSequence([0xF0 + n / 0x4_0000, 0x80 + (n / 0x1000) % 0x40,
                            0x80 + (n / 0x40) % 0x40, 0x80 + n % 0x40]) == n
  {
    var q := n / 0x40;
    var p := q / 0x40;
    assert p == n / 0x1000;
    assert p / 0x40 == n / 0x4_0000;
    assert p == (p / 0x40) * 0x40 + p % 0x40;
    assert q == p * 0x40 + q % 0x40;
    assert n == q * 0x40 + n % 0x40;
  }

  /** Decoding of a byte string, one sequence at a time; bytes that do
      not form a sequence (cut short, or a value that is no scalar) end
      the decoding with a failure. */
  function Decode(bs: seq<Byte>): (r: Option<string>)
    decreases |bs|
  {
    if |bs| == 0 then Some([])
    else
      var k := SequenceLength(bs[0]);
      if k > |bs| then None
      else
        var v := DecodeSequence(bs[..k]);
        if !(0 <= v < 0xD800 || 0xE000 <= v < 0x11_0000) then None
        else match Decode(bs[k..])
          case None => None
          case Some(rest) => Some([v as char] + rest)
  }

  /** Decoding undoes encoding. */
  lemma {:induction false} DecodeEncode(s: string)
    ensures Decode(Encode(s)) == Some(s)
  {
    if |s| > 0 {
      var e := EncodeChar(s[0]);
      var bs := Encode(s);
      DecodeEncodeChar(s[0]);
      assert bs[..|e|] == e;
      assert bs[|e|..] == Encode(s[1..]);
      DecodeEncode(s[1..]);
      assert s == [s[0]] + s[1..];
    }
  }

  /** Encoding takes one byte per character exactly for ASCII text. */
  lemma {:induction false} EncodeLengthAscii(s: string)
    ensures |Encode(s)| == |s| <==> forall i :: 0 <= i < |s| ==> s[i] as int < 0x80
  {
    if |s| > 0 {
      EncodeLengthAscii(s[1..]);
      assert forall i :: 1 <= i < |s| ==> s[i] == s[1..][i - 1];
    }
  }
}
